=== FILE: README.md ===
# TrueBalance core in Dafny

TrueBalance is a personal-finance service. A user registers or logs in and
receives a signed bearer token, which is backed by a row in `sessions`. The
user links bank accounts through the Teller provider, and the server copies
the provider's accounts and transactions into its own tables. Each
transaction is tagged with a spending category.

This project models that core as pure functions over an immutable in-memory
store, and proves properties of it:

- `schema.dfy` (module `Schema`): the four tables `users`, `accounts`,
  `transactions` and `sessions`. It also holds their insert shapes, the
  column defaults, `decimal(12, 2)` as integer cents, and `insertUserSchema`.
- `storage.dfy` (module `Storage`): `DatabaseStorage` as a store of row
  sequences. Every query is a function. The database's constraints are
  checked where the database would reject a statement: primary keys,
  `unique()`, `references()` and the decimal range. The invariant `Valid`
  collects them, and every write preserves it.
- `token_crypto.dfy` and `base64.dfy` (modules `TokenCrypto`, `Base64`):
  how the provider credential is stored.
  - The secret is chosen, and refused in production when it is weak.
  - The blob is framed as `iv || tag || ciphertext` and written in the
    base64 of section 4 of RFC 4648.
  - A failed decryption reads as "no token".
  - AES-256-GCM and scrypt are a parameter `Cipher`.
- `categorizer.dfy` (module `Categorizer`): `categorizeTransaction`. It is
  given a reference definition, "the first keyword group that matches",
  and the two are proved equal.
- `teller.dfy` (module `Teller`): `syncUserAccounts` and
  `syncAccountTransactions`, as folds over the provider's lists. The
  provider is an oracle that returns a list or a failure.
- `dedup_window.dfy` (module `DedupWindow`): a concrete store that exhibits
  the finding below, and general lemmas about the 50-row window.
- `auth.dfy` (module `Auth`): the bearer-token gate `authenticateToken`.
  JWT signing and verification are a parameter `Jwt`.
- `routes.dfy` (module `Routes`): the register, login and logout handlers
  as functions from (store, request) to (store, response). It also holds
  the clamp on the transactions `limit`. bcrypt is a parameter `Hasher`.
- `client_auth.dfy` (module `ClientAuth`): the browser's `AuthService`, with
  its token, its user and the `localStorage` map it writes through.
- `server_log.dfy` (module `ServerLog`): the request log line (the `/api`
  filter, when the body is appended, and truncation to 80 characters), and
  the status and body of the last-resort error handler.
- `wrappers.dfy`, `seqs.dfy` and `text.dfy`: `Option`/`Result`, sequence
  helpers, and the string operations the source uses (`toLowerCase` on
  ASCII, `includes`, `startsWith`, `split(' ')`, number rendering).

Clocks, random ids and IVs, the network, and the cryptographic and hashing
libraries are all parameters:

- a sync pass, a request or a client call receives one instant `now`;
- generated ids are chosen by `Storage.FreshId`, a deterministic function
  that returns an id not yet taken;
- the IV is an argument;
- the provider's answers, `jwt`, `bcrypt`, AES-GCM, scrypt, the e-mail
  syntax check and `JSON.stringify`/`JSON.parse` of a user are
  function-valued parameters.

Where a property needs these parameters to behave, it says so as a named
predicate:

- `Auth.Sound`: tokens are words, and a token verifies for a week;
- `Routes.HasherSound`: a password checks against its own hash;
- `TokenCrypto.Correct`: opening a sealed text gives it back;
- `ClientAuth.RoundTrips`: parsing a stringified user gives it back.

Two behaviours of the code worth knowing:

- "Random Store XYZ" is categorised as `shopping`, because `store` is a
  shopping keyword (server/teller.ts:246).
- `syncAccountTransactions` with an `accountId` that names none of the
  user's accounts processes nothing and raises no error
  (server/teller.ts:176-181, `Teller.UnknownAccountSyncsNothing`).

## Model

| member | source | states |
|---|---|---|
| `Schema.ParseInsertUser` | shared/schema.ts:81-87 | a body is accepted iff `email` is a string passing the e-mail check and `password` is a string whose JavaScript `length` (UTF-16 code units) is at least 8; the result is exactly those two fields, and a rejection lists at least one issue |
| `Schema.FourAstralCharactersAreLongEnough` | shared/schema.ts:83 | four characters outside the Basic Multilingual Plane make an accepted password, since `min(8)` counts code units |
| `Schema.SevenCharactersAreTooShort` | shared/schema.ts:83 | seven characters of the Basic Multilingual Plane are refused |
| `Text.Utf16LengthAppend` | shared/schema.ts:83 | the code-unit length `min(8)` compares is additive over concatenation |
| `Text.Utf16LengthIsLengthIffBmp` | shared/schema.ts:83 | code units and characters agree iff no character lies above the Basic Multilingual Plane |
| `Storage.FreshId` | shared/schema.ts:9 | a generated id is non-empty and differs from every id already in the table |
| `Storage.GetUser` | server/storage.ts:47-50 | finds a stored user with that id, and finds none iff no user has it |
| `Storage.GetUserByEmail` | server/storage.ts:52-55 | finds a stored user with that e-mail, and finds none iff no user has it |
| `Storage.CreateUser` | server/storage.ts:57-63 | fails (unique violation, shared/schema.ts:10) iff the e-mail is taken; otherwise appends one user with a new id, the given e-mail and password, no provider token, and keeps the store valid |
| `Storage.CreateSession` | server/storage.ts:65-71 | succeeds iff the token is unused and the user exists; appends exactly one session carrying the given user, token and expiry |
| `Storage.GetSession` | server/storage.ts:73-79 | finds a stored session with that token, and none iff no session has it |
| `Storage.DeleteSession` | server/storage.ts:81-83 | afterwards no session has the token, every session with another token remains, no session is added, other tables are untouched |
| `Storage.GetAccountsByUserId` | server/storage.ts:85-90 | returns exactly the accounts whose owner is the user, each as often as the table holds it and no other row |
| `Storage.CreateAccount` | server/storage.ts:92-98 | succeeds iff the balance fits `decimal(12, 2)` and the owner exists; the new row has a new id, the given columns, and currency `USD` / active `true` when omitted |
| `Storage.PatchTouchesOnlyNamedColumns` | server/storage.ts:100-107 | an update changes exactly the columns it names among the seven a patch can name (see "## Left out"); the columns it cannot name keep their values |
| `Storage.UpdateAccount` | server/storage.ts:100-107 | for a patch of the seven columns the sync writes and reads (see "## Left out"), only the row with the id is patched, every other row and table is unchanged, the result is undefined iff no row has the id, and an empty update is refused |
| `Storage.SortNewestFirst` | server/storage.ts:114 | ordering by date descending yields a permutation of the rows in non-increasing date order |
| `Storage.AccountRows` | server/storage.ts:112-113 | the `WHERE account_id` selection: each row of the account exactly as often as the table holds it, and no other row |
| `Storage.GetTransactionsByAccountId` | server/storage.ts:109-116 | exactly min(`limit`, number of the account's rows) rows, none more often than the account's rows hold it, newest first; a row of the account left out means the result is full and every returned row is at least as new |
| `Storage.AccountQueryWithRoomIsAllRows` | server/storage.ts:109-116 | when `limit` leaves room, the query returns every row of the account exactly once per copy, only reordered |
| `Storage.UserRows` | server/storage.ts:132-134 | the inner join on owned accounts: each row of an owned account exactly as often as the table holds it, and no other row |
| `Storage.GetTransactionsByUserId` | server/storage.ts:118-137 | exactly min(`limit`, number of the user's rows) rows, none more often than the join holds it, newest first; a row left out means the result is full and no older than it |
| `Storage.UserQueryWithRoomIsAllRows` | server/storage.ts:118-137 | when `limit` leaves room, the query returns every row of the user's accounts, only reordered |
| `Storage.CreateTransaction` | server/storage.ts:139-145 | succeeds iff the amount fits and the account exists; appends exactly the row built from the insert with defaults filled |
| `Storage.CreateTransactions` | server/storage.ts:147-152 | an empty batch is refused; otherwise succeeds iff every amount fits and every account exists, appending one row per insert, in order, with new ids |
| `Storage.SetUserTellerToken` | server/storage.ts:155-162 | fails iff the encryption secret is refused; otherwise only the named user's token column changes, to the sealed text |
| `Storage.GetUserTellerToken` | server/storage.ts:164-180 | a missing user or an empty/null column gives undefined; otherwise the result is the decryption, undefined when it fails, never an error |
| `Storage.RemoveUserTellerToken` | server/storage.ts:182-187 | nulls the named user's token column and keeps the store valid |
| `Storage.GetAfterSetTellerToken` | server/storage.ts:155-180 | reading the token back after storing it gives the plaintext |
| `Storage.GetAfterRemoveTellerToken` | server/storage.ts:164-187 | after removal the token reads as undefined |
| `Storage.WithTellerTokenKeepsKeys` | server/storage.ts:158-161 | writing the token column keeps ids, e-mails and validity |
| `TokenCrypto.Or` | server/storage.ts:194 | `a || b` on optional strings: truthy iff either is, and `a` wins when truthy |
| `TokenCrypto.EncryptionSecret` | server/storage.ts:194-203 | throws iff in production with a missing, empty or `fallback-secret` secret; otherwise a non-empty secret, the configured one when it is strong |
| `TokenCrypto.SecretsAgree` | server/storage.ts:237-238 | decryption derives its key from the same secret encryption used, and outside production encryption never refuses |
| `TokenCrypto.Unframe` | server/storage.ts:232-234 | the three slices concatenate to the input, with a 12-byte iv and 16-byte tag whenever the input is long enough |
| `TokenCrypto.UnframeFrame` | server/storage.ts:221-234 | cutting at 12 and 28 gives back the iv, tag and ciphertext that were joined |
| `TokenCrypto.Encrypt` | server/storage.ts:190-223 | fails iff the secret is refused; the result is base64 whose first 12 bytes are the iv |
| `TokenCrypto.Decrypt` | server/storage.ts:225-251 | text that is not base64 decrypts to nothing |
| `TokenCrypto.DecryptEncrypt` | server/storage.ts:190-251 | decrypting an encryption gives back the plaintext |
| `Base64.ValueOfCharOf` | server/storage.ts:222 | every sextet's character reads back as that sextet |
| `Base64.FromToSymbols` | server/storage.ts:222-229 | grouping bytes into padded 4-symbol groups and back gives the bytes |
| `Base64.ToFromSymbols` | server/storage.ts:222-229 | symbols that decode are exactly the encoding of what they decode to |
| `Base64.Encode` | server/storage.ts:222 | 4 characters for every started group of 3 bytes |
| `Base64.DecodeEncode` | server/storage.ts:222-229 | decoding an encoding gives the bytes back |
| `Base64.DecodeIffEncode` | server/storage.ts:222-229 | text decodes to some bytes iff it is their encoding |
| `Categorizer.Categorize` | server/teller.ts:227-272 | the result is one of the seven labels |
| `Categorizer.CategorizeIsFirstMatch` | server/teller.ts:227-272 | the cascade of `if`s equals "the first group with a keyword in the lower-cased text, else other" |
| `Categorizer.FirstMatchIsEarliest` | server/teller.ts:230-268 | with distinct group names, group `i` is chosen iff it matches and no earlier group does |
| `Categorizer.CategorizeIgnoresCase` | server/teller.ts:228 | a description and its lower-cased form get the same category |
| `Categorizer.CategorizeEarliestGroupWins` | server/teller.ts:230-268 | category `i` is returned iff group `i` has a keyword in the text and no earlier group does |
| `Categorizer.CategorizeOtherIffNoKeyword` | server/teller.ts:270-271 | `other` iff no keyword of any group occurs at any position of the lower-cased text |
| `Categorizer.WholeFoodsIsFood` | server/teller.ts:231-234 | "Whole Foods Market #123" is food |
| `Categorizer.UberTripIsTransportation` | server/teller.ts:238-241 | "Uber Trip" is transportation |
| `Categorizer.RandomStoreIsShopping` | server/teller.ts:245-247 | "Random Store XYZ" is shopping |
| `Categorizer.GasMarketIsFood` | server/teller.ts:231-241 | "gas market" is food, since food is checked before transportation |
| `Teller.LinkedAccount` | server/teller.ts:149-150 | finds one of the user's accounts with the provider id, and none iff the user has none |
| `Teller.RefreshAccount` | server/teller.ts:152-158 | the linked row gets the new balance, active flag and sync time and nothing else; no row is added; fails iff the balance does not fit |
| `Teller.AddAccount` | server/teller.ts:137-161 | exactly one row is appended, owned by the user, with the provider id, lower-cased type, `isActive = (status == "open")` |
| `Teller.SyncAccount` | server/teller.ts:148-162 | a linked remote account refreshes the linked row, an unseen one adds a row; validity is kept |
| `Teller.SyncAccountLinks` | server/teller.ts:148-162 | after one step the remote account is linked |
| `Teller.SyncAccountKeepsLinks` | server/teller.ts:148-162 | a step never unlinks an account |
| `Teller.SyncAccountKeepsRows` | server/teller.ts:137-162 | a step, refresh or insert, keeps every existing account row at its index with its id, owner, provider id and creation time |
| `Teller.SyncAccountsFrom` | server/teller.ts:136-163 | only accounts change; every earlier account row stays at its index with its id, owner, provider id and creation time; every failure is a database failure; validity is kept |
| `Teller.SyncUserAccounts` | server/teller.ts:124-170 | a provider failure is rethrown with the store unchanged; users, transactions and sessions never change, and no account row is removed or replaced |
| `Teller.SyncAccountsFromLinksAll` | server/teller.ts:136-163 | after a successful pass every remote account is linked |
| `Teller.SyncAccountsFromKeepsLinks` | server/teller.ts:136-163 | a pass never unlinks an account |
| `Teller.SyncLinkedCreatesNothing` | server/teller.ts:149-158 | when every remote account is already linked, no row is created |
| `Teller.SyncUserAccountsTwiceCreatesNothing` | server/teller.ts:124-170 | a second sync with the same provider list leaves the account count unchanged |
| `Teller.SyncAccountKeepsLinksUnique` | server/teller.ts:148-162 | a step never gives the user two accounts with one provider id |
| `Teller.SyncAccountsFromKeepsLinksUnique` | server/teller.ts:136-163 | nor does a pass |
| `Teller.RepeatedAccountCreatesOneRow` | server/teller.ts:148-162 | an unseen id listed twice creates one row, because the lookup is redone |
| `Teller.ExternalIds` | server/teller.ts:192 | the set holds exactly the provider ids of the given rows |
| `Teller.Unseen` | server/teller.ts:197-198 | keeps the provider transactions whose id is not known, in order, and is empty iff every id is known |
| `Teller.UnseenIsFilter` | server/teller.ts:197-198 | the kept list is the filter of the response by "id not known" |
| `Teller.NewTransactions` | server/teller.ts:195-211 | one insert per unseen provider transaction, in the provider's order |
| `Teller.NewTransactionsMeaning` | server/teller.ts:197-210 | every insert has the account's id, an id not known, the categorised description, and type expense iff the provider type is debit; every unseen transaction is inserted; nothing is inserted iff all ids are known |
| `Teller.RepeatedTransactionIsInsertedTwice` | server/teller.ts:197-198 | a new id appearing twice in one response is inserted twice |
| `Teller.Known` | server/teller.ts:190-192 | every known id is that of a stored row of the account; without a window every such row's id is known |
| `Teller.SyncAccountStep` | server/teller.ts:183-217 | a provider failure stops with the store unchanged; otherwise exactly the new rows are appended with new ids, and nothing is written when nothing is new |
| `Teller.SyncTransactionsFrom` | server/teller.ts:182-218 | only transactions are appended, earlier rows stay, validity is kept |
| `Teller.AccountsToSync` | server/teller.ts:177-180 | the user's accounts, or only those with the truthy `accountId`, each with its table multiplicity and nothing else |
| `Teller.AccountsToSyncVisitsEachOnce` | server/teller.ts:177-183 | with account ids unique, the pass lists no account twice, so none is synced twice |
| `Teller.SyncAccountTransactions` | server/teller.ts:172-225 | the pass as written; rows are only appended and the store stays valid |
| `Teller.SyncAccountTransactionsDedupAll` | server/teller.ts:190-192 | the pass deduplicating against all rows of the account; rows are only appended and the store stays valid |
| `Teller.UnknownAccountSyncsNothing` | server/teller.ts:177-182 | an id naming none of the user's accounts syncs nothing and raises no error |
| `Teller.SyncTransactionsFromAppend` | server/teller.ts:182-218 | a pass over `a + b` is the pass over `a` then, unless it failed, over `b` |
| `Teller.ProviderFailureKeepsEarlierInserts` | server/teller.ts:182-224 | a provider failure ends the pass with that error, skips later accounts and keeps earlier inserts |
| `Teller.StepCovers` | server/teller.ts:190-215 | after a full-dedup step every id the provider returned is stored under the account |
| `Teller.SyncTransactionsFromCovers` | server/teller.ts:182-218 | after a successful full-dedup pass every visited account is covered |
| `Teller.CoveredSyncIsNoOp` | server/teller.ts:214-217 | a full-dedup pass over covered accounts writes nothing |
| `Teller.DedupAllResyncIsNoOp` | server/teller.ts:172-225 | with full dedup, re-syncing against an unchanged provider changes nothing |
| `DedupWindow.OlderThanWindowIsHidden` | server/storage.ts:109-116 | a row with `limit` distinct newer rows of its account is not returned |
| `DedupWindow.HiddenIdIsUnknown` | server/teller.ts:190-192 | a hidden row's provider id is not known to the pass as written |
| `DedupWindow.StepInsertsUnknown` | server/teller.ts:197-215 | a response of one unknown transaction appends exactly that row |
| `DedupWindow.StepSkipsKnown` | server/teller.ts:197-217 | a response of one known transaction changes nothing |
| `DedupWindow.WindowStoreIsValid` | shared/schema.ts:9-47 | the example store meets every key, reference and decimal constraint |
| `DedupWindow.DedupWindowInsertsDuplicate` | server/teller.ts:191 | on that store the pass as written succeeds and appends a second row with provider id `x` to account `a` |
| `DedupWindow.DedupAllSkipsStoredRow` | server/teller.ts:190-192 | on the same store the full-dedup pass changes nothing |
| `Auth.BearerToken` | server/auth.ts:45-46 | a token is a non-empty word; no header gives no token |
| `Auth.BearerTokenOfHeader` | server/auth.ts:46 | `scheme token [more]` yields exactly `token` |
| `Auth.BareTokenIsRefused` | server/auth.ts:46-50 | a header without a space carries no token |
| `Auth.Authenticate` | server/auth.ts:44-75 | 401 iff no token; 403 invalid iff the signature fails; 403 expired iff the session is missing or `now > expiresAt`; proceeds iff all pass and the user exists, with that user's id and e-mail |
| `Auth.EarlyFailureIgnoresStore` | server/auth.ts:48-56 | header and signature failures do not depend on the store |
| `Auth.ProceedIsSigner` | server/auth.ts:52-72 | the admitted user is the one the token was signed for |
| `Routes.OpenSession` | server/routes.ts:62-70 | the new session is for the user and token and expires a week after `now` |
| `Routes.Register` | server/routes.ts:42-86 | bad input is 400 with the issues; a taken e-mail is 400 with nothing written; 201 adds one user with the hashed password and one week-long session for the signed token; a 500 after the insert keeps the user |
| `Routes.Login` | server/routes.ts:88-131 | bad input is 400; 401 iff the e-mail is unknown or the password fails; 200 adds one week-long session for the signed token; every non-200 writes nothing |
| `Routes.Logout` | server/routes.ts:133-147 | a gate refusal is returned as is; otherwise the presented token's session is deleted, nothing else changes, and the reply is 200 |
| `Routes.ClampLimit` | server/routes.ts:182-184 | the limit is in [1, 500], is 50 when absent, is unchanged when in range, and saturates outside |
| `Routes.ClampLimitStable` | server/routes.ts:184 | clamping is idempotent and monotone |
| `Routes.RegisterTwiceIsRefused` | server/routes.ts:46-50 | registering the same body again is 400 and writes nothing |
| `Routes.LoginFailuresLookAlike` | server/routes.ts:93-102 | an unknown e-mail and a wrong password get identical responses |
| `Routes.RegisterThenAuthenticate` | server/routes.ts:60-78 | the token a registration returns passes the gate for a week, as the new user |
| `Routes.LoginThenAuthenticate` | server/routes.ts:105-123 | the token a login returns passes the gate for a week, as that user |
| `Routes.RegisterThenLogin` | server/routes.ts:53-117 | after registering, logging in with the same body succeeds as the same user |
| `Routes.LogoutRevokes` | server/routes.ts:135-140 | after a logout the same header is refused with 403 |
| `ClientAuth.Load` | client/src/lib/auth.ts:20-31 | the token is loaded as stored; a non-empty user that does not parse is removed and leaves no user; otherwise storage is untouched; memory agrees with storage |
| `ClientAuth.SetAuth` | client/src/lib/auth.ts:71-76 | token and user are set in memory and under `auth_token` / `auth_user` |
| `ClientAuth.SignIn` | client/src/lib/auth.ts:33-45 | a response sets the state; a failed request leaves it as it was |
| `ClientAuth.ClearAuth` | client/src/lib/auth.ts:78-83 | token and user are cleared, both keys removed, every other key kept |
| `ClientAuth.Logout` | client/src/lib/auth.ts:47-69 | the state is always cleared; a request is made iff the token is truthy, carrying `Bearer <token>` |
| `ClientAuth.GetAuthHeaders` | client/src/lib/auth.ts:97-104 | throws "No authentication token available" iff the token is null or empty; otherwise exactly `{Authorization: "Bearer " + token}` |
| `ClientAuth.SignInAuthenticates` | client/src/lib/auth.ts:33-95 | after a sign-in the client is authenticated and sends the new token |
| `ClientAuth.ClientHeaderReachesGate` | client/src/lib/auth.ts:101-103 | the server's header parsing recovers the client's token |
| `ClientAuth.ReloadAfterSignIn` | client/src/lib/auth.ts:20-76 | reloading after a sign-in restores the same state |
| `ClientAuth.LogoutSignsOut` | client/src/lib/auth.ts:47-104 | after logout, and after a reload, the client is not authenticated and has no header |
| `ClientAuth.CorruptUserSignsOut` | client/src/lib/auth.ts:23-29 | an unparsable saved user leaves the client unauthenticated and the key removed |
| `ClientAuth.OperationsKeepConsistent` | client/src/lib/auth.ts:33-83 | sign-in and logout keep memory and storage in agreement |
| `ServerLog.Truncate` | server/index.ts:87-89 | at most 80 characters; a short line is unchanged; a long one is its first 79 characters and `…` |
| `ServerLog.TruncateIdempotent` | server/index.ts:87-89 | truncating twice is truncating once |
| `ServerLog.TruncateKeepsPrefix` | server/index.ts:87-89 | any prefix shorter than 80 survives truncation |
| `ServerLog.LogLine` | server/index.ts:75-93 | a line is written iff the path starts with `/api`, and it is at most 80 characters |
| `ServerLog.LogLineNamesRequest` | server/index.ts:78-89 | the line starts with method, path, status and duration whenever they fit |
| `ServerLog.ProductionLogOmitsBody` | server/index.ts:80-85 | in production the line does not depend on the reply body |
| `ServerLog.AuthPathLogOmitsBody` | server/index.ts:82-85 | on `/api/auth/` paths the line does not depend on the reply body |
| `ServerLog.DevelopmentLogShowsBody` | server/index.ts:82-85 | outside production, on other API paths, a line that fits carries ` :: ` and the body |
| `ServerLog.RespondToError` | server/index.ts:101-110 | status is the first truthy of `status`, `statusCode`, else 500, and a reply is written iff that status lies in 100..999 (outside, writing it throws); the message defaults to "Internal Server Error"; the body is brief iff in production, and otherwise carries the stack and path |
| `ServerLog.ProductionErrorHidesDetails` | server/index.ts:106-108 | in production the reply does not depend on the stack or the path |

## Left out

- The HTTPS transport of `makeRequest`, `getAccountBalance` and `getTellerConnectConfig` are network plumbing. The provider is an oracle instead.
- AES-256-GCM, scrypt, bcrypt, JWT signing and the e-mail syntax check come from external libraries. They are parameters, and their behaviour is assumed only through the named predicates above.
- The database driver and connection setup in server/db.ts are I/O configuration.
- The rate limiters, helmet/CSP and CORS settings are library configuration.
- Concurrency is out of scope, including races between concurrent sync calls. Each operation runs alone on the store.
- React components and pages are presentational and not part of this model.
- `console.log` and `console.error` output, and the log sink `log`, are I/O. `ServerLog.LogLine` returns the line instead of writing it.
- `Routes.ClampLimit`: `parseInt` returning NaN for a non-numeric `limit` is not modelled, because NaN is not an integer. The query is either absent or an integer.
- `Routes.Register`: "seven days later" (`setDate(getDate() + 7)`) is a fixed `7 * 24 * 60 * 60 * 1000` ms. Daylight-saving shifts are ignored.
- `Routes.Login`: the same applies to the expiry of a login session.
- `Teller.SyncAccountTransactions`: one instant `now` serves the whole pass, while the source reads the clock per account. Provider dates are already-parsed instants.
- `Teller.SyncUserAccounts`: one instant `now` serves the whole pass.
- `Teller.SyncUserAccounts`: the ledger balance is integer cents, not the float `ledger.toString()`.
- `Categorizer.Categorize`: `toLowerCase` is modelled on ASCII letters only. Unicode case folding is left out.
- `ServerLog.Truncate`: lengths are counted in characters, not UTF-16 code units.
- `ServerLog.RespondToError`: a `status` that is not a number (a string, say) is not representable, since statuses are integers. After an out-of-range status makes the reply throw, the framework's default error handler answers. That answer is not part of this model.
- `ServerLog.LogLine`: the JSON reply body is given as its rendered text. A falsy JSON value counts as no body.
- `ClientAuth.Load`: a saved user parses to a user, to null, or fails. Other JSON values, such as a number, are not modelled.
- `Base64.Decode`: the decoder is strict, accepting only canonical padded text. Node's `Buffer.from(…, 'base64')` also accepts unpadded and malformed text, which is left out. So `TokenCrypto.Decrypt` reports failure on some text Node would try to decrypt.
- `Storage.UpdateAccount`: a patch can name `externalId`, `name`, `type`, `balance`, `currency`, `isActive` and a non-null `lastSyncAt`. `Partial<Account>` also allows `id`, `userId`, `createdAt` and `lastSyncAt: null`, and those patches are not modelled. So `Storage.PatchTouchesOnlyNamedColumns` keeping id, owner and creation time is a consequence of the narrower patch, not a promise of the source. The only caller (server/teller.ts:154-158) names just `balance`, `isActive` and `lastSyncAt`.
- `Storage.SetUserTellerToken`: the `users` table in shared/schema.ts:8-13 declares no `tellerAccessToken` column, yet server/storage.ts:160 writes one. As written, the table object has no such column to set. The model adds the column to `User`, with null as "no token", and models the write storage.ts intends.
- `Storage.GetUserTellerToken`: the read at server/storage.ts:166 selects that same undeclared column. The model reads the added column.
- `Storage.RemoveUserTellerToken`: the null write at server/storage.ts:185 targets the same undeclared column. The model nulls the added column.
- `Storage.SortNewestFirst`: for rows with equal `date`, `ORDER BY date DESC` promises no order. `Storage.GetAccountsByUserId` has no `ORDER BY` at all (server/storage.ts:85-90). The model fixes table order in both cases, and `Teller.Known` and `Teller.LinkedAccount` inherit that choice. It shows only at the 50-row boundary among equal dates and for duplicate provider ids. No contract depends on the tie order: `DedupWindow.DedupWindowInsertsDuplicate` uses strictly newer rows.
- `Auth.Authenticate`: token expiry is whatever the `Jwt` parameter decides at `now`. `Auth.VerifiesForAWeek` states only the 7-day acceptance the routes rely on.

## Findings

| source | as written | input that shows it | evidently intended | confidence | as-written member | corrected member |
|---|---|---|---|---|---|---|
| server/teller.ts:191 | the dedup set of `syncAccountTransactions` is built from `getTransactionsByAccountId(account.id)`, which returns only the 50 newest rows of the account (server/storage.ts:109-116) | an account holding a transaction with provider id `x` dated before 50 newer rows; the provider returns `x` again; the pass inserts a second row with provider id `x` | "Get existing transactions to avoid duplicates": dedup against every stored row of the account, so a re-sync against an unchanged provider inserts nothing | high (proved; not executed) | `Teller.SyncAccountTransactions`, shown by `DedupWindow.DedupWindowInsertsDuplicate` | `Teller.SyncAccountTransactionsDedupAll`, with `Teller.DedupAllResyncIsNoOp` and `DedupWindow.DedupAllSkipsStoredRow` |

=== FILE: auth.dfy ===
/** server/auth.ts: the bearer-token gate `authenticateToken` and the
    pieces it is built from. JWT signing and verification and bcrypt are
    parameters; what is modelled is how the token is taken from the header
    and the order in which the checks decide the response. */
module Auth {
  import opened Wrappers
  import opened Text
  import opened Schema
  import opened Storage

  /** Seven days in milliseconds: the JWT lifetime (`expiresIn: '7d'`) and
      the lifetime the routes give a session. */
  const Week: int := 7 * 24 * 60 * 60 * 1000

  const AccessTokenRequired := "Access token required"
  const InvalidToken := "Invalid or expired token"
  const SessionExpired := "Session expired"
  const UserNotFound := "User not found"

  /** `generateToken` (a signed token for a user at an instant) and
      `verifyToken` (total: `None` for every token `jwt.verify` rejects). */
  datatype Jwt = Jwt(sign: (Id, Time) -> string, verify: (string, Time) -> Option<Id>)

  /** A signed token is a non-empty string without spaces (base64url
      segments joined by dots). */
  ghost predicate TokensAreWords(j: Jwt) {
    forall u, t :: j.sign(u, t) != "" && ' ' !in j.sign(u, t)
  }

  /** A token verifies to its user from its signing instant until a week later. */
  ghost predicate VerifiesForAWeek(j: Jwt) {
    forall u, t, now :: t <= now < t + Week ==> j.verify(j.sign(u, t), now) == Some(u)
  }

  ghost predicate Sound(j: Jwt) {
    TokensAreWords(j) && VerifiesForAWeek(j)
  }

  /** `req.user`: the authenticated user's id and e-mail address. */
  datatype AuthUser = AuthUser(id: Id, email: string)

  /** The gate's decision: a JSON error response, or `next()` with `req.user` set. */
  datatype Gate = Denied(status: int, error: string) | Proceed(user: AuthUser)

  /** Line 46: `authHeader && authHeader.split(' ')[1]`. `None` stands for
      every falsy outcome: no header, an empty header, no second field, or
      an empty second field. */
  function BearerToken(header: Option<string>): (token: Option<string>)
    ensures token.Some? ==> token.value != "" && ' ' !in token.value
    ensures header.None? ==> token.None?
  {
    match header
    case None => None
    case Some(h) =>
      var fields := SplitOnSpace(h);
      if |fields| >= 2 && fields[1] != "" then Some(fields[1]) else None
  }

  /** A string without spaces splits into itself alone. */
  lemma {:induction false} SplitWord(w: string)
    requires ' ' !in w
    ensures SplitOnSpace(w) == [w]
    decreases |w|
  {
    if w != [] {
      SplitWord(w[1..]);
      assert [w[0]] + w[1..] == w;
    }
  }

  /** The header a client sends, `<scheme> <token>`, possibly followed by
      more space-separated text, yields exactly the token. */
  lemma BearerTokenOfHeader(scheme: string, token: string, more: Option<string>)
    requires ' ' !in scheme && ' ' !in token && token != ""
    ensures var header := if more.Some? then scheme + " " + token + " " + more.value else scheme + " " + token;
      BearerToken(Some(header)) == Some(token)
  {
    if more.Some? {
      assert scheme + " " + token + " " + more.value == scheme + " " + (token + " " + more.value);
      SplitAfterWord(scheme, token + " " + more.value);
      SplitAfterWord(token, more.value);
    } else {
      SplitAfterWord(scheme, token);
      SplitWord(token);
    }
  }

  /** A header with no space carries no token: a bare token is refused. */
  lemma BareTokenIsRefused(header: string)
    requires ' ' !in header
    ensures BearerToken(Some(header)) == None
  {
    SplitWord(header);
  }

  /** The session for a token is usable at `now`: it exists and `now` is not
      after its expiry (an expiry equal to `now` is still accepted). */
  predicate SessionLive(s: Store, token: string, now: Time) {
    GetSession(s, token).Some? && now <= GetSession(s, token).value.expiresAt
  }

  /** Lines 44-75: header, then signature, then session, then user; the first
      failing check decides the response, and only when all pass is `next`
      called, with the stored user's id and e-mail address. */
  function Authenticate(s: Store, j: Jwt, header: Option<string>, now: Time): (g: Gate)
    ensures g.Denied? ==> g.status == 401 || g.status == 403
    ensures g.Denied? && g.status == 401 <==> BearerToken(header).None?
    ensures g == Denied(403, InvalidToken) <==>
      BearerToken(header).Some? && j.verify(BearerToken(header).value, now).None?
    ensures g == Denied(403, SessionExpired) <==>
      BearerToken(header).Some? && j.verify(BearerToken(header).value, now).Some? &&
      !SessionLive(s, BearerToken(header).value, now)
    ensures g.Proceed? <==>
      && BearerToken(header).Some?
      && j.verify(BearerToken(header).value, now).Some?
      && SessionLive(s, BearerToken(header).value, now)
      && j.verify(BearerToken(header).value, now).value in UserIds(s.users)
    ensures g.Proceed? ==>
      var user := GetUser(s, j.verify(BearerToken(header).value, now).value).value;
      user in s.users && g.user == AuthUser(user.id, user.email)
  {
    match BearerToken(header)
    case None => Denied(401, AccessTokenRequired)
    case Some(token) =>
      match j.verify(token, now)
      case None => Denied(403, InvalidToken)
      case Some(userId) =>
        if !SessionLive(s, token, now) then Denied(403, SessionExpired)
        else
          match GetUser(s, userId)
          case None => Denied(403, UserNotFound)
          case Some(user) =>
            Proceed(AuthUser(user.id, user.email))
  }

  /** A failure in the header or the signature is decided before the store
      is read: the response is the same whatever the sessions and users. */
  lemma EarlyFailureIgnoresStore(s1: Store, s2: Store, j: Jwt, header: Option<string>, now: Time)
    requires BearerToken(header).None? || j.verify(BearerToken(header).value, now).None?
    ensures Authenticate(s1, j, header, now) == Authenticate(s2, j, header, now)
  {
  }

  /** The user the gate admits is the one the token was signed for. */
  lemma ProceedIsSigner(s: Store, j: Jwt, header: Option<string>, u: Id, t: Time, now: Time)
    requires VerifiesForAWeek(j) && t <= now < t + Week
    requires BearerToken(header) == Some(j.sign(u, t))
    ensures Authenticate(s, j, header, now).Proceed? ==> Authenticate(s, j, header, now).user.id == u
  {
  }
}

=== FILE: base64.dfy ===
/** The base64 alphabet of section 4 of RFC 4648, with `=` padding, in which
    the encrypted provider credential is stored (`Buffer.toString('base64')`
    and `Buffer.from(text, 'base64')`). Every 3 bytes become 4 characters of
    6 bits each. */
module Base64 {
  import opened Wrappers

  type byte = b: int | 0 <= b < 256

  /** A 6-bit value. */
  predicate IsSextet(v: int) {
    0 <= v < 64
  }

  /** The character of sextet `v`: `A`-`Z`, `a`-`z`, `0`-`9`, `+`, `/`. */
  function CharOf(v: int): (c: char)
    requires IsSextet(v)
    ensures c != '='
  {
    if v < 26 then ('A' as int + v) as char
    else if v < 52 then ('a' as int + (v - 26)) as char
    else if v < 62 then ('0' as int + (v - 52)) as char
    else if v == 62 then '+'
    else '/'
  }

  /** The sextet a character stands for, or `None` outside the alphabet. */
  function ValueOf(c: char): (r: Option<int>)
    ensures r.Some? ==> IsSextet(r.value) && CharOf(r.value) == c
    ensures c == '=' ==> r.None?
  {
    if 'A' <= c <= 'Z' then Some(c as int - 'A' as int)
    else if 'a' <= c <= 'z' then Some(c as int - 'a' as int + 26)
    else if '0' <= c <= '9' then Some(c as int - '0' as int + 52)
    else if c == '+' then Some(62)
    else if c == '/' then Some(63)
    else None
  }

  lemma ValueOfCharOf(v: int)
    requires IsSextet(v)
    ensures ValueOf(CharOf(v)) == Some(v)
  {
  }

  // Cutting three bytes into four sextets and gluing them back.
  function S0(b0: byte): int { b0 / 4 }
  function S1(b0: byte, b1: byte): int { (b0 % 4) * 16 + b1 / 16 }
  function S2(b1: byte, b2: byte): int { (b1 % 16) * 4 + b2 / 64 }
  function S3(b2: byte): int { b2 % 64 }
  function B0(v0: int, v1: int): byte requires IsSextet(v0) && IsSextet(v1) { v0 * 4 + v1 / 16 }
  function B1(v1: int, v2: int): byte requires IsSextet(v1) && IsSextet(v2) { (v1 % 16) * 16 + v2 / 4 }
  function B2(v2: int, v3: int): byte requires IsSextet(v2) && IsSextet(v3) { (v2 % 4) * 64 + v3 }

  /** Sextets rebuild the bytes they were cut from. */
  lemma BytesFromSextets(b0: byte, b1: byte, b2: byte)
    ensures IsSextet(S0(b0)) && IsSextet(S1(b0, b1)) && IsSextet(S2(b1, b2)) && IsSextet(S3(b2))
    ensures B0(S0(b0), S1(b0, b1)) == b0
    ensures B1(S1(b0, b1), S2(b1, b2)) == b1
    ensures B2(S2(b1, b2), S3(b2)) == b2
    ensures S1(b0, 0) % 16 == 0 && S2(b1, 0) % 4 == 0
  {
    FirstByteFromSextets(b0, b1);
    SecondByteFromSextets(b0, b1, b2);
    ThirdByteFromSextets(b1, b2);
  }

  lemma FirstByteFromSextets(b0: byte, b1: byte)
    ensures IsSextet(S0(b0)) && IsSextet(S1(b0, b1))
    ensures B0(S0(b0), S1(b0, b1)) == b0
  {
    var r, h := b0 % 4, b1 / 16;
    assert 0 <= h < 16;
    assert (r * 16 + h) / 16 == r;
  }

  lemma SecondByteFromSextets(b0: byte, b1: byte, b2: byte)
    ensures IsSextet(S1(b0, b1)) && IsSextet(S2(b1, b2))
    ensures B1(S1(b0, b1), S2(b1, b2)) == b1
  {
    var r, h := b1 % 16, b2 / 64;
    assert 0 <= h < 4;
    assert ((b0 % 4) * 16 + b1 / 16) % 16 == b1 / 16;
    assert (r * 4 + h) / 4 == r;
  }

  lemma ThirdByteFromSextets(b1: byte, b2: byte)
    ensures IsSextet(S2(b1, b2)) && IsSextet(S3(b2))
    ensures B2(S2(b1, b2), S3(b2)) == b2
  {
    assert ((b1 % 16) * 4 + b2 / 64) % 4 == b2 / 64;
  }

  /** Bytes rebuild the sextets they were made of. */
  lemma SextetsFromBytes(v0: int, v1: int, v2: int, v3: int)
    requires IsSextet(v0) && IsSextet(v1) && IsSextet(v2) && IsSextet(v3)
    ensures S0(B0(v0, v1)) == v0
    ensures S1(B0(v0, v1), B1(v1, v2)) == v1
    ensures S2(B1(v1, v2), B2(v2, v3)) == v2
    ensures S3(B2(v2, v3)) == v3
    ensures v1 % 16 == 0 ==> S1(B0(v0, v1), 0) == v1
    ensures v2 % 4 == 0 ==> S2(B1(v1, v2), 0) == v2
  {
  }

  /** One character of encoded text: a sextet, or the padding `=`. */
  datatype Symbol = Digit(v: int) | Pad

  predicate Sound(x: Symbol) {
    x.Digit? ==> IsSextet(x.v)
  }

  function Render(x: Symbol): (c: char)
    requires Sound(x)
  {
    if x.Pad? then '=' else CharOf(x.v)
  }

  function Parse(c: char): (r: Option<Symbol>)
    ensures r.Some? ==> Sound(r.value) && Render(r.value) == c
  {
    if c == '=' then Some(Pad)
    else match ValueOf(c)
      case Some(v) => Some(Digit(v))
      case None => None
  }

  lemma ParseRender(x: Symbol)
    requires Sound(x)
    ensures Parse(Render(x)) == Some(x)
  {
    if x.Digit? {
      ValueOfCharOf(x.v);
    }
  }

  /** The four symbols of one group; `n` of the three bytes are real, the
      rest stand for padding. */
  function Group(b0: byte, b1: byte, b2: byte, n: nat): (syms: seq<Symbol>)
    requires 1 <= n <= 3
    ensures |syms| == 4 && forall i :: 0 <= i < 4 ==> Sound(syms[i])
  {
    BytesFromSextets(b0, b1, b2);
    if n == 1 then [Digit(S0(b0)), Digit(S1(b0, 0)), Pad, Pad]
    else if n == 2 then [Digit(S0(b0)), Digit(S1(b0, b1)), Digit(S2(b1, 0)), Pad]
    else [Digit(S0(b0)), Digit(S1(b0, b1)), Digit(S2(b1, b2)), Digit(S3(b2))]
  }

  /** Every three bytes (or the one or two left at the end) as four symbols. */
  function ToSymbols(bytes: seq<byte>): (syms: seq<Symbol>)
    ensures |syms| == 4 * ((|bytes| + 2) / 3)
    ensures forall i :: 0 <= i < |syms| ==> Sound(syms[i])
    decreases |bytes|
  {
    if |bytes| == 0 then []
    else if |bytes| == 1 then Group(bytes[0], 0, 0, 1)
    else if |bytes| == 2 then Group(bytes[0], bytes[1], 0, 2)
    else
      var rest := ToSymbols(bytes[3..]);
      var g := Group(bytes[0], bytes[1], bytes[2], 3);
      assert forall i :: 4 <= i < 4 + |rest| ==> (g + rest)[i] == rest[i - 4];
      g + rest
  }

  /** The final group: three bytes, or one or two followed by padding whose
      unused bits are zero. */
  function LastGroup(x0: Symbol, x1: Symbol, x2: Symbol, x3: Symbol): (r: Option<seq<byte>>)
    requires Sound(x0) && Sound(x1) && Sound(x2) && Sound(x3)
  {
    if x0.Pad? || x1.Pad? then None
    else if x2.Digit? && x3.Digit? then Some([B0(x0.v, x1.v), B1(x1.v, x2.v), B2(x2.v, x3.v)])
    else if x2.Digit? then
      if x2.v % 4 == 0 then Some([B0(x0.v, x1.v), B1(x1.v, x2.v)]) else None
    else if x3.Pad? && x1.v % 16 == 0 then Some([B0(x0.v, x1.v)])
    else None
  }

  /** Groups of four symbols back to bytes; padding only in the last group. */
  function FromSymbols(syms: seq<Symbol>): (r: Option<seq<byte>>)
    requires forall i :: 0 <= i < |syms| ==> Sound(syms[i])
    decreases |syms|
  {
    if syms == [] then Some([])
    else if |syms| < 4 then None
    else if |syms| == 4 then LastGroup(syms[0], syms[1], syms[2], syms[3])
    else if syms[0].Pad? || syms[1].Pad? || syms[2].Pad? || syms[3].Pad? then None
    else
      assert Sound(syms[0]) && Sound(syms[1]) && Sound(syms[2]) && Sound(syms[3]);
      match FromSymbols(syms[4..])
      case Some(rest) => Some([B0(syms[0].v, syms[1].v), B1(syms[1].v, syms[2].v), B2(syms[2].v, syms[3].v)] + rest)
      case None => None
  }

  /** One group read back as the final group gives its real bytes. */
  lemma LastGroupOfGroup(b0: byte, b1: byte, b2: byte, n: nat)
    requires 1 <= n <= 3
    ensures var g := Group(b0, b1, b2, n);
      LastGroup(g[0], g[1], g[2], g[3]) == Some([b0, b1, b2][..n])
  {
    BytesFromSextets(b0, b1, b2);
    if n == 1 {
      assert [b0, b1, b2][..n] == [b0];
    } else if n == 2 {
      assert [b0, b1, b2][..n] == [b0, b1];
    } else {
      assert [b0, b1, b2][..n] == [b0, b1, b2];
    }
  }

  lemma {:induction false} FromToSymbols(bytes: seq<byte>)
    ensures FromSymbols(ToSymbols(bytes)) == Some(bytes)
    decreases |bytes|
  {
    if |bytes| > 0 {
      var b0 := bytes[0];
      var b1 := if |bytes| > 1 then bytes[1] else 0;
      var b2 := if |bytes| > 2 then bytes[2] else 0;
      var n := if |bytes| < 3 then |bytes| else 3;
      LastGroupOfGroup(b0, b1, b2, n);
      assert bytes[..n] == [b0, b1, b2][..n];
      if |bytes| > 3 {
        var g := Group(b0, b1, b2, 3);
        var rest := ToSymbols(bytes[3..]);
        FromToSymbols(bytes[3..]);
        BytesFromSextets(b0, b1, b2);
        assert (g + rest)[4..] == rest;
        assert bytes == [b0, b1, b2] + bytes[3..];
      } else {
        var g := Group(b0, b1, b2, n);
        assert ToSymbols(bytes) == g;
        assert FromSymbols(g) == LastGroup(g[0], g[1], g[2], g[3]);
        assert bytes[..n] == bytes;
      }
    }
  }

  /** A decodable final group is the group of what it decodes to. */
  lemma GroupOfLastGroup(x0: Symbol, x1: Symbol, x2: Symbol, x3: Symbol)
    requires Sound(x0) && Sound(x1) && Sound(x2) && Sound(x3)
    requires LastGroup(x0, x1, x2, x3).Some?
    ensures var bs := LastGroup(x0, x1, x2, x3).value;
      Group(bs[0], if |bs| > 1 then bs[1] else 0, if |bs| > 2 then bs[2] else 0, |bs|) == [x0, x1, x2, x3]
  {
    if x2.Pad? {
      SextetsFromBytes(x0.v, x1.v, 0, 0);
    } else if x3.Pad? {
      SextetsFromBytes(x0.v, x1.v, x2.v, 0);
    } else {
      SextetsFromBytes(x0.v, x1.v, x2.v, x3.v);
    }
  }

  lemma {:induction false} ToFromSymbols(syms: seq<Symbol>)
    requires forall i :: 0 <= i < |syms| ==> Sound(syms[i])
    ensures FromSymbols(syms).Some? ==> ToSymbols(FromSymbols(syms).value) == syms
    decreases |syms|
  {
    if |syms| >= 4 && FromSymbols(syms).Some? {
      var bytes := FromSymbols(syms).value;
      var x0, x1, x2, x3 := syms[0], syms[1], syms[2], syms[3];
      assert Sound(x0) && Sound(x1) && Sound(x2) && Sound(x3);
      if |syms| == 4 {
        GroupOfLastGroup(x0, x1, x2, x3);
        assert syms == [x0, x1, x2, x3];
      } else {
        assert x0.Digit? && x1.Digit? && x2.Digit? && x3.Digit?;
        var rest := FromSymbols(syms[4..]).value;
        assert bytes == [B0(x0.v, x1.v), B1(x1.v, x2.v), B2(x2.v, x3.v)] + rest;
        ToFromSymbols(syms[4..]);
        ToSymbolsOfFullGroup(x0, x1, x2, x3, rest);
        assert syms == [x0, x1, x2, x3] + syms[4..];
      }
    }
  }

  /** Three bytes decoded from four digits encode back to those digits,
      ahead of whatever follows. */
  lemma ToSymbolsOfFullGroup(x0: Symbol, x1: Symbol, x2: Symbol, x3: Symbol, rest: seq<byte>)
    requires x0.Digit? && x1.Digit? && x2.Digit? && x3.Digit?
    requires Sound(x0) && Sound(x1) && Sound(x2) && Sound(x3)
    ensures ToSymbols([B0(x0.v, x1.v), B1(x1.v, x2.v), B2(x2.v, x3.v)] + rest) == [x0, x1, x2, x3] + ToSymbols(rest)
  {
    var bytes := [B0(x0.v, x1.v), B1(x1.v, x2.v), B2(x2.v, x3.v)] + rest;
    SextetsFromBytes(x0.v, x1.v, x2.v, x3.v);
    assert bytes[3..] == rest;
    assert Group(bytes[0], bytes[1], bytes[2], 3) == [x0, x1, x2, x3];
  }

  /** Every character of `text` read as a symbol, or `None` if one is not. */
  function ParseAll(text: string): (r: Option<seq<Symbol>>)
    ensures r.Some? ==> |r.value| == |text| && forall i :: 0 <= i < |text| ==> Sound(r.value[i]) && Render(r.value[i]) == text[i]
  {
    if text == [] then Some([])
    else
      match (Parse(text[0]), ParseAll(text[1..]))
      case (Some(x), Some(rest)) => Some([x] + rest)
      case _ => None
  }

  function RenderAll(syms: seq<Symbol>): (text: string)
    requires forall i :: 0 <= i < |syms| ==> Sound(syms[i])
    ensures |text| == |syms| && forall i :: 0 <= i < |syms| ==> text[i] == Render(syms[i])
  {
    seq(|syms|, i requires 0 <= i < |syms| => Render(syms[i]))
  }

  lemma {:induction false} ParseRenderAll(syms: seq<Symbol>)
    requires forall i :: 0 <= i < |syms| ==> Sound(syms[i])
    ensures ParseAll(RenderAll(syms)) == Some(syms)
    decreases |syms|
  {
    if syms != [] {
      ParseRender(syms[0]);
      ParseRenderAll(syms[1..]);
      assert RenderAll(syms)[1..] == RenderAll(syms[1..]);
      assert syms == [syms[0]] + syms[1..];
    }
  }

  /** `Buffer.toString('base64')`: four characters per three bytes, the last
      group padded with `=` when the length is not a multiple of three. */
  function Encode(bytes: seq<byte>): (text: string)
    ensures |text| == 4 * ((|bytes| + 2) / 3)
  {
    RenderAll(ToSymbols(bytes))
  }

  /** A strict decoder: `None` unless `text` is exactly what `Encode` writes. */
  function Decode(text: string): (r: Option<seq<byte>>)
  {
    match ParseAll(text)
    case Some(syms) => FromSymbols(syms)
    case None => None
  }

  /** Decoding undoes encoding. */
  lemma DecodeEncode(bytes: seq<byte>)
    ensures Decode(Encode(bytes)) == Some(bytes)
  {
    ParseRenderAll(ToSymbols(bytes));
    FromToSymbols(bytes);
  }

  /** A text the decoder accepts is the encoding of what it decodes to, so
      the decoder accepts exactly the encoder's outputs. */
  lemma EncodeDecode(text: string)
    ensures Decode(text).Some? ==> Encode(Decode(text).value) == text
  {
    if Decode(text).Some? {
      var syms := ParseAll(text).value;
      ToFromSymbols(syms);
      assert RenderAll(syms) == text;
    }
  }

  /** Both directions together. */
  lemma DecodeIffEncode(text: string, bytes: seq<byte>)
    ensures Decode(text) == Some(bytes) <==> Encode(bytes) == text
  {
    DecodeEncode(bytes);
    EncodeDecode(text);
  }
}

=== FILE: categorizer.dfy ===
/** The transaction categoriser of server/teller.ts: a description is
    lower-cased and matched against six keyword groups in a fixed priority
    order; the first group with a keyword occurring in it names the category,
    and a description matching no group is `other`. */
module Categorizer {
  import opened Text

  const FoodKeywords: seq<string> :=
    ["restaurant", "cafe", "food", "starbucks", "mcdonald", "pizza", "grocery", "market", "whole foods"]
  const TransportationKeywords: seq<string> :=
    ["gas", "fuel", "uber", "lyft", "taxi", "parking", "transit", "subway", "bus"]
  const ShoppingKeywords: seq<string> :=
    ["amazon", "walmart", "target", "shopping", "retail", "store"]
  const HousingKeywords: seq<string> :=
    ["rent", "mortgage", "utilities", "electric", "water", "internet", "cable", "phone"]
  const EntertainmentKeywords: seq<string> :=
    ["entertainment", "movie", "netflix", "spotify", "gaming", "gym", "fitness", "subscription"]
  const HealthcareKeywords: seq<string> :=
    ["medical", "doctor", "pharmacy", "hospital", "health", "dental"]

  /** One keyword group: the category name it assigns and the keywords that select it. */
  datatype Group = Group(name: string, keywords: seq<string>)

  /** The groups in the order the source tests them. */
  const Groups: seq<Group> := [
    Group("food", FoodKeywords),
    Group("transportation", TransportationKeywords),
    Group("shopping", ShoppingKeywords),
    Group("housing", HousingKeywords),
    Group("entertainment", EntertainmentKeywords),
    Group("healthcare", HealthcareKeywords)
  ]

  const Other: string := "other"

  /** The closed set of labels the categoriser can produce. */
  const Labels: set<string> :=
    {"food", "transportation", "shopping", "housing", "entertainment", "healthcare", "other"}

  /** Some keyword of `keywords` occurs in `desc` (the `||` chain of one `if`). */
  predicate ContainsAny(desc: string, keywords: seq<string>) {
    exists i :: 0 <= i < |keywords| && Contains(desc, keywords[i])
  }

  // The six conditions of `categorizeTransaction`, keyword by keyword.

  predicate MentionsFood(d: string) {
    Contains(d, "restaurant") || Contains(d, "cafe") || Contains(d, "food") ||
    Contains(d, "starbucks") || Contains(d, "mcdonald") || Contains(d, "pizza") ||
    Contains(d, "grocery") || Contains(d, "market") || Contains(d, "whole foods")
  }

  predicate MentionsTransportation(d: string) {
    Contains(d, "gas") || Contains(d, "fuel") || Contains(d, "uber") ||
    Contains(d, "lyft") || Contains(d, "taxi") || Contains(d, "parking") ||
    Contains(d, "transit") || Contains(d, "subway") || Contains(d, "bus")
  }

  predicate MentionsShopping(d: string) {
    Contains(d, "amazon") || Contains(d, "walmart") || Contains(d, "target") ||
    Contains(d, "shopping") || Contains(d, "retail") || Contains(d, "store")
  }

  predicate MentionsHousing(d: string) {
    Contains(d, "rent") || Contains(d, "mortgage") || Contains(d, "utilities") ||
    Contains(d, "electric") || Contains(d, "water") || Contains(d, "internet") ||
    Contains(d, "cable") || Contains(d, "phone")
  }

  predicate MentionsEntertainment(d: string) {
    Contains(d, "entertainment") || Contains(d, "movie") || Contains(d, "netflix") ||
    Contains(d, "spotify") || Contains(d, "gaming") || Contains(d, "gym") ||
    Contains(d, "fitness") || Contains(d, "subscription")
  }

  predicate MentionsHealthcare(d: string) {
    Contains(d, "medical") || Contains(d, "doctor") || Contains(d, "pharmacy") ||
    Contains(d, "hospital") || Contains(d, "health") || Contains(d, "dental")
  }

  /** `categorizeTransaction`: the cascade of `if`s over the lower-cased description. */
  function Categorize(description: string): (category: string)
    ensures category in Labels
  {
    var desc := Lower(description);
    if MentionsFood(desc) then "food"
    else if MentionsTransportation(desc) then "transportation"
    else if MentionsShopping(desc) then "shopping"
    else if MentionsHousing(desc) then "housing"
    else if MentionsEntertainment(desc) then "entertainment"
    else if MentionsHealthcare(desc) then "healthcare"
    else Other
  }

  /** The table-driven reading of the categoriser: the name of the first group
      one of whose keywords occurs in `desc`, or `other`. */
  function FirstMatch(desc: string, groups: seq<Group>): (name: string)
    ensures name == Other || exists k :: 0 <= k < |groups| && name == groups[k].name
  {
    if groups == [] then Other
    else if ContainsAny(desc, groups[0].keywords) then groups[0].name
    else FirstMatch(desc, groups[1..])
  }

  // Each spelled-out condition is the keyword table's group.

  lemma FoodIsAny(d: string)
    ensures MentionsFood(d) <==> ContainsAny(d, FoodKeywords)
  {
    var k := FoodKeywords;
    assert k[0] == "restaurant" && k[1] == "cafe" && k[2] == "food" && k[3] == "starbucks" &&
      k[4] == "mcdonald" && k[5] == "pizza" && k[6] == "grocery" && k[7] == "market" && k[8] == "whole foods";
  }

  lemma TransportationIsAny(d: string)
    ensures MentionsTransportation(d) <==> ContainsAny(d, TransportationKeywords)
  {
    var k := TransportationKeywords;
    assert k[0] == "gas" && k[1] == "fuel" && k[2] == "uber" && k[3] == "lyft" &&
      k[4] == "taxi" && k[5] == "parking" && k[6] == "transit" && k[7] == "subway" && k[8] == "bus";
  }

  lemma ShoppingIsAny(d: string)
    ensures MentionsShopping(d) <==> ContainsAny(d, ShoppingKeywords)
  {
    var k := ShoppingKeywords;
    assert k[0] == "amazon" && k[1] == "walmart" && k[2] == "target" && k[3] == "shopping" &&
      k[4] == "retail" && k[5] == "store";
  }

  lemma HousingIsAny(d: string)
    ensures MentionsHousing(d) <==> ContainsAny(d, HousingKeywords)
  {
    var k := HousingKeywords;
    assert k[0] == "rent" && k[1] == "mortgage" && k[2] == "utilities" && k[3] == "electric" &&
      k[4] == "water" && k[5] == "internet" && k[6] == "cable" && k[7] == "phone";
  }

  lemma EntertainmentIsAny(d: string)
    ensures MentionsEntertainment(d) <==> ContainsAny(d, EntertainmentKeywords)
  {
    var k := EntertainmentKeywords;
    assert k[0] == "entertainment" && k[1] == "movie" && k[2] == "netflix" && k[3] == "spotify" &&
      k[4] == "gaming" && k[5] == "gym" && k[6] == "fitness" && k[7] == "subscription";
  }

  lemma HealthcareIsAny(d: string)
    ensures MentionsHealthcare(d) <==> ContainsAny(d, HealthcareKeywords)
  {
    var k := HealthcareKeywords;
    assert k[0] == "medical" && k[1] == "doctor" && k[2] == "pharmacy" && k[3] == "hospital" &&
      k[4] == "health" && k[5] == "dental";
  }

  /** The cascade agrees with the table-driven reading for every description. */
  lemma CategorizeIsFirstMatch(description: string)
    ensures Categorize(description) == FirstMatch(Lower(description), Groups)
  {
    var d := Lower(description);
    FoodIsAny(d);
    TransportationIsAny(d);
    ShoppingIsAny(d);
    HousingIsAny(d);
    EntertainmentIsAny(d);
    HealthcareIsAny(d);
    var g0 := Groups;
    var g1 := g0[1..];
    var g2 := g1[1..];
    var g3 := g2[1..];
    var g4 := g3[1..];
    var g5 := g4[1..];
    var g6 := g5[1..];
    assert g0[0] == Group("food", FoodKeywords);
    assert g1[0] == Group("transportation", TransportationKeywords);
    assert g2[0] == Group("shopping", ShoppingKeywords);
    assert g3[0] == Group("housing", HousingKeywords);
    assert g4[0] == Group("entertainment", EntertainmentKeywords);
    assert g5[0] == Group("healthcare", HealthcareKeywords);
    assert g6 == [];
    assert FirstMatch(d, g6) == Other;
    assert FirstMatch(d, g5) == if MentionsHealthcare(d) then "healthcare" else Other;
    assert FirstMatch(d, g4) == if MentionsEntertainment(d) then "entertainment" else FirstMatch(d, g5);
    assert FirstMatch(d, g3) == if MentionsHousing(d) then "housing" else FirstMatch(d, g4);
    assert FirstMatch(d, g2) == if MentionsShopping(d) then "shopping" else FirstMatch(d, g3);
    assert FirstMatch(d, g1) == if MentionsTransportation(d) then "transportation" else FirstMatch(d, g2);
    assert FirstMatch(d, g0) == if MentionsFood(d) then "food" else FirstMatch(d, g1);
  }

  /** Group names are pairwise distinct and none is `other`. */
  ghost predicate DistinctNames(groups: seq<Group>) {
    && (forall a, b :: 0 <= a < b < |groups| ==> groups[a].name != groups[b].name)
    && (forall a :: 0 <= a < |groups| ==> groups[a].name != Other)
  }

  /** With distinct names, `FirstMatch` names group `i` exactly when group `i`
      matches and no earlier group does. */
  lemma {:induction false} FirstMatchIsEarliest(desc: string, groups: seq<Group>, i: nat)
    requires DistinctNames(groups)
    requires i < |groups|
    ensures FirstMatch(desc, groups) == groups[i].name <==>
      (ContainsAny(desc, groups[i].keywords) &&
       forall j :: 0 <= j < i ==> !ContainsAny(desc, groups[j].keywords))
  {
    if !ContainsAny(desc, groups[0].keywords) {
      assert forall k :: 0 <= k < |groups| - 1 ==> groups[1..][k] == groups[k + 1];
    }
    if i > 0 && !ContainsAny(desc, groups[0].keywords) {
      FirstMatchIsEarliest(desc, groups[1..], i - 1);
      assert forall j :: 0 <= j < i - 1 ==> groups[1..][j] == groups[j + 1];
    }
    if i > 0 && ContainsAny(desc, groups[0].keywords) {
      assert FirstMatch(desc, groups) == groups[0].name;
      assert groups[0].name != groups[i].name;
      assert !(forall j :: 0 <= j < i ==> !ContainsAny(desc, groups[j].keywords));
    }
  }

  /** `FirstMatch` answers `other` exactly when no group matches. */
  lemma {:induction false} FirstMatchOther(desc: string, groups: seq<Group>)
    requires DistinctNames(groups)
    ensures FirstMatch(desc, groups) == Other <==>
      forall j :: 0 <= j < |groups| ==> !ContainsAny(desc, groups[j].keywords)
  {
    if groups != [] {
      FirstMatchOther(desc, groups[1..]);
      assert forall j :: 0 <= j < |groups| - 1 ==> groups[1..][j] == groups[j + 1];
    }
  }

  /** Case does not matter: a description and its lower-cased form get the same category. */
  lemma CategorizeIgnoresCase(description: string)
    ensures Categorize(description) == Categorize(Lower(description))
  {
    LowerIsIdempotent(description);
  }

  /** The earliest matching group in the order food, transportation, shopping,
      housing, entertainment, healthcare decides the category. */
  lemma CategorizeEarliestGroupWins(description: string, i: nat)
    requires i < |Groups|
    ensures Categorize(description) == Groups[i].name <==>
      (ContainsAny(Lower(description), Groups[i].keywords) &&
       forall j :: 0 <= j < i ==> !ContainsAny(Lower(description), Groups[j].keywords))
  {
    CategorizeIsFirstMatch(description);
    FirstMatchIsEarliest(Lower(description), Groups, i);
  }

  /** `other` is returned exactly when no keyword of any group occurs in the
      lower-cased description. */
  lemma CategorizeOtherIffNoKeyword(description: string)
    ensures Categorize(description) == Other <==>
      forall j, k :: 0 <= j < |Groups| && 0 <= k < |Groups[j].keywords| ==>
        !OccursIn(Lower(description), Groups[j].keywords[k])
  {
    CategorizeIsFirstMatch(description);
    FirstMatchOther(Lower(description), Groups);
    forall j, k | 0 <= j < |Groups| && 0 <= k < |Groups[j].keywords|
      ensures Contains(Lower(description), Groups[j].keywords[k]) <==>
              OccursIn(Lower(description), Groups[j].keywords[k])
    {
      ContainsIffOccurs(Lower(description), Groups[j].keywords[k]);
    }
  }

  // Worked examples.

  lemma WholeFoodsIsFood()
    ensures Categorize("Whole Foods Market #123") == "food"
  {
    var d := Lower("Whole Foods Market #123");
    assert d == "whole foods market #123";
    ContainsAtIndex(d, "food", 6);
  }

  /** No food keyword occurs in a text lacking the letters a, f, g and w,
      such as "uber trip". */
  lemma UberTripMentionsNoFood(d: string)
    requires 'a' !in d && 'f' !in d && 'g' !in d && 'w' !in d
    ensures !MentionsFood(d)
  {
    ContainsKeepsChars(d, "restaurant", 'a');
    ContainsKeepsChars(d, "cafe", 'a');
    ContainsKeepsChars(d, "food", 'f');
    ContainsKeepsChars(d, "starbucks", 'a');
    ContainsKeepsChars(d, "mcdonald", 'a');
    ContainsKeepsChars(d, "pizza", 'a');
    ContainsKeepsChars(d, "grocery", 'g');
    ContainsKeepsChars(d, "market", 'a');
    ContainsKeepsChars(d, "whole foods", 'w');
  }

  lemma UberTripIsTransportation(description: string)
    requires description == "Uber Trip"
    ensures Categorize(description) == "transportation"
  {
    var d := Lower(description);
    assert d == "uber trip";
    UberTripMentionsNoFood(d);
    ContainsAtIndex(d, "uber", 0);
  }

  /** No food keyword occurs in a text lacking these letters, such as "random store xyz". */
  lemma RandomStoreMentionsNoFood(d: string)
    requires 'u' !in d && 'f' !in d && 'b' !in d && 'c' !in d
    requires 'p' !in d && 'g' !in d && 'k' !in d && 'w' !in d
    ensures !MentionsFood(d)
  {
    ContainsKeepsChars(d, "restaurant", 'u');
    ContainsKeepsChars(d, "cafe", 'f');
    ContainsKeepsChars(d, "food", 'f');
    ContainsKeepsChars(d, "starbucks", 'b');
    ContainsKeepsChars(d, "mcdonald", 'c');
    ContainsKeepsChars(d, "pizza", 'p');
    ContainsKeepsChars(d, "grocery", 'g');
    ContainsKeepsChars(d, "market", 'k');
    ContainsKeepsChars(d, "whole foods", 'w');
  }

  /** No transportation keyword occurs in a text lacking these letters, such as "random store xyz". */
  lemma RandomStoreMentionsNoTransportation(d: string)
    requires 'g' !in d && 'f' !in d && 'u' !in d && 'l' !in d && 'i' !in d && 'p' !in d && 'b' !in d
    ensures !MentionsTransportation(d)
  {
    ContainsKeepsChars(d, "gas", 'g');
    ContainsKeepsChars(d, "fuel", 'f');
    ContainsKeepsChars(d, "uber", 'u');
    ContainsKeepsChars(d, "lyft", 'l');
    ContainsKeepsChars(d, "taxi", 'i');
    ContainsKeepsChars(d, "parking", 'p');
    ContainsKeepsChars(d, "transit", 'i');
    ContainsKeepsChars(d, "subway", 'u');
    ContainsKeepsChars(d, "bus", 'b');
  }

  /** The letters of "random store xyz" that the two lemmas above rely on. */
  lemma RandomStoreLetters(d: string)
    requires d == "random store xyz"
    ensures 'u' !in d && 'f' !in d && 'b' !in d && 'c' !in d && 'p' !in d
    ensures 'g' !in d && 'k' !in d && 'w' !in d && 'l' !in d && 'i' !in d
    ensures Contains(d, "store")
  {
    RandomStoreLacks(d, 'u');
    RandomStoreLacks(d, 'f');
    RandomStoreLacks(d, 'b');
    RandomStoreLacks(d, 'c');
    RandomStoreLacks(d, 'p');
    RandomStoreLacks(d, 'g');
    RandomStoreLacks(d, 'k');
    RandomStoreLacks(d, 'w');
    RandomStoreLacks(d, 'l');
    RandomStoreLacks(d, 'i');
    ContainsAtIndex(d, "store", 7);
  }

  /** A letter outside "random store xyz" does not occur in it. */
  lemma RandomStoreLacks(d: string, c: char)
    requires d == "random store xyz"
    requires c !in {'r', 'a', 'n', 'd', 'o', 'm', ' ', 's', 't', 'e', 'x', 'y', 'z'}
    ensures c !in d
  {
    assert forall i :: 0 <= i < |d| ==> d[i] in {'r', 'a', 'n', 'd', 'o', 'm', ' ', 's', 't', 'e', 'x', 'y', 'z'};
  }

  /** "store" is a shopping keyword, so this description is shopping, not `other`. */
  lemma RandomStoreIsShopping(description: string)
    requires description == "Random Store XYZ"
    ensures Categorize(description) == "shopping"
  {
    var d := Lower(description);
    assert d == "random store xyz";
    RandomStoreLetters(d);
    RandomStoreMentionsNoFood(d);
    RandomStoreMentionsNoTransportation(d);
  }

  /** Food is checked before transportation, so a description naming both is food. */
  lemma GasMarketIsFood()
    ensures Categorize("gas market") == "food"
  {
    ContainsAtIndex(Lower("gas market"), "market", 4);
  }
}

=== FILE: client_auth.dfy ===
/** The browser's `AuthService` (client/src/lib/auth.ts): the token and
    user it holds in memory and under the `localStorage` keys `auth_token`
    and `auth_user`. A server call is replaced by its outcome, and the JSON
    encoding of the user by a parameter. */
module ClientAuth {
  import opened Wrappers
  import opened Auth

  const TokenKey := "auth_token"
  const UserKey := "auth_user"
  const NoTokenAvailable := "No authentication token available"
  const AuthorizationHeader := "Authorization"

  /** `localStorage`: string values under string keys. */
  type Storage = map<string, string>

  /** `JSON.stringify` of a user and `JSON.parse` of a saved value: `None`
      where parsing throws, `Some(None)` for a value that parses to `null`. */
  datatype UserJson = UserJson(stringify: AuthUser -> string, parse: string -> Option<Option<AuthUser>>)

  /** `JSON.stringify` of an object is a non-empty text that parses back to it. */
  ghost predicate RoundTrips(json: UserJson) {
    forall u :: json.stringify(u) != "" && json.parse(json.stringify(u)) == Some(Some(u))
  }

  /** The service's fields and the storage it writes through. */
  datatype Client = Client(token: Option<string>, user: Option<AuthUser>, storage: Storage)

  /** The body of a successful login or registration. */
  datatype LoginResponse = LoginResponse(user: AuthUser, token: string)

  /** `localStorage.getItem`: `None` for a missing key. */
  function Get(storage: Storage, key: string): (r: Option<string>)
    ensures r.Some? <==> key in storage
    ensures r.Some? ==> r.value == storage[key]
  {
    if key in storage then Some(storage[key]) else None
  }

  /** Memory agrees with storage: the token is the stored one, and a user in
      memory is what the stored user parses to. */
  predicate Consistent(c: Client, json: UserJson) {
    && c.token == Get(c.storage, TokenKey)
    && (c.user.Some? ==> UserKey in c.storage && json.parse(c.storage[UserKey]) == Some(c.user))
  }

  /** The constructor (lines 20-31): the token is loaded as is; a saved user
      that does not parse is removed from storage and leaves no user. */
  function Load(storage: Storage, json: UserJson): (c: Client)
    ensures c.token == Get(storage, TokenKey)
    ensures Consistent(c, json)
    ensures UserKey in storage && storage[UserKey] != "" && json.parse(storage[UserKey]).None? ==>
      c.user.None? && c.storage == storage - {UserKey}
    ensures !(UserKey in storage && storage[UserKey] != "" && json.parse(storage[UserKey]).None?) ==>
      c.storage == storage
    ensures c.user.Some? ==> UserKey in storage && json.parse(storage[UserKey]) == Some(c.user)
  {
    var token := Get(storage, TokenKey);
    if UserKey in storage && storage[UserKey] != "" then
      match json.parse(storage[UserKey])
      case None =>
        assert Get(storage - {UserKey}, TokenKey) == token;
        Client(token, None, storage - {UserKey})
      case Some(user) => Client(token, user, storage)
    else Client(token, None, storage)
  }

  /** `setAuth` (lines 71-76). */
  function SetAuth(c: Client, json: UserJson, user: AuthUser, token: string): (c': Client)
    ensures c'.token == Some(token) && c'.user == Some(user)
    ensures c'.storage == c.storage[TokenKey := token][UserKey := json.stringify(user)]
    ensures RoundTrips(json) ==> Consistent(c', json)
  {
    Client(Some(token), Some(user), c.storage[TokenKey := token][UserKey := json.stringify(user)])
  }

  /** `login` and `register` (lines 33-45), which differ only in the endpoint
      they call: a response sets the state, a failed request throws and
      leaves it as it was. */
  function SignIn(c: Client, json: UserJson, response: Result<LoginResponse, string>)
    : (r: (Client, Result<LoginResponse, string>))
    ensures r.1 == response
    ensures response.Failure? ==> r.0 == c
    ensures response.Success? ==> r.0 == SetAuth(c, json, response.value.user, response.value.token)
  {
    match response
    case Failure(e) => (c, Failure(e))
    case Success(data) => (SetAuth(c, json, data.user, data.token), Success(data))
  }

  /** `clearAuth` (lines 78-83). */
  function ClearAuth(c: Client): (c': Client)
    ensures c'.token.None? && c'.user.None?
    ensures TokenKey !in c'.storage && UserKey !in c'.storage
    ensures forall k :: k != TokenKey && k != UserKey ==> (k in c'.storage <==> k in c.storage)
    ensures forall k :: k in c'.storage ==> c'.storage[k] == c.storage[k]
  {
    Client(None, None, c.storage - {TokenKey, UserKey})
  }

  /** `logout` (lines 47-69): a request carrying the token is sent only when
      there is a token; whatever becomes of it, the state is cleared. The
      result's second part is the `Authorization` header sent, if any. */
  function Logout(c: Client): (r: (Client, Option<string>))
    ensures r.0 == ClearAuth(c)
    ensures r.1.Some? <==> c.token.Some? && c.token.value != ""
    ensures r.1.Some? ==> r.1.value == "Bearer " + c.token.value
  {
    var sent := if c.token.Some? && c.token.value != "" then Some("Bearer " + c.token.value) else None;
    (ClearAuth(c), sent)
  }

  /** `isAuthenticated` (lines 93-95). */
  predicate IsAuthenticated(c: Client) {
    c.token.Some? && c.user.Some?
  }

  /** `getAuthHeaders` (lines 97-104): throws without a (truthy) token. */
  function GetAuthHeaders(c: Client): (r: Result<map<string, string>, string>)
    ensures r.Failure? <==> c.token.None? || c.token.value == ""
    ensures r.Failure? ==> r.error == NoTokenAvailable
    ensures r.Success? ==> r.value == map[AuthorizationHeader := "Bearer " + c.token.value]
  {
    if c.token.None? || c.token.value == "" then Failure(NoTokenAvailable)
    else Success(map[AuthorizationHeader := "Bearer " + c.token.value])
  }

  // ----- Properties across operations -----

  /** After a successful sign-in the client is authenticated and sends
      `Bearer <token>`. */
  lemma SignInAuthenticates(c: Client, json: UserJson, data: LoginResponse)
    requires data.token != ""
    ensures var c' := SignIn(c, json, Success(data)).0;
      IsAuthenticated(c') && GetAuthHeaders(c') == Success(map[AuthorizationHeader := "Bearer " + data.token])
  {
  }

  /** The header the client builds is read back by the server's gate as the
      same token. */
  lemma ClientHeaderReachesGate(c: Client)
    requires c.token.Some? && c.token.value != "" && ' ' !in c.token.value
    ensures GetAuthHeaders(c).Success?
    ensures BearerToken(Some(GetAuthHeaders(c).value[AuthorizationHeader])) == c.token
  {
    BearerTokenOfHeader("Bearer", c.token.value, None);
    assert "Bearer" + " " + c.token.value == "Bearer " + c.token.value;
  }

  /** A reload after a sign-in restores the same token and user and changes
      no storage. */
  lemma ReloadAfterSignIn(c: Client, json: UserJson, data: LoginResponse)
    requires RoundTrips(json)
    ensures var c' := SignIn(c, json, Success(data)).0;
      Load(c'.storage, json) == c'
  {
    var c' := SignIn(c, json, Success(data)).0;
    assert TokenKey != UserKey by { assert TokenKey[5] != UserKey[5]; }
    assert c'.storage[UserKey] == json.stringify(data.user);
    assert json.parse(json.stringify(data.user)) == Some(Some(data.user));
  }

  /** After logout, and after a reload following it, the client is not
      authenticated and asks for no header. */
  lemma LogoutSignsOut(c: Client, json: UserJson)
    ensures var c' := Logout(c).0;
      && !IsAuthenticated(c') && GetAuthHeaders(c').Failure?
      && !IsAuthenticated(Load(c'.storage, json)) && Load(c'.storage, json) == c'
  {
  }

  /** A saved user that does not parse leaves a reloaded client unauthenticated. */
  lemma CorruptUserSignsOut(storage: Storage, json: UserJson)
    requires UserKey in storage && storage[UserKey] != "" && json.parse(storage[UserKey]).None?
    ensures !IsAuthenticated(Load(storage, json)) && UserKey !in Load(storage, json).storage
  {
  }

  /** Every operation keeps memory and storage in agreement. */
  lemma OperationsKeepConsistent(c: Client, json: UserJson, response: Result<LoginResponse, string>)
    requires RoundTrips(json) && Consistent(c, json)
    ensures Consistent(SignIn(c, json, response).0, json)
    ensures Consistent(Logout(c).0, json)
  {
    var c' := Logout(c).0;
    assert Get(c'.storage, TokenKey).None?;
  }
}

=== FILE: dedup_window.dfy ===
/** A concrete store on which `syncAccountTransactions` (server/teller.ts,
    lines 190-192) inserts a transaction it already holds: the dedup reads
    only the 50 newest rows of the account (`getTransactionsByAccountId`
    with its default limit), so a provider transaction older than those is
    inserted again. The same store is left untouched by the pass that
    dedups against every row. */
module DedupWindow {
  import opened Wrappers
  import opened Seqs
  import opened Schema
  import opened Storage
  import opened Teller

  // ----- What the window hides, for any store -----

  /** A row with `limit` distinct rows of its account dated after it is not
      among the `limit` newest rows of the account. */
  lemma OlderThanWindowIsHidden(s: Store, accountId: Id, limit: nat, stale: Transaction, newer: seq<Transaction>)
    requires Distinct(newer) && |newer| == limit
    requires forall j :: 0 <= j < |newer| ==>
      newer[j] in s.transactions && newer[j].accountId == accountId && newer[j].date > stale.date
    ensures stale !in GetTransactionsByAccountId(s, accountId, limit)
  {
    var r := GetTransactionsByAccountId(s, accountId, limit);
    assert forall j :: 0 <= j < |newer| ==>
      newer[j] in r || (|r| == limit && forall u :: u in r ==> u.date >= newer[j].date);
    FullWindowExcludes(r, limit, stale, newer);
  }

  /** A selection of at most `limit` rows that either holds each of `limit`
      distinct rows newer than `stale` or is full of rows at least as new as
      it cannot hold `stale`. */
  lemma FullWindowExcludes(r: seq<Transaction>, limit: nat, stale: Transaction, newer: seq<Transaction>)
    requires Distinct(newer) && |newer| == limit && |r| <= limit
    requires forall j :: 0 <= j < |newer| ==> newer[j].date > stale.date
    requires forall j :: 0 <= j < |newer| ==>
      newer[j] in r || (|r| == limit && forall u :: u in r ==> u.date >= newer[j].date)
    ensures stale !in r
  {
    if stale in r {
      forall j | 0 <= j < |newer| ensures newer[j] in r {
      }
      assert stale !in newer;
      DistinctCons(stale, newer);
      assert forall i :: 0 <= i < |[stale] + newer| ==> ([stale] + newer)[i] in r;
      DistinctFitsIn([stale] + newer, r);
    }
  }

  /** If `stale` is the only row of its account with its provider id, and it
      is hidden by the window, the pass as written does not know that id. */
  lemma HiddenIdIsUnknown(s: Store, accountId: Id, stale: Transaction)
    requires stale !in GetTransactionsByAccountId(s, accountId, DefaultLimit)
    requires forall i :: 0 <= i < |s.transactions| ==>
      (s.transactions[i].accountId == accountId && s.transactions[i].externalId == stale.externalId ==> s.transactions[i] == stale)
    ensures stale.externalId !in Known(s, accountId, Some(DefaultLimit))
  {
    var r := GetTransactionsByAccountId(s, accountId, DefaultLimit);
    SelectionLacksId(s, accountId, r, stale);
  }

  /** A selection of the account's rows that leaves out the only row with
      `stale`'s provider id holds no row with that id. */
  lemma SelectionLacksId(s: Store, accountId: Id, r: seq<Transaction>, stale: Transaction)
    requires stale !in r
    requires forall t :: t in r ==> t in s.transactions && t.accountId == accountId
    requires forall i :: 0 <= i < |s.transactions| ==>
      (s.transactions[i].accountId == accountId && s.transactions[i].externalId == stale.externalId ==> s.transactions[i] == stale)
    ensures stale.externalId !in ExternalIds(r)
  {
    forall t | t in r ensures t.externalId != stale.externalId {
      var i :| 0 <= i < |s.transactions| && s.transactions[i] == t;
    }
  }

  /** A one-transaction response whose id is not known inserts exactly that
      transaction. */
  lemma StepInsertsUnknown(s: Store, account: Account, remote: RemoteTransaction, window: Option<nat>, now: Time)
    requires remote.id !in Known(s, account.id, window)
    requires FitsDecimal(remote.amount) && account.id in AccountIds(s.accounts)
    ensures var o := SyncAccountStep(s, account, Success([remote]), window, now);
      && o.error.None?
      && |o.store.transactions| == |s.transactions| + 1
      && o.store.transactions[..|s.transactions|] == s.transactions
      && o.store.transactions[|s.transactions|].accountId == account.id
      && o.store.transactions[|s.transactions|].externalId == remote.id
  {
    var known := Known(s, account.id, window);
    UnknownIsNew(account.id, known, remote);
    var novel := [TransactionData(account.id, remote)];
    SingleInsertSucceeds(s, novel, now);
    var o := SyncAccountStep(s, account, Success([remote]), window, now);
    assert o.error.None?;
    var added := o.store.transactions[|s.transactions|..];
    assert added[0] == TransactionFromInsert(added[0].id, novel[0], now);
    assert o.store.transactions[|s.transactions|] == added[0];
  }

  /** A single provider transaction with an unknown id is a single insert. */
  lemma UnknownIsNew(accountId: Id, known: set<string>, remote: RemoteTransaction)
    requires remote.id !in known
    ensures NewTransactions(accountId, known, [remote]) == [TransactionData(accountId, remote)]
  {
    assert [remote][1..] == [];
    assert Unseen(known, [remote]) == [remote];
  }

  lemma SingleInsertSucceeds(s: Store, novel: seq<InsertTransaction>, now: Time)
    requires |novel| == 1 && FitsDecimal(novel[0].amount) && novel[0].accountId in AccountIds(s.accounts)
    ensures CreateTransactions(s, novel, now).Success?
  {
  }

  /** A one-transaction response whose id is known changes nothing. */
  lemma StepSkipsKnown(s: Store, account: Account, remote: RemoteTransaction, window: Option<nat>, now: Time)
    requires remote.id in Known(s, account.id, window)
    ensures SyncAccountStep(s, account, Success([remote]), window, now) == SyncOutcome(s, None)
  {
    assert [remote][1..] == [];
    assert Unseen(Known(s, account.id, window), [remote]) == [];
  }

  /** A pass over one account is that account's step. */
  lemma SingleAccountPass(s: Store, account: Account, fetch: string -> Result<seq<RemoteTransaction>, string>,
                          window: Option<nat>, now: Time)
    ensures SyncTransactionsFrom(s, [account], fetch, window, now) ==
      SyncAccountStep(s, account, fetch(account.externalId), window, now)
  {
    assert [account][1..] == [];
  }

  // ----- The concrete store -----

  /** The stale row: provider id `x`, dated 0. */
  const OldRow: Transaction := Transaction("o", "a", "x", 500, "coffee", None, 0, "expense", DefaultStatus, 0)

  /** The `j`-th newer row, dated 1, with an id of `j + 1` letters `r`. */
  function RecentRow(j: nat): (t: Transaction)
    ensures |t.id| == j + 1 && t.id[0] == 'r' && t.externalId == t.id
    ensures t.accountId == "a" && t.date == 1 && FitsDecimal(t.amount)
  {
    var id := seq(j + 1, _ => 'r');
    Transaction(id, "a", id, 500, "coffee", None, 1, "expense", DefaultStatus, 0)
  }

  function RecentRows(): (rows: seq<Transaction>)
    ensures |rows| == DefaultLimit
    ensures forall j :: 0 <= j < |rows| ==> rows[j] == RecentRow(j)
  {
    seq(DefaultLimit, j requires 0 <= j => RecentRow(j))
  }

  const WindowUser: User := User("u", "u@example.com", "hash", None, 0)
  const WindowAccount: Account := Account("a", "u", "acct", "Checking", "depository", 0, DefaultCurrency, true, None, 0)

  /** One user with one account, holding the stale row and, after it,
      `DefaultLimit` newer rows. */
  function WindowStore(): (s: Store)
    ensures s.users == [WindowUser] && s.accounts == [WindowAccount] && s.sessions == []
    ensures s.transactions == [OldRow] + RecentRows()
  {
    Store([WindowUser], [WindowAccount], [OldRow] + RecentRows(), [])
  }

  /** The provider returns the stale transaction again. */
  const OldRemote: RemoteTransaction := RemoteTransaction("x", 500, 0, "coffee", "posted", "debit")

  function WindowFetch(externalId: string): (r: Result<seq<RemoteTransaction>, string>)
    ensures r == Success([OldRemote])
  {
    Success([OldRemote])
  }

  lemma RecentRowsDistinct()
    ensures Distinct(RecentRows())
  {
    var rows := RecentRows();
    forall i, j | 0 <= i < j < |rows| ensures rows[i] != rows[j] {
      assert |rows[i].id| != |rows[j].id|;
    }
  }

  /** The store satisfies every database constraint. */
  lemma WindowStoreIsValid()
    ensures Valid(WindowStore())
  {
    var s := WindowStore();
    var ids := TransactionIds(s.transactions);
    forall i, j | 0 <= i < j < |ids| ensures ids[i] != ids[j] {
      if i == 0 {
        assert ids[j][0] == 'r';
      } else {
        assert |ids[i]| == i && |ids[j]| == j;
      }
    }
    assert UserIds(s.users)[0] == "u";
    assert AccountIds(s.accounts)[0] == "a";
    forall i | 0 <= i < |s.transactions| ensures s.transactions[i].accountId == "a" && FitsDecimal(s.transactions[i].amount) {
      if i > 0 {
        assert s.transactions[i] == RecentRow(i - 1);
      }
    }
  }

  /** The newer rows are all in the store. */
  lemma RecentRowsStored()
    ensures forall j :: 0 <= j < |RecentRows()| ==> RecentRows()[j] in WindowStore().transactions
  {
    var s := WindowStore();
    forall j | 0 <= j < |RecentRows()| ensures RecentRows()[j] in s.transactions {
      assert s.transactions[j + 1] == RecentRows()[j];
    }
  }

  /** Only the stale row has provider id `x`. */
  lemma OnlyStaleRowHasId()
    ensures var ts := WindowStore().transactions;
      forall i :: 0 <= i < |ts| ==> (ts[i].accountId == "a" && ts[i].externalId == "x" ==> ts[i] == OldRow)
  {
    var ts := WindowStore().transactions;
    forall i | 0 < i < |ts| ensures ts[i].externalId[0] == 'r' {
      assert ts[i] == RecentRow(i - 1);
    }
  }

  /** The window of 50 hides the stale row's provider id. */
  lemma OldIdIsUnknownToWindow()
    ensures "x" !in Known(WindowStore(), "a", Some(DefaultLimit))
  {
    RecentRowsDistinct();
    RecentRowsStored();
    OlderThanWindowIsHidden(WindowStore(), "a", DefaultLimit, OldRow, RecentRows());
    OnlyStaleRowHasId();
    HiddenIdIsUnknown(WindowStore(), "a", OldRow);
  }

  /** The user's only account is the one synced. */
  lemma WindowAccountsToSync()
    ensures AccountsToSync(WindowStore(), "u", None) == [WindowAccount]
  {
    var s := WindowStore();
    assert s.accounts[1..] == [];
  }

  /** The pass as written inserts a second row with provider id `x` into an
      account that already holds one. */
  lemma DedupWindowInsertsDuplicate()
    ensures var s := WindowStore();
      var o := SyncAccountTransactions(s, "u", None, WindowFetch, 10);
      && o.error.None?
      && |o.store.transactions| == |s.transactions| + 1
      && o.store.transactions[0].accountId == "a" && o.store.transactions[0].externalId == "x"
      && o.store.transactions[|s.transactions|].accountId == "a" && o.store.transactions[|s.transactions|].externalId == "x"
  {
    var s := WindowStore();
    WindowAccountsToSync();
    SingleAccountPass(s, WindowAccount, WindowFetch, Some(DefaultLimit), 10);
    OldIdIsUnknownToWindow();
    assert AccountIds(s.accounts)[0] == "a";
    StepInsertsUnknown(s, WindowAccount, OldRemote, Some(DefaultLimit), 10);
  }

  /** The pass with the full dedup leaves the same store untouched. */
  lemma DedupAllSkipsStoredRow()
    ensures SyncAccountTransactionsDedupAll(WindowStore(), "u", None, WindowFetch, 10) == SyncOutcome(WindowStore(), None)
  {
    var s := WindowStore();
    WindowAccountsToSync();
    SingleAccountPass(s, WindowAccount, WindowFetch, None, 10);
    assert s.transactions[0] == OldRow;
    StepSkipsKnown(s, WindowAccount, OldRemote, None, 10);
  }
}

=== FILE: routes.dfy ===
/** The authentication handlers of server/routes.ts (register, login,
    logout) as functions from the store and the request to the store after
    and the response, and the clamp on the transactions `limit`. Password
    hashing, token signing and the e-mail syntax check are parameters; the
    salt bcrypt draws is passed in. */
module Routes {
  import opened Wrappers
  import opened Seqs
  import opened Schema
  import opened Storage
  import opened Auth

  const InvalidInputData := "Invalid input data"
  const UserAlreadyExists := "User already exists"
  const RegistrationFailed := "Registration failed"
  const InvalidCredentials := "Invalid credentials"
  const LoginFailed := "Login failed"
  const LoggedOut := "Logged out successfully"

  /** `bcrypt.hash(password, 12)` with its drawn salt, and `bcrypt.compare`. */
  datatype Hasher = Hasher(hash: (string, string) -> string, check: (string, string) -> bool)

  /** A password matches every hash made from it. */
  ghost predicate HasherSound(h: Hasher) {
    forall password, salt :: h.check(password, h.hash(password, salt))
  }

  /** The JSON bodies the handlers send. */
  datatype Reply =
    | ErrorReply(error: string)
    | InvalidInput(error: string, details: seq<Issue>)
    | SignedIn(user: AuthUser, token: string)
    | Done(message: string)

  datatype Response = Response(status: int, reply: Reply)

  /** The body passes `insertUserSchema`. */
  predicate Parsed(body: Body, isEmail: string -> bool) {
    ParseInsertUser(body, isEmail).Success?
  }

  /** `storage.createSession` for a token issued now, expiring in a week. */
  function OpenSession(s: Store, userId: Id, token: string, now: Time): (r: Result<Inserted<Session>, DbError>)
    ensures r.Success? <==> token !in Tokens(s.sessions) && userId in UserIds(s.users)
    ensures r.Success? ==>
      && r.value.store == s.(sessions := s.sessions + [r.value.row])
      && r.value.row.userId == userId && r.value.row.token == token && r.value.row.expiresAt == now + Week
    ensures r.Success? && Valid(s) ==> Valid(r.value.store)
  {
    CreateSession(s, InsertSession(userId, token, now + Week), now)
  }

  /** Lines 42-86. Invalid input and a taken address give 400 and change
      nothing; otherwise the user is created, a token is signed for it and a
      session opened, giving 201. A failure after the user was created gives
      500 and leaves the user in place (there is no transaction). */
  function Register(s: Store, body: Body, isEmail: string -> bool, h: Hasher, salt: string, j: Jwt, now: Time)
    : (r: (Store, Response))
    ensures ParseInsertUser(body, isEmail).Failure? ==>
      r == (s, Response(400, InvalidInput(InvalidInputData, ParseInsertUser(body, isEmail).error)))
    ensures Parsed(body, isEmail) && ParseInsertUser(body, isEmail).value.email in Emails(s.users) ==>
      r == (s, Response(400, ErrorReply(UserAlreadyExists)))
    ensures r.1.status == 201 || r.1.status == 400 || r.1.status == 500
    ensures r.1.status == 201 ==>
      var ins := ParseInsertUser(body, isEmail).value;
      && Parsed(body, isEmail) && r.1.reply.SignedIn?
      && var u := r.1.reply.user;
      && u.email == ins.email && u.id !in UserIds(s.users)
      && r.1.reply.token == j.sign(u.id, now)
      && r.0.users == s.users + [User(u.id, ins.email, h.hash(ins.password, salt), None, now)]
      && |r.0.sessions| == |s.sessions| + 1 && r.0.sessions[..|s.sessions|] == s.sessions
      && r.0.sessions[|s.sessions|].userId == u.id
      && r.0.sessions[|s.sessions|].token == r.1.reply.token
      && r.0.sessions[|s.sessions|].expiresAt == now + Week
    ensures r.1.status == 500 ==> r.0.sessions == s.sessions && |r.0.users| == |s.users| + 1
    ensures r.0.accounts == s.accounts && r.0.transactions == s.transactions
    ensures Valid(s) ==> Valid(r.0)
  {
    match ParseInsertUser(body, isEmail)
    case Failure(issues) => (s, Response(400, InvalidInput(InvalidInputData, issues)))
    case Success(ins) =>
      if GetUserByEmail(s, ins.email).Some? then (s, Response(400, ErrorReply(UserAlreadyExists)))
      else
        match CreateUser(s, InsertUser(ins.email, h.hash(ins.password, salt)), now)
        case Failure(_) => (s, Response(500, ErrorReply(RegistrationFailed)))
        case Success(created) =>
          var user := created.row;
          var token := j.sign(user.id, now);
          assert user.id in UserIds(created.store.users) by {
            assert created.store.users[|s.users|] == user;
            assert UserIds(created.store.users)[|s.users|] == user.id;
          }
          match OpenSession(created.store, user.id, token, now)
          case Failure(_) => (created.store, Response(500, ErrorReply(RegistrationFailed)))
          case Success(withSession) =>
            assert withSession.store.sessions[..|s.sessions|] == s.sessions;
            (withSession.store, Response(201, SignedIn(AuthUser(user.id, user.email), token)))
  }

  /** Lines 88-131. Invalid input gives 400; an unknown address and a wrong
      password give the same 401; otherwise a token is signed and a session
      opened, giving 200. Nothing but the one session is added. */
  function Login(s: Store, body: Body, isEmail: string -> bool, h: Hasher, j: Jwt, now: Time): (r: (Store, Response))
    ensures ParseInsertUser(body, isEmail).Failure? ==> r == (s, Response(400, ErrorReply(InvalidInputData)))
    ensures r.1.status == 200 || r.1.status == 400 || r.1.status == 401 || r.1.status == 500
    ensures r.1.status == 401 <==>
      && Parsed(body, isEmail)
      && var ins := ParseInsertUser(body, isEmail).value;
      && (GetUserByEmail(s, ins.email).None? || !h.check(ins.password, GetUserByEmail(s, ins.email).value.password))
    ensures r.1.status == 401 ==> r == (s, Response(401, ErrorReply(InvalidCredentials)))
    ensures r.1.status == 200 ==>
      var ins := ParseInsertUser(body, isEmail).value;
      && Parsed(body, isEmail)
      && GetUserByEmail(s, ins.email).Some?
      && var user := GetUserByEmail(s, ins.email).value;
      && h.check(ins.password, user.password)
      && r.1.reply == SignedIn(AuthUser(user.id, user.email), j.sign(user.id, now))
      && r.0.users == s.users && r.0.accounts == s.accounts && r.0.transactions == s.transactions
      && |r.0.sessions| == |s.sessions| + 1 && r.0.sessions[..|s.sessions|] == s.sessions
      && r.0.sessions[|s.sessions|].userId == user.id
      && r.0.sessions[|s.sessions|].token == j.sign(user.id, now)
      && r.0.sessions[|s.sessions|].expiresAt == now + Week
    ensures r.1.status != 200 ==> r.0 == s
    ensures Valid(s) ==> Valid(r.0)
  {
    match ParseInsertUser(body, isEmail)
    case Failure(_) => (s, Response(400, ErrorReply(InvalidInputData)))
    case Success(ins) =>
      match GetUserByEmail(s, ins.email)
      case None => (s, Response(401, ErrorReply(InvalidCredentials)))
      case Some(user) =>
        if !h.check(ins.password, user.password) then (s, Response(401, ErrorReply(InvalidCredentials)))
        else
          var token := j.sign(user.id, now);
          assert user.id in UserIds(s.users) by {
            var i :| 0 <= i < |s.users| && s.users[i] == user;
            assert UserIds(s.users)[i] == user.id;
          }
          match OpenSession(s, user.id, token, now)
          case Failure(_) => (s, Response(500, ErrorReply(LoginFailed)))
          case Success(withSession) =>
            assert withSession.store.sessions[..|s.sessions|] == s.sessions;
            (withSession.store, Response(200, SignedIn(AuthUser(user.id, user.email), token)))
  }

  /** Lines 133-147: behind the gate, the session of the presented token is
      deleted. A request the gate refuses gets the gate's response. */
  function Logout(s: Store, j: Jwt, header: Option<string>, now: Time): (r: (Store, Response))
    ensures Authenticate(s, j, header, now).Denied? ==>
      var g := Authenticate(s, j, header, now);
      r == (s, Response(g.status, ErrorReply(g.error)))
    ensures Authenticate(s, j, header, now).Proceed? ==>
      && BearerToken(header).Some?
      && r.1 == Response(200, Done(LoggedOut))
      && GetSession(r.0, BearerToken(header).value).None?
      && (forall x :: x in s.sessions && x.token != BearerToken(header).value ==> x in r.0.sessions)
      && (forall x :: x in r.0.sessions ==> x in s.sessions)
      && r.0.users == s.users && r.0.accounts == s.accounts && r.0.transactions == s.transactions
    ensures Valid(s) ==> Valid(r.0)
  {
    match Authenticate(s, j, header, now)
    case Denied(status, error) => (s, Response(status, ErrorReply(error)))
    case Proceed(_) => (DeleteSession(s, BearerToken(header).value), Response(200, Done(LoggedOut)))
  }

  /** Lines 182-184 (the query parsed as an integer; `None` when it is absent
      or empty): 50 by default, otherwise clamped into [1, 500]. */
  function ClampLimit(query: Option<int>): (limit: int)
    ensures 1 <= limit <= 500
    ensures query.None? ==> limit == DefaultLimit
    ensures query.Some? && 1 <= query.value <= 500 ==> limit == query.value
    ensures query.Some? && query.value < 1 ==> limit == 1
    ensures query.Some? && query.value > 500 ==> limit == 500
  {
    var requested := if query.Some? then query.value else DefaultLimit;
    var atLeastOne := if requested > 1 then requested else 1;
    if atLeastOne < 500 then atLeastOne else 500
  }

  /** Clamping a clamped limit changes nothing, and the clamp is monotone. */
  lemma ClampLimitStable(a: int, b: int)
    ensures ClampLimit(Some(ClampLimit(Some(a)))) == ClampLimit(Some(a))
    ensures a <= b ==> ClampLimit(Some(a)) <= ClampLimit(Some(b))
  {
  }

  // ----- Round trips through the gate -----

  /** A second registration with the same address is refused and changes nothing. */
  lemma RegisterTwiceIsRefused(s: Store, body: Body, isEmail: string -> bool, h: Hasher,
                               salt1: string, salt2: string, j: Jwt, now1: Time, now2: Time)
    requires Register(s, body, isEmail, h, salt1, j, now1).1.status == 201
    ensures var s1 := Register(s, body, isEmail, h, salt1, j, now1).0;
      Register(s1, body, isEmail, h, salt2, j, now2) == (s1, Response(400, ErrorReply(UserAlreadyExists)))
  {
    var s1 := Register(s, body, isEmail, h, salt1, j, now1).0;
    var ins := ParseInsertUser(body, isEmail).value;
    assert s1.users[|s.users|].email == ins.email;
    assert Emails(s1.users)[|s.users|] == ins.email;
  }

  /** Login with an unknown address and login with a wrong password give the
      same response: neither says which check failed. */
  lemma LoginFailuresLookAlike(s: Store, unknown: Body, wrong: Body, isEmail: string -> bool, h: Hasher, j: Jwt, now: Time)
    requires Parsed(unknown, isEmail) && GetUserByEmail(s, ParseInsertUser(unknown, isEmail).value.email).None?
    requires Parsed(wrong, isEmail)
    requires var ins := ParseInsertUser(wrong, isEmail).value;
      GetUserByEmail(s, ins.email).Some? && !h.check(ins.password, GetUserByEmail(s, ins.email).value.password)
    ensures Login(s, unknown, isEmail, h, j, now) == Login(s, wrong, isEmail, h, j, now)
  {
  }

  /** The session appended last is the one found for its token, when no
      earlier session holds that token. */
  lemma LastSessionFound(s: Store, token: string)
    requires |s.sessions| >= 1 && s.sessions[|s.sessions| - 1].token == token
    requires token !in Tokens(s.sessions[..|s.sessions| - 1])
    ensures GetSession(s, token) == Some(s.sessions[|s.sessions| - 1])
  {
    var k := |s.sessions| - 1;
    assert Tokens(s.sessions)[k] == token;
    forall i | 0 <= i < k ensures s.sessions[i].token != token {
      assert Tokens(s.sessions[..k])[i] == s.sessions[i].token;
    }
    var x := GetSession(s, token).value;
    var i :| 0 <= i < |s.sessions| && s.sessions[i] == x;
    assert i == k;
  }

  /** The user appended last is the one found for its id, when no earlier
      user has that id. */
  lemma LastUserFound(s: Store, user: User)
    requires |s.users| >= 1 && s.users[|s.users| - 1] == user
    requires user.id !in UserIds(s.users[..|s.users| - 1])
    ensures GetUser(s, user.id) == Some(user)
  {
    var k := |s.users| - 1;
    assert UserIds(s.users)[k] == user.id;
    forall i | 0 <= i < k ensures s.users[i].id != user.id {
      assert UserIds(s.users[..k])[i] == s.users[i].id;
    }
    var x := GetUser(s, user.id).value;
    var i :| 0 <= i < |s.users| && s.users[i] == x;
    assert i == k;
  }

  /** Where user ids are unique, a stored user is the one found for its id. */
  lemma UniqueUserFound(s: Store, user: User)
    requires Distinct(UserIds(s.users)) && user in s.users
    ensures GetUser(s, user.id) == Some(user)
  {
    var n :| 0 <= n < |s.users| && s.users[n] == user;
    assert UserIds(s.users)[n] == user.id;
    var x := GetUser(s, user.id).value;
    var m :| 0 <= m < |s.users| && s.users[m] == x;
    assert UserIds(s.users)[m] == UserIds(s.users)[n];
  }

  /** A token signed for a user passes the gate as that user while the token
      is within its week, its session is live and the user is found. */
  lemma GateAdmits(s: Store, j: Jwt, user: User, signedAt: Time, later: Time)
    requires Sound(j) && signedAt <= later < signedAt + Week
    requires SessionLive(s, j.sign(user.id, signedAt), later)
    requires GetUser(s, user.id) == Some(user)
    ensures Authenticate(s, j, Some("Bearer " + j.sign(user.id, signedAt)), later) == Proceed(AuthUser(user.id, user.email))
  {
    var token := j.sign(user.id, signedAt);
    assert token != "" && ' ' !in token;
    BearerTokenOfHeader("Bearer", token, None);
    assert "Bearer" + " " + token == "Bearer " + token;
    assert BearerToken(Some("Bearer " + token)) == Some(token);
    assert j.verify(token, later) == Some(user.id);
  }

  /** After a successful registration, the client's `Bearer <token>` header
      passes the gate as the new user for the next week. */
  lemma RegisterThenAuthenticate(s: Store, body: Body, isEmail: string -> bool, h: Hasher, salt: string,
                                 j: Jwt, now: Time, later: Time)
    requires Sound(j) && now <= later < now + Week
    requires Register(s, body, isEmail, h, salt, j, now).1.status == 201
    ensures var (s', response) := Register(s, body, isEmail, h, salt, j, now);
      Authenticate(s', j, Some("Bearer " + response.reply.token), later) == Proceed(response.reply.user)
  {
    var (s', response) := Register(s, body, isEmail, h, salt, j, now);
    var user := s'.users[|s.users|];
    assert s'.users[..|s'.users| - 1] == s.users;
    assert s'.sessions[..|s'.sessions| - 1] == s.sessions;
    LastSessionFound(s', response.reply.token);
    LastUserFound(s', user);
    GateAdmits(s', j, user, now, later);
  }

  /** After a successful login, the client's `Bearer <token>` header passes
      the gate as the logged-in user for the next week, given that the store
      holds each user id once. */
  lemma LoginThenAuthenticate(s: Store, body: Body, isEmail: string -> bool, h: Hasher,
                              j: Jwt, now: Time, later: Time)
    requires Sound(j) && now <= later < now + Week && Valid(s)
    requires Login(s, body, isEmail, h, j, now).1.status == 200
    ensures var (s', response) := Login(s, body, isEmail, h, j, now);
      Authenticate(s', j, Some("Bearer " + response.reply.token), later) == Proceed(response.reply.user)
  {
    var (s', response) := Login(s, body, isEmail, h, j, now);
    var user := GetUserByEmail(s, ParseInsertUser(body, isEmail).value.email).value;
    assert s'.sessions[..|s'.sessions| - 1] == s.sessions;
    assert response.reply.token !in Tokens(s.sessions);
    LastSessionFound(s', response.reply.token);
    UniqueUserFound(s', user);
    GateAdmits(s', j, user, now, later);
  }

  /** The user appended last is the one found for its address, when no
      earlier user has that address. */
  lemma LastEmailFound(s: Store, user: User)
    requires |s.users| >= 1 && s.users[|s.users| - 1] == user
    requires user.email !in Emails(s.users[..|s.users| - 1])
    ensures GetUserByEmail(s, user.email) == Some(user)
  {
    var k := |s.users| - 1;
    assert Emails(s.users)[k] == user.email;
    forall i | 0 <= i < k ensures s.users[i].email != user.email {
      assert Emails(s.users[..k])[i] == s.users[i].email;
    }
    var x := GetUserByEmail(s, user.email).value;
    var i :| 0 <= i < |s.users| && s.users[i] == x;
    assert i == k;
  }

  /** Logging in with the body that registered a user succeeds as that user,
      as long as the token issued is not already held by a session. */
  lemma RegisterThenLogin(s: Store, body: Body, isEmail: string -> bool, h: Hasher, salt: string,
                          j: Jwt, now: Time, later: Time)
    requires HasherSound(h)
    requires Register(s, body, isEmail, h, salt, j, now).1.status == 201
    requires var (s', response) := Register(s, body, isEmail, h, salt, j, now);
      j.sign(response.reply.user.id, later) !in Tokens(s'.sessions)
    ensures var (s', response) := Register(s, body, isEmail, h, salt, j, now);
      var r := Login(s', body, isEmail, h, j, later);
      r.1.status == 200 && r.1.reply.user == response.reply.user
  {
    var (s', response) := Register(s, body, isEmail, h, salt, j, now);
    var ins := ParseInsertUser(body, isEmail).value;
    var user := s'.users[|s.users|];
    assert s'.users[..|s'.users| - 1] == s.users;
    assert ins.email !in Emails(s.users);
    LastEmailFound(s', user);
    assert h.check(ins.password, user.password);
    assert UserIds(s'.users)[|s.users|] == user.id;
  }

  /** After a successful logout the same header is refused with 403, at any time. */
  lemma LogoutRevokes(s: Store, j: Jwt, header: Option<string>, now: Time, later: Time)
    requires Logout(s, j, header, now).1.status == 200
    ensures var g := Authenticate(Logout(s, j, header, now).0, j, header, later);
      g.Denied? && g.status == 403
  {
  }
}

=== FILE: schema.dfy ===
/** The record shapes of shared/schema.ts: the four tables `users`, `accounts`,
    `transactions` and `sessions`, their insert shapes (which omit the
    generated `id` and `createdAt` and make defaulted columns optional), the
    column defaults, and the `insertUserSchema` validation.

    Identifiers are opaque strings, instants are opaque ordered integers, and
    a `decimal(12, 2)` column holds an integer number of cents. */
module Schema {
  import opened Wrappers
  import opened Seqs
  import opened Text

  type Id = string

  /** An instant; only its order and the addition of a duration are used. */
  type Time = int

  /** A `decimal(12, 2)` value scaled by 100. */
  type Cents = int

  /** 12 significant digits with 2 after the point: |cents| < 10^12. */
  const DecimalCentsBound: int := 1_000_000_000_000

  predicate FitsDecimal(c: Cents) {
    -DecimalCentsBound < c < DecimalCentsBound
  }

  const DefaultCurrency: string := "USD"
  const DefaultIsActive: bool := true
  const DefaultStatus: string := "posted"

  /** A `users` row. `tellerAccessToken` holds the encrypted provider
      credential; null when none is stored. */
  datatype User = User(
    id: Id,
    email: string,
    password: string,
    tellerAccessToken: Option<string>,
    createdAt: Time)

  /** An `accounts` row; `kind` is the `type` column (checking, savings, credit). */
  datatype Account = Account(
    id: Id,
    userId: Id,
    externalId: string,
    name: string,
    kind: string,
    balance: Cents,
    currency: string,
    isActive: bool,
    lastSyncAt: Option<Time>,
    createdAt: Time)

  /** A `transactions` row; `kind` is the `type` column (income, expense). */
  datatype Transaction = Transaction(
    id: Id,
    accountId: Id,
    externalId: string,
    amount: Cents,
    description: string,
    category: Option<string>,
    date: Time,
    kind: string,
    status: string,
    createdAt: Time)

  /** A `sessions` row binding a bearer token to a user until `expiresAt`. */
  datatype Session = Session(
    id: Id,
    userId: Id,
    token: string,
    expiresAt: Time,
    createdAt: Time)

  /** `InsertUser`: exactly the two fields `insertUserSchema` picks. */
  datatype InsertUser = InsertUser(email: string, password: string)

  /** `InsertAccount`: no `id`/`createdAt`; `None` takes the column default. */
  datatype InsertAccount = InsertAccount(
    userId: Id,
    externalId: string,
    name: string,
    kind: string,
    balance: Cents,
    currency: Option<string>,
    isActive: Option<bool>,
    lastSyncAt: Option<Time>)

  /** `InsertTransaction`: no `id`/`createdAt`; `None` takes the column default. */
  datatype InsertTransaction = InsertTransaction(
    accountId: Id,
    externalId: string,
    amount: Cents,
    description: string,
    category: Option<string>,
    date: Time,
    kind: string,
    status: Option<string>)

  datatype InsertSession = InsertSession(userId: Id, token: string, expiresAt: Time)

  /** The account row an insert produces once the store has chosen its id and
      creation instant: defaults fill the omitted columns. */
  function AccountFromInsert(id: Id, ins: InsertAccount, now: Time): Account {
    Account(id, ins.userId, ins.externalId, ins.name, ins.kind, ins.balance,
            ins.currency.GetOr(DefaultCurrency), ins.isActive.GetOr(DefaultIsActive),
            ins.lastSyncAt, now)
  }

  /** The transaction row an insert produces. */
  function TransactionFromInsert(id: Id, ins: InsertTransaction, now: Time): Transaction {
    Transaction(id, ins.accountId, ins.externalId, ins.amount, ins.description,
                ins.category, ins.date, ins.kind, ins.status.GetOr(DefaultStatus), now)
  }

  // ----- insertUserSchema -----

  /** A field of a parsed JSON request body: a string, or any other JSON value. */
  datatype Field = Text(text: string) | NotText

  type Body = map<string, Field>

  /** Why validation rejected a body, one entry per failing field. */
  datatype Issue = Required(field: string) | ExpectedString(field: string) | InvalidEmail | PasswordTooShort

  const MinPasswordLength: nat := 8

  /** The checks on one field: present, a string, and passing its refinement. */
  function CheckField(body: Body, field: string, refine: string -> bool, refinement: Issue): seq<Issue> {
    if field !in body then [Required(field)]
    else match body[field]
      case NotText => [ExpectedString(field)]
      case Text(v) => if refine(v) then [] else [refinement]
  }

  /** `insertUserSchema.parse`: `email` must be a string the e-mail syntax check
      accepts and `password` a string at least 8 long, counted as JavaScript
      counts `length`, in UTF-16 code units; every other
      key of the body is dropped. The e-mail syntax check is the validation
      library's and is taken as the parameter `isEmail`. */
  function ParseInsertUser(body: Body, isEmail: string -> bool): (r: Result<InsertUser, seq<Issue>>)
    ensures r.Success? <==>
      && "email" in body && body["email"].Text? && isEmail(body["email"].text)
      && "password" in body && body["password"].Text? && Utf16Length(body["password"].text) >= MinPasswordLength
    ensures r.Success? ==> r.value == InsertUser(body["email"].text, body["password"].text)
    ensures r.Failure? ==> |r.error| >= 1
  {
    var issues := CheckField(body, "email", isEmail, InvalidEmail) +
                  CheckField(body, "password", (p: string) => Utf16Length(p) >= MinPasswordLength, PasswordTooShort);
    if issues == [] then Success(InsertUser(body["email"].text, body["password"].text))
    else Failure(issues)
  }

  /** Four characters outside the Basic Multilingual Plane are eight UTF-16
      code units: a password the length check accepts. */
  lemma FourAstralCharactersAreLongEnough(email: string, isEmail: string -> bool)
    requires isEmail(email)
    ensures ParseInsertUser(map["email" := Text(email), "password" := Text("\U{1F600}\U{1F600}\U{1F600}\U{1F600}")], isEmail).Success?
  {
    var p := "\U{1F600}\U{1F600}\U{1F600}\U{1F600}";
    assert p[1..][1..][1..][1..] == [];
    assert Utf16Length(p) == 8;
  }

  /** Seven characters are too short however they are counted. */
  lemma SevenCharactersAreTooShort(email: string, password: string, isEmail: string -> bool)
    requires |password| == 7 && forall i :: 0 <= i < |password| ==> password[i] as int < 0x1_0000
    ensures ParseInsertUser(map["email" := Text(email), "password" := Text(password)], isEmail).Failure?
  {
    Utf16LengthIsLengthIffBmp(password);
  }

  // ----- Table constraints -----

  // The key and unique columns of each table.
  function UserIds(users: seq<User>): seq<Id> { Project(users, (u: User) => u.id) }
  function AccountIds(accounts: seq<Account>): seq<Id> { Project(accounts, (a: Account) => a.id) }
  function TransactionIds(txs: seq<Transaction>): seq<Id> { Project(txs, (t: Transaction) => t.id) }
  function SessionIds(sessions: seq<Session>): seq<Id> { Project(sessions, (x: Session) => x.id) }
  function Emails(users: seq<User>): seq<string> { Project(users, (u: User) => u.email) }
  function Tokens(sessions: seq<Session>): seq<string> { Project(sessions, (x: Session) => x.token) }
}

=== FILE: seqs.dfy ===
/** The array operations the source leans on, over Dafny sequences:
    `Array.prototype.find`, `Array.prototype.filter` and SQL `LIMIT`. */
module Seqs {
  import opened Wrappers

  /** `xs.find(p)`: the first element satisfying `p`, if any. */
  function Find<T>(xs: seq<T>, p: T -> bool): (r: Option<T>)
    ensures r.None? <==> forall i :: 0 <= i < |xs| ==> !p(xs[i])
    ensures r.Some? ==> exists i :: 0 <= i < |xs| && xs[i] == r.value && p(xs[i]) &&
                          forall j :: 0 <= j < i ==> !p(xs[j])
  {
    if xs == [] then None
    else if p(xs[0]) then Some(xs[0])
    else
      var r := Find(xs[1..], p);
      assert forall i :: 0 <= i < |xs| - 1 ==> xs[1..][i] == xs[i + 1];
      r
  }

  /** `xs.filter(p)`: the elements satisfying `p`, in their original order. */
  function Filter<T>(xs: seq<T>, p: T -> bool): (r: seq<T>)
    ensures |r| <= |xs|
    ensures forall i :: 0 <= i < |r| ==> r[i] in xs && p(r[i])
    ensures forall i :: 0 <= i < |xs| && p(xs[i]) ==> xs[i] in r
  {
    if xs == [] then []
    else
      var rest := Filter(xs[1..], p);
      assert forall i :: 0 <= i < |xs| - 1 ==> xs[1..][i] == xs[i + 1];
      if p(xs[0]) then [xs[0]] + rest else rest
  }

  /** Filtering distributes over concatenation, so it keeps relative order. */
  lemma {:induction false} FilterAppend<T>(xs: seq<T>, ys: seq<T>, p: T -> bool)
    ensures Filter(xs + ys, p) == Filter(xs, p) + Filter(ys, p)
  {
    if xs == [] {
      assert xs + ys == ys;
    } else {
      assert (xs + ys)[1..] == xs[1..] + ys;
      FilterAppend(xs[1..], ys, p);
      assert (xs + ys)[0] == xs[0];
      if p(xs[0]) {
        calc {
          Filter(xs + ys, p);
          [xs[0]] + Filter(xs[1..] + ys, p);
          [xs[0]] + (Filter(xs[1..], p) + Filter(ys, p));
          ([xs[0]] + Filter(xs[1..], p)) + Filter(ys, p);
        }
      }
    }
  }

  /** A filter every element passes changes nothing. */
  lemma {:induction false} FilterAll<T>(xs: seq<T>, p: T -> bool)
    requires forall i :: 0 <= i < |xs| ==> p(xs[i])
    ensures Filter(xs, p) == xs
  {
    if xs != [] {
      FilterAll(xs[1..], p);
    }
  }

  /** A filter no element passes leaves nothing. */
  lemma {:induction false} FilterNone<T>(xs: seq<T>, p: T -> bool)
    requires forall i :: 0 <= i < |xs| ==> !p(xs[i])
    ensures Filter(xs, p) == []
  {
    if xs != [] {
      FilterNone(xs[1..], p);
    }
  }

  /** A filter keeps every copy of an element that passes and no copy of one
      that does not. */
  lemma {:induction false} FilterMultiplicity<T>(xs: seq<T>, p: T -> bool, x: T)
    ensures multiset(Filter(xs, p))[x] == if p(x) then multiset(xs)[x] else 0
    decreases |xs|
  {
    if xs != [] {
      FilterMultiplicity(xs[1..], p, x);
      assert xs == [xs[0]] + xs[1..];
      assert multiset(xs) == multiset{xs[0]} + multiset(xs[1..]);
    }
  }

  /** A prefix holds no element more often than the whole sequence. */
  lemma PrefixMultiset<T>(xs: seq<T>, k: nat)
    requires k <= |xs|
    ensures multiset(xs[..k]) <= multiset(xs)
  {
    assert xs == xs[..k] + xs[k..];
    assert multiset(xs) == multiset(xs[..k]) + multiset(xs[k..]);
  }

  /** A sub-multiset as large as the whole is the whole. */
  lemma SubMultisetOfSameSize<T>(a: multiset<T>, b: multiset<T>)
    requires a <= b && |a| == |b|
    ensures a == b
  {
    assert b == a + (b - a);
    assert |b - a| == 0;
  }

  /** One column of a table: `f` of every row, in row order. */
  function Project<T, U>(rows: seq<T>, f: T -> U): (col: seq<U>)
    ensures |col| == |rows| && forall i :: 0 <= i < |rows| ==> col[i] == f(rows[i])
  {
    seq(|rows|, i requires 0 <= i < |rows| => f(rows[i]))
  }

  /** `LIMIT n`: the first `n` elements, or all of them when there are fewer. */
  function Take<T>(xs: seq<T>, n: nat): (r: seq<T>)
    ensures |r| == if n < |xs| then n else |xs|
    ensures r == xs[..|r|]
  {
    if n < |xs| then xs[..n] else xs
  }

  /** No two entries of `xs` are equal: a primary-key or `unique()` column. */
  predicate Distinct<T(==)>(xs: seq<T>) {
    forall i, j :: 0 <= i < j < |xs| ==> xs[i] != xs[j]
  }

  lemma DistinctCons<T>(y: T, ys: seq<T>)
    requires Distinct(ys) && y !in ys
    ensures Distinct([y] + ys)
  {
    assert forall j :: 0 < j < |[y] + ys| ==> ([y] + ys)[j] == ys[j - 1];
  }

  lemma DistinctTail<T>(ys: seq<T>)
    requires Distinct(ys) && ys != []
    ensures Distinct(ys[1..]) && ys[0] !in ys[1..]
  {
    assert forall j :: 0 <= j < |ys| - 1 ==> ys[1..][j] == ys[j + 1];
  }

  /** A table whose key column is distinct holds no row twice. */
  lemma {:induction false} DistinctKeyOccursOnce<T, U>(rows: seq<T>, key: T -> U, x: T)
    requires Distinct(Project(rows, key))
    ensures multiset(rows)[x] <= 1
    decreases |rows|
  {
    if rows != [] {
      var rest := rows[1..];
      assert Project(rest, key) == Project(rows, key)[1..];
      DistinctTail(Project(rows, key));
      DistinctKeyOccursOnce(rest, key, x);
      assert rows == [rows[0]] + rest;
      assert multiset(rows) == multiset{rows[0]} + multiset(rest);
      forall j | 0 <= j < |rest| ensures rest[j] != rows[0] {
        assert Project(rest, key)[j] == key(rest[j]);
      }
      assert rows[0] !in rest;
    }
  }

  /** Pigeonhole: `xs` has pairwise different entries, all found in `ys`,
      so `ys` is at least as long. */
  lemma {:induction false} DistinctFitsIn<T>(xs: seq<T>, ys: seq<T>)
    requires Distinct(xs)
    requires forall i :: 0 <= i < |xs| ==> xs[i] in ys
    ensures |xs| <= |ys|
    decreases |xs|
  {
    if xs != [] {
      var k :| 0 <= k < |ys| && ys[k] == xs[0];
      var rest := ys[..k] + ys[k + 1..];
      forall i | 0 <= i < |xs[1..]| ensures xs[1..][i] in rest {
        assert xs[1..][i] == xs[i + 1] != xs[0];
        var j :| 0 <= j < |ys| && ys[j] == xs[i + 1];
        if j < k {
          assert rest[j] == ys[j];
        } else {
          assert rest[j - 1] == ys[j];
        }
      }
      DistinctTail(xs);
      DistinctFitsIn(xs[1..], rest);
    }
  }
}

=== FILE: server_log.dfy ===
/** The two pieces of server/index.ts that shape what leaves the server
    besides route replies: the request log line written for every `/api`
    request (lines 64-96) and the reply of the last-resort error handler
    (lines 101-114). The environment (`NODE_ENV === 'production'`) is a
    parameter, and a JSON body is given as its already rendered text. */
module ServerLog {
  import opened Wrappers
  import opened Text

  /** The longest line written, in characters. */
  const MaxLine := 80
  const Ellipsis: char := '…'
  const InternalServerError := "Internal Server Error"

  // ----- The request log line -----

  /** `logLine.length > 80 ? logLine.slice(0, 79) + "…" : logLine`. */
  function Truncate(line: string): (r: string)
    ensures |r| <= MaxLine
    ensures |line| <= MaxLine ==> r == line
    ensures |line| > MaxLine ==> |r| == MaxLine && r[..MaxLine - 1] == line[..MaxLine - 1] && r[MaxLine - 1] == Ellipsis
  {
    if |line| > MaxLine then line[..MaxLine - 1] + [Ellipsis] else line
  }

  /** `<verb> <path> <status> in <duration>ms`. */
  function Head(verb: string, path: string, status: int, duration: int): string {
    verb + " " + path + " " + IntToString(status) + " in " + IntToString(duration) + "ms"
  }

  /** The reply body is appended only outside production, off the
      `/api/auth/` routes, and when a (truthy) JSON body was sent. `body`
      is `None` when no JSON was sent or the JSON value was falsy. */
  predicate ShowsBody(path: string, body: Option<string>, production: bool) {
    !production && !StartsWith(path, "/api/auth/") && body.Some?
  }

  /** The line logged when a response finishes (lines 75-93); `None` for a
      request outside `/api`, which is not logged. */
  function LogLine(verb: string, path: string, status: int, duration: int,
                   body: Option<string>, production: bool): (line: Option<string>)
    ensures line.Some? <==> StartsWith(path, "/api")
    ensures line.Some? ==> |line.value| <= MaxLine
  {
    if !StartsWith(path, "/api") then None
    else
      var full := Head(verb, path, status, duration);
      var full := if ShowsBody(path, body, production) then full + " :: " + body.value else full;
      Some(Truncate(full))
  }

  /** Truncating twice is truncating once. */
  lemma TruncateIdempotent(line: string)
    ensures Truncate(Truncate(line)) == Truncate(line)
  {
  }

  /** Truncation keeps every prefix that fits before the ellipsis. */
  lemma TruncateKeepsPrefix(line: string, prefix: string)
    requires StartsWith(line, prefix) && |prefix| < MaxLine
    ensures StartsWith(Truncate(line), prefix)
  {
    if |line| > MaxLine {
      assert Truncate(line)[..|prefix|] == line[..MaxLine - 1][..|prefix|];
    }
  }

  /** A logged line starts with the request's method, path, status and
      duration whenever those fit before the ellipsis. */
  lemma LogLineNamesRequest(verb: string, path: string, status: int, duration: int,
                            body: Option<string>, production: bool)
    requires StartsWith(path, "/api")
    requires |Head(verb, path, status, duration)| < MaxLine
    ensures StartsWith(LogLine(verb, path, status, duration, body, production).value, Head(verb, path, status, duration))
  {
    var head := Head(verb, path, status, duration);
    var full := if ShowsBody(path, body, production) then head + " :: " + body.value else head;
    assert full[..|head|] == head;
    TruncateKeepsPrefix(full, head);
  }

  /** In production the line does not depend on the reply body at all. */
  lemma ProductionLogOmitsBody(verb: string, path: string, status: int, duration: int,
                               body1: Option<string>, body2: Option<string>)
    ensures LogLine(verb, path, status, duration, body1, true) == LogLine(verb, path, status, duration, body2, true)
  {
  }

  /** On the authentication routes (whose replies carry tokens) the line
      does not depend on the reply body in any environment. */
  lemma AuthPathLogOmitsBody(verb: string, path: string, status: int, duration: int,
                             body1: Option<string>, body2: Option<string>, production: bool)
    requires StartsWith(path, "/api/auth/")
    ensures LogLine(verb, path, status, duration, body1, production) == LogLine(verb, path, status, duration, body2, production)
  {
  }

  /** Outside production, another API route's body is logged in full when
      the whole line fits. */
  lemma DevelopmentLogShowsBody(verb: string, path: string, status: int, duration: int, body: string)
    requires StartsWith(path, "/api") && !StartsWith(path, "/api/auth/")
    requires |Head(verb, path, status, duration) + " :: " + body| <= MaxLine
    ensures LogLine(verb, path, status, duration, Some(body), false) == Some(Head(verb, path, status, duration) + " :: " + body)
  {
  }

  // ----- The error handler -----

  /** The fields of a thrown value the handler reads; `None` for a missing field. */
  datatype HttpError = HttpError(status: Option<int>, statusCode: Option<int>, message: Option<string>, stack: Option<string>)

  /** `{ message }` in production, `{ message, stack, path }` otherwise. */
  datatype ErrorBody = Brief(message: string) | Detailed(message: string, stack: Option<string>, path: string)

  datatype ErrorReply = ErrorReply(status: int, body: ErrorBody)

  /** A number that `||` passes over: missing or zero. */
  predicate Truthy(n: Option<int>) {
    n.Some? && n.value != 0
  }

  /** The status codes Node's HTTP layer accepts when the reply is written;
      outside them it throws a `RangeError` instead of replying. */
  predicate ValidStatus(status: int) {
    100 <= status <= 999
  }

  /** Lines 101-110: the status is the first truthy of `status` and
      `statusCode`, else 500; the message is the error's own if non-empty.
      `None` when the chosen status is not a valid HTTP status: writing the
      reply throws, and what is then sent is the framework's own handler's
      doing, which is not part of this model. */
  function RespondToError(err: HttpError, path: string, production: bool): (r: Option<ErrorReply>)
    ensures var chosen := if Truthy(err.status) then err.status.value
                          else if Truthy(err.statusCode) then err.statusCode.value
                          else 500;
      && (r.Some? <==> ValidStatus(chosen))
      && (r.Some? ==> r.value.status == chosen)
    ensures r.Some? ==> r.value.body.message != ""
    ensures r.Some? && err.message.Some? && err.message.value != "" ==> r.value.body.message == err.message.value
    ensures r.Some? && (err.message.None? || err.message.value == "") ==> r.value.body.message == InternalServerError
    ensures r.Some? ==> (r.value.body.Brief? <==> production)
    ensures r.Some? && r.value.body.Detailed? ==> r.value.body.stack == err.stack && r.value.body.path == path
  {
    var status := if Truthy(err.status) then err.status.value
                  else if Truthy(err.statusCode) then err.statusCode.value
                  else 500;
    var message := if err.message.Some? && err.message.value != "" then err.message.value else InternalServerError;
    if !ValidStatus(status) then None
    else Some(ErrorReply(status, if production then Brief(message) else Detailed(message, err.stack, path)))
  }

  /** In production two errors that agree on status and message get the same
      reply, whatever their stacks and whatever the request path. */
  lemma ProductionErrorHidesDetails(e1: HttpError, e2: HttpError, path1: string, path2: string)
    requires e1.status == e2.status && e1.statusCode == e2.statusCode && e1.message == e2.message
    ensures RespondToError(e1, path1, true) == RespondToError(e2, path2, true)
  {
  }
}

=== FILE: storage.dfy ===
/** `DatabaseStorage` of server/storage.ts as an in-memory store: each table
    is a sequence of rows, every operation is a pure function from the store
    before to the store after, and the constraints the database enforces
    (primary keys, `unique()`, `references()`, `decimal(12, 2)` range) are
    checked where the database would reject the statement. */
module Storage {
  import opened Wrappers
  import opened Seqs
  import opened Schema
  import opened TokenCrypto

  datatype Store = Store(
    users: seq<User>,
    accounts: seq<Account>,
    transactions: seq<Transaction>,
    sessions: seq<Session>)

  /** Why the database (or the query builder) rejects a statement. */
  datatype DbError =
    | UniqueViolation
    | ForeignKeyViolation
    | NumericOverflow
    | NoValuesToSet       // an update whose `set` names no column
    | NoValuesToInsert    // an insert given no rows

  /** A successful insert: the store after it and the row(s) `returning()` gives. */
  datatype Inserted<T> = Inserted(store: Store, row: T)

  /** A successful update: the store after it and the first row `returning()` gives. */
  datatype Updated<T> = Updated(store: Store, row: Option<T>)

  /** `limit = 50` in the transaction queries. */
  const DefaultLimit: nat := 50

  // ----- Generated identifiers -----

  function LongestLength(ids: seq<Id>): (n: nat)
    ensures forall i :: 0 <= i < |ids| ==> |ids[i]| <= n
  {
    if ids == [] then 0
    else
      var rest := LongestLength(ids[1..]);
      assert forall i :: 1 <= i < |ids| ==> ids[i] == ids[1..][i - 1];
      if |ids[0]| > rest then |ids[0]| else rest
  }

  /** `gen_random_uuid()`: an identifier not yet used in the table. It is
      longer than every identifier in `taken`, so it is none of them. */
  function FreshId(taken: seq<Id>): (id: Id)
    ensures id !in taken
    ensures id != ""
  {
    seq(LongestLength(taken) + 1, _ => 'u')
  }

  // ----- The database's constraints -----

  /** Primary keys, `users.email` and `sessions.token` are unique. */
  predicate KeysUnique(s: Store) {
    && Distinct(UserIds(s.users)) && Distinct(Emails(s.users))
    && Distinct(AccountIds(s.accounts)) && Distinct(TransactionIds(s.transactions))
    && Distinct(SessionIds(s.sessions)) && Distinct(Tokens(s.sessions))
  }

  /** Every `references()` column names an existing row. */
  predicate ReferencesResolve(s: Store) {
    && (forall i :: 0 <= i < |s.accounts| ==> s.accounts[i].userId in UserIds(s.users))
    && (forall i :: 0 <= i < |s.transactions| ==> s.transactions[i].accountId in AccountIds(s.accounts))
    && (forall i :: 0 <= i < |s.sessions| ==> s.sessions[i].userId in UserIds(s.users))
  }

  /** Every `decimal(12, 2)` column is in range. */
  predicate DecimalsFit(s: Store) {
    && (forall i :: 0 <= i < |s.accounts| ==> FitsDecimal(s.accounts[i].balance))
    && (forall i :: 0 <= i < |s.transactions| ==> FitsDecimal(s.transactions[i].amount))
  }

  predicate Valid(s: Store) {
    KeysUnique(s) && ReferencesResolve(s) && DecimalsFit(s)
  }

  const EmptyStore: Store := Store([], [], [], [])

  lemma EmptyStoreIsValid()
    ensures Valid(EmptyStore)
  {
  }

  // ----- Users -----

  /** `getUser`: the user with that id, if any. */
  function GetUser(s: Store, id: Id): (r: Option<User>)
    ensures r.Some? ==> r.value in s.users && r.value.id == id
    ensures r.None? <==> id !in UserIds(s.users)
  {
    Find(s.users, (u: User) => u.id == id)
  }

  /** `getUserByEmail`: the user with that e-mail address, if any. */
  function GetUserByEmail(s: Store, email: string): (r: Option<User>)
    ensures r.Some? ==> r.value in s.users && r.value.email == email
    ensures r.None? <==> email !in Emails(s.users)
  {
    Find(s.users, (u: User) => u.email == email)
  }

  /** `createUser`: appends a user with a fresh id and no stored provider
      credential; the unique e-mail constraint rejects a second user with the
      same address. */
  function CreateUser(s: Store, ins: InsertUser, now: Time): (r: Result<Inserted<User>, DbError>)
    ensures r.Failure? <==> ins.email in Emails(s.users)
    ensures r.Failure? ==> r.error == UniqueViolation
    ensures r.Success? ==>
      && r.value.store == s.(users := s.users + [r.value.row])
      && r.value.row.id !in UserIds(s.users)
      && r.value.row.email == ins.email && r.value.row.password == ins.password
      && r.value.row.tellerAccessToken.None? && r.value.row.createdAt == now
    ensures r.Success? && Valid(s) ==> Valid(r.value.store)
  {
    if ins.email in Emails(s.users) then Failure(UniqueViolation)
    else
      var u := User(FreshId(UserIds(s.users)), ins.email, ins.password, None, now);
      var s' := s.(users := s.users + [u]);
      assert UserIds(s'.users) == UserIds(s.users) + [u.id];
      assert Emails(s'.users) == Emails(s.users) + [u.email];
      Success(Inserted(s', u))
  }

  // ----- Sessions -----

  /** `createSession`: appends a session; a token already held by another
      session, or an unknown user, is rejected by the database. */
  function CreateSession(s: Store, ins: InsertSession, now: Time): (r: Result<Inserted<Session>, DbError>)
    ensures r.Success? <==> ins.token !in Tokens(s.sessions) && ins.userId in UserIds(s.users)
    ensures r.Success? ==>
      && r.value.store == s.(sessions := s.sessions + [r.value.row])
      && r.value.row.id !in SessionIds(s.sessions)
      && r.value.row.userId == ins.userId && r.value.row.token == ins.token
      && r.value.row.expiresAt == ins.expiresAt && r.value.row.createdAt == now
    ensures r.Success? && Valid(s) ==> Valid(r.value.store)
  {
    if ins.token in Tokens(s.sessions) then Failure(UniqueViolation)
    else if ins.userId !in UserIds(s.users) then Failure(ForeignKeyViolation)
    else
      var x := Session(FreshId(SessionIds(s.sessions)), ins.userId, ins.token, ins.expiresAt, now);
      var s' := s.(sessions := s.sessions + [x]);
      assert SessionIds(s'.sessions) == SessionIds(s.sessions) + [x.id];
      assert Tokens(s'.sessions) == Tokens(s.sessions) + [x.token];
      Success(Inserted(s', x))
  }

  /** `getSession`: the session holding that token, if any. */
  function GetSession(s: Store, token: string): (r: Option<Session>)
    ensures r.Some? ==> r.value in s.sessions && r.value.token == token
    ensures r.None? <==> token !in Tokens(s.sessions)
  {
    Find(s.sessions, (x: Session) => x.token == token)
  }

  /** The sessions not holding `token`, in table order. */
  function WithoutToken(sessions: seq<Session>, token: string): (kept: seq<Session>)
    ensures token !in Tokens(kept)
    ensures forall x :: x in sessions && x.token != token ==> x in kept
    ensures forall x :: x in kept ==> x in sessions
  {
    if sessions == [] then []
    else
      var rest := WithoutToken(sessions[1..], token);
      assert forall x :: x in sessions && x != sessions[0] ==> x in sessions[1..];
      if sessions[0].token == token then rest else [sessions[0]] + rest
  }

  /** A session id absent from `tail` is absent from any selection of it. */
  lemma IdNotInKept(x: Session, tail: seq<Session>, rest: seq<Session>)
    requires x.id !in SessionIds(tail)
    requires forall y :: y in rest ==> y in tail
    ensures x.id !in SessionIds(rest)
  {
    forall k | 0 <= k < |rest| ensures rest[k].id != x.id {
      assert rest[k] in rest;
      var j :| 0 <= j < |tail| && tail[j] == rest[k];
      assert SessionIds(tail)[j] == rest[k].id;
    }
  }

  /** A token absent from `tail` is absent from any selection of it. */
  lemma TokenNotInKept(x: Session, tail: seq<Session>, rest: seq<Session>)
    requires x.token !in Tokens(tail)
    requires forall y :: y in rest ==> y in tail
    ensures x.token !in Tokens(rest)
  {
    forall k | 0 <= k < |rest| ensures rest[k].token != x.token {
      assert rest[k] in rest;
      var j :| 0 <= j < |tail| && tail[j] == rest[k];
      assert Tokens(tail)[j] == rest[k].token;
    }
  }

  /** Removing sessions keeps session ids distinct. */
  lemma {:induction false} WithoutTokenKeepsIdsDistinct(sessions: seq<Session>, token: string)
    requires Distinct(SessionIds(sessions))
    ensures Distinct(SessionIds(WithoutToken(sessions, token)))
  {
    if sessions != [] {
      var ids := SessionIds(sessions);
      assert SessionIds(sessions[1..]) == ids[1..];
      DistinctTail(ids);
      WithoutTokenKeepsIdsDistinct(sessions[1..], token);
      if sessions[0].token != token {
        var rest := WithoutToken(sessions[1..], token);
        assert WithoutToken(sessions, token) == [sessions[0]] + rest;
        IdNotInKept(sessions[0], sessions[1..], rest);
        ConsSessionIds(sessions[0], rest);
        DistinctCons(sessions[0].id, SessionIds(rest));
      }
    }
  }

  /** Removing sessions keeps tokens distinct. */
  lemma {:induction false} WithoutTokenKeepsTokensDistinct(sessions: seq<Session>, token: string)
    requires Distinct(Tokens(sessions))
    ensures Distinct(Tokens(WithoutToken(sessions, token)))
  {
    if sessions != [] {
      var ts := Tokens(sessions);
      assert Tokens(sessions[1..]) == ts[1..];
      DistinctTail(ts);
      WithoutTokenKeepsTokensDistinct(sessions[1..], token);
      if sessions[0].token != token {
        var rest := WithoutToken(sessions[1..], token);
        assert WithoutToken(sessions, token) == [sessions[0]] + rest;
        TokenNotInKept(sessions[0], sessions[1..], rest);
        ConsTokens(sessions[0], rest);
        DistinctCons(sessions[0].token, Tokens(rest));
      }
    }
  }

  lemma ConsSessionIds(x: Session, rest: seq<Session>)
    ensures SessionIds([x] + rest) == [x.id] + SessionIds(rest)
  {
  }

  lemma ConsTokens(x: Session, rest: seq<Session>)
    ensures Tokens([x] + rest) == [x.token] + Tokens(rest)
  {
  }

  /** `deleteSession`: removes every session holding that token and nothing else. */
  function DeleteSession(s: Store, token: string): (r: Store)
    ensures GetSession(r, token).None?
    ensures forall x :: x in s.sessions && x.token != token ==> x in r.sessions
    ensures forall x :: x in r.sessions ==> x in s.sessions
    ensures r.users == s.users && r.accounts == s.accounts && r.transactions == s.transactions
    ensures Valid(s) ==> Valid(r)
  {
    var r := s.(sessions := WithoutToken(s.sessions, token));
    assert Valid(s) ==> Valid(r) by {
      if Valid(s) {
        WithoutTokenKeepsIdsDistinct(s.sessions, token);
        WithoutTokenKeepsTokensDistinct(s.sessions, token);
        assert forall i :: 0 <= i < |r.sessions| ==> r.sessions[i] in s.sessions;
      }
    }
    r
  }

  // ----- Accounts -----

  /** `getAccountsByUserId`: exactly the accounts owned by the user, in table order. */
  function GetAccountsByUserId(s: Store, userId: Id): (r: seq<Account>)
    ensures forall a :: a in r <==> a in s.accounts && a.userId == userId
    ensures forall a :: multiset(r)[a] == if a.userId == userId then multiset(s.accounts)[a] else 0
  {
    var owned := (a: Account) => a.userId == userId;
    var r := Filter(s.accounts, owned);
    assert forall a :: a in s.accounts && a.userId == userId ==> a in r by {
      forall a | a in s.accounts && a.userId == userId ensures a in r {
        var i :| 0 <= i < |s.accounts| && s.accounts[i] == a;
      }
    }
    forall a ensures multiset(r)[a] == if a.userId == userId then multiset(s.accounts)[a] else 0 {
      FilterMultiplicity(s.accounts, owned, a);
    }
    r
  }

  /** `createAccount`: appends one account with a fresh id, the column defaults
      for omitted fields, and `createdAt = now`. An out-of-range balance or an
      unknown owner is rejected. */
  function CreateAccount(s: Store, ins: InsertAccount, now: Time): (r: Result<Inserted<Account>, DbError>)
    ensures r.Success? <==> FitsDecimal(ins.balance) && ins.userId in UserIds(s.users)
    ensures r.Success? ==>
      var a := r.value.row;
      && r.value.store == s.(accounts := s.accounts + [a])
      && a.id !in AccountIds(s.accounts)
      && a.userId == ins.userId && a.externalId == ins.externalId
      && a.name == ins.name && a.kind == ins.kind && a.balance == ins.balance
      && a.currency == (if ins.currency.Some? then ins.currency.value else "USD")
      && a.isActive == (if ins.isActive.Some? then ins.isActive.value else true)
      && a.lastSyncAt == ins.lastSyncAt && a.createdAt == now
    ensures r.Success? && Valid(s) ==> Valid(r.value.store)
  {
    if !FitsDecimal(ins.balance) then Failure(NumericOverflow)
    else if ins.userId !in UserIds(s.users) then Failure(ForeignKeyViolation)
    else
      var a := AccountFromInsert(FreshId(AccountIds(s.accounts)), ins, now);
      var s' := s.(accounts := s.accounts + [a]);
      assert AccountIds(s'.accounts) == AccountIds(s.accounts) + [a.id];
      assert forall i :: 0 <= i < |s.transactions| && s.transactions[i].accountId in AccountIds(s.accounts) ==>
        s.transactions[i].accountId in AccountIds(s'.accounts);
      Success(Inserted(s', a))
  }

  /** The columns of `Partial<Account>` that an update here may name: `None`
      leaves a column alone. Patches of `id`, `userId`, `createdAt`, or of
      `lastSyncAt` to null, which the source type also admits, are not
      modelled; the sync names only `balance`, `isActive` and `lastSyncAt`. */
  datatype AccountPatch = AccountPatch(
    externalId: Option<string>,
    name: Option<string>,
    kind: Option<string>,
    balance: Option<Cents>,
    currency: Option<string>,
    isActive: Option<bool>,
    lastSyncAt: Option<Time>)
  {
    predicate IsEmpty() {
      externalId.None? && name.None? && kind.None? && balance.None? &&
      currency.None? && isActive.None? && lastSyncAt.None?
    }
  }

  /** The row after `SET` with the columns the patch names. */
  function Patch(a: Account, p: AccountPatch): Account {
    a.(externalId := p.externalId.GetOr(a.externalId),
       name := p.name.GetOr(a.name),
       kind := p.kind.GetOr(a.kind),
       balance := p.balance.GetOr(a.balance),
       currency := p.currency.GetOr(a.currency),
       isActive := p.isActive.GetOr(a.isActive),
       lastSyncAt := if p.lastSyncAt.Some? then p.lastSyncAt else a.lastSyncAt)
  }

  /** A patch changes exactly the columns it names: every column it leaves
      out keeps its value, as do the id, owner and creation instant, which
      an `AccountPatch` cannot name. */
  lemma PatchTouchesOnlyNamedColumns(a: Account, p: AccountPatch)
    ensures var b := Patch(a, p);
      && b.id == a.id && b.userId == a.userId && b.createdAt == a.createdAt
      && (p.externalId.None? ==> b.externalId == a.externalId)
      && (p.externalId.Some? ==> b.externalId == p.externalId.value)
      && (p.name.None? ==> b.name == a.name) && (p.name.Some? ==> b.name == p.name.value)
      && (p.kind.None? ==> b.kind == a.kind) && (p.kind.Some? ==> b.kind == p.kind.value)
      && (p.balance.None? ==> b.balance == a.balance) && (p.balance.Some? ==> b.balance == p.balance.value)
      && (p.currency.None? ==> b.currency == a.currency) && (p.currency.Some? ==> b.currency == p.currency.value)
      && (p.isActive.None? ==> b.isActive == a.isActive) && (p.isActive.Some? ==> b.isActive == p.isActive.value)
      && (p.lastSyncAt.None? ==> b.lastSyncAt == a.lastSyncAt) && (p.lastSyncAt.Some? ==> b.lastSyncAt == p.lastSyncAt)
  {
  }

  /** `updateAccount`: applies the patch to the row with that id and to no other
      row; returns no row when no account has that id. A patch naming no column
      is rejected by the query builder, and an out-of-range balance by the
      database when a row is matched. */
  function UpdateAccount(s: Store, id: Id, p: AccountPatch): (r: Result<Updated<Account>, DbError>)
    ensures p.IsEmpty() ==> r == Failure(NoValuesToSet)
    ensures r.Failure? <==> (p.IsEmpty() ||
      (id in AccountIds(s.accounts) && p.balance.Some? && !FitsDecimal(p.balance.value)))
    ensures r.Success? ==>
      var s' := r.value.store;
      && s'.users == s.users && s'.transactions == s.transactions && s'.sessions == s.sessions
      && |s'.accounts| == |s.accounts|
      && (forall i :: 0 <= i < |s.accounts| ==>
            s'.accounts[i] == if s.accounts[i].id == id then Patch(s.accounts[i], p) else s.accounts[i])
      && (r.value.row.None? <==> id !in AccountIds(s.accounts))
      && (r.value.row.Some? ==> r.value.row.value in s'.accounts && r.value.row.value.id == id)
    ensures r.Success? && Valid(s) ==> Valid(r.value.store)
  {
    if p.IsEmpty() then Failure(NoValuesToSet)
    else if id !in AccountIds(s.accounts) then Success(Updated(s, None))
    else if p.balance.Some? && !FitsDecimal(p.balance.value) then Failure(NumericOverflow)
    else
      var accounts := PatchWhere(s.accounts, id, p);
      var s' := s.(accounts := accounts);
      assert Valid(s) ==> Valid(s') by {
        if Valid(s) {
          assert forall i :: 0 <= i < |accounts| ==> accounts[i].userId == s.accounts[i].userId;
        }
      }
      var i :| 0 <= i < |s.accounts| && s.accounts[i].id == id;
      assert accounts[i].id == id;
      Success(Updated(s', Find(accounts, (a: Account) => a.id == id)))
  }

  /** `UPDATE accounts SET ... WHERE id = ...` over the table. */
  function PatchWhere(accounts: seq<Account>, id: Id, p: AccountPatch): (r: seq<Account>)
    ensures |r| == |accounts|
    ensures forall i :: 0 <= i < |accounts| ==>
      r[i] == if accounts[i].id == id then Patch(accounts[i], p) else accounts[i]
    ensures AccountIds(r) == AccountIds(accounts)
  {
    seq(|accounts|, i requires 0 <= i < |accounts| =>
      if accounts[i].id == id then Patch(accounts[i], p) else accounts[i])
  }

  // ----- Transactions -----

  /** `ORDER BY date DESC`: no row is older than a row after it. */
  ghost predicate NewestFirst(ts: seq<Transaction>) {
    forall i, j :: 0 <= i < j < |ts| ==> ts[i].date >= ts[j].date
  }

  lemma ConsNewestFirst(x: Transaction, rest: seq<Transaction>)
    requires NewestFirst(rest)
    requires forall j :: 0 <= j < |rest| ==> rest[j].date <= x.date
    ensures NewestFirst([x] + rest)
  {
    var r := [x] + rest;
    forall i, j | 0 <= i < j < |r| ensures r[i].date >= r[j].date {
      if i > 0 {
        assert r[i] == rest[i - 1] && r[j] == rest[j - 1];
      } else {
        assert r[j] == rest[j - 1];
      }
    }
  }

  /** Dropping the newest row keeps the order, and no later row is newer than it. */
  lemma NewestFirstTail(ts: seq<Transaction>)
    requires NewestFirst(ts) && ts != []
    ensures NewestFirst(ts[1..])
    ensures forall k :: 0 <= k < |ts[1..]| ==> ts[1..][k].date <= ts[0].date
  {
    var tail := ts[1..];
    forall i, j | 0 <= i < j < |tail| ensures tail[i].date >= tail[j].date {
      assert tail[i] == ts[i + 1] && tail[j] == ts[j + 1];
    }
    forall k | 0 <= k < |tail| ensures tail[k].date <= ts[0].date {
      assert tail[k] == ts[k + 1];
    }
  }

  /** Rows drawn from `t` and `tail` are no newer than a bound on both. */
  lemma NoNewerThan(rest: seq<Transaction>, t: Transaction, tail: seq<Transaction>, bound: Time)
    requires forall j :: 0 <= j < |rest| ==> rest[j] == t || rest[j] in tail
    requires t.date <= bound
    requires forall k :: 0 <= k < |tail| ==> tail[k].date <= bound
    ensures forall j :: 0 <= j < |rest| ==> rest[j].date <= bound
  {
  }

  /** Inserts `t` before the first row that is not newer than it. */
  function InsertByDate(t: Transaction, ts: seq<Transaction>): (r: seq<Transaction>)
    requires NewestFirst(ts)
    ensures NewestFirst(r)
    ensures multiset(r) == multiset(ts) + multiset{t}
    ensures forall j :: 0 <= j < |r| ==> r[j] == t || r[j] in ts
  {
    if ts == [] then [t]
    else if t.date >= ts[0].date then
      ConsNewestFirst(t, ts);
      [t] + ts
    else
      NewestFirstTail(ts);
      var rest := InsertByDate(t, ts[1..]);
      NoNewerThan(rest, t, ts[1..], ts[0].date);
      ConsNewestFirst(ts[0], rest);
      assert ts == [ts[0]] + ts[1..];
      [ts[0]] + rest
  }

  /** One of the orders `ORDER BY date DESC` may return; rows with equal
      dates may come in any order, and this one is as good as another. */
  function SortNewestFirst(ts: seq<Transaction>): (r: seq<Transaction>)
    ensures NewestFirst(r)
    ensures multiset(r) == multiset(ts)
    ensures |r| == |ts|
  {
    if ts == [] then []
    else
      assert ts == [ts[0]] + ts[1..];
      InsertByDate(ts[0], SortNewestFirst(ts[1..]))
  }

  /** The newest `limit` rows of `matching`, newest first: a row left out is
      left out only because `limit` rows at least as new were kept. */
  function Newest(matching: seq<Transaction>, limit: nat): (r: seq<Transaction>)
    ensures |r| == if limit < |matching| then limit else |matching|
    ensures NewestFirst(r)
    ensures forall t :: t in r ==> t in matching
    ensures forall t :: t in matching && t !in r ==> |r| == limit && forall u :: u in r ==> u.date >= t.date
    ensures multiset(r) <= multiset(matching)
  {
    var sorted := SortNewestFirst(matching);
    var r := Take(sorted, limit);
    NewestKeepsTop(matching, sorted, r);
    PrefixMultiset(sorted, |r|);
    r
  }

  lemma NewestKeepsTop(matching: seq<Transaction>, sorted: seq<Transaction>, r: seq<Transaction>)
    requires NewestFirst(sorted) && multiset(sorted) == multiset(matching)
    requires |r| <= |sorted| && r == sorted[..|r|]
    ensures NewestFirst(r)
    ensures forall t :: t in r ==> t in matching
    ensures forall t :: t in matching && t !in r ==> |r| < |sorted| && forall u :: u in r ==> u.date >= t.date
  {
    forall t | t in r ensures t in matching {
      assert t in multiset(sorted);
    }
    forall t | t in matching && t !in r
      ensures |r| < |sorted| && forall u :: u in r ==> u.date >= t.date
    {
      assert t in multiset(sorted);
      var j :| 0 <= j < |sorted| && sorted[j] == t;
      assert forall i :: 0 <= i < |r| ==> sorted[i] in r;
      assert j >= |r|;
      forall u | u in r ensures u.date >= t.date {
        var i :| 0 <= i < |r| && r[i] == u;
      }
    }
  }

  /** The rows of one account, in table order: the `WHERE account_id = …`
      before ordering and limiting. Each row of the account is kept as often
      as the table holds it, and no other row is. */
  function AccountRows(s: Store, accountId: Id): (rows: seq<Transaction>)
    ensures forall t :: t in rows <==> t in s.transactions && t.accountId == accountId
    ensures forall t :: multiset(rows)[t] == if t.accountId == accountId then multiset(s.transactions)[t] else 0
  {
    var p := (t: Transaction) => t.accountId == accountId;
    var rows := Filter(s.transactions, p);
    assert forall t :: multiset(rows)[t] == if t.accountId == accountId then multiset(s.transactions)[t] else 0 by {
      forall t ensures multiset(rows)[t] == if t.accountId == accountId then multiset(s.transactions)[t] else 0 {
        FilterMultiplicity(s.transactions, p, t);
      }
    }
    rows
  }

  /** `getTransactionsByAccountId`: the newest `limit` rows of that account. */
  function GetTransactionsByAccountId(s: Store, accountId: Id, limit: nat): (r: seq<Transaction>)
    ensures |r| == if limit < |AccountRows(s, accountId)| then limit else |AccountRows(s, accountId)|
    ensures multiset(r) <= multiset(AccountRows(s, accountId))
    ensures forall t :: t in r ==> t in s.transactions && t.accountId == accountId
    ensures NewestFirst(r)
    ensures forall t :: t in s.transactions && t.accountId == accountId && t !in r ==>
      |r| == limit && forall u :: u in r ==> u.date >= t.date
  {
    Newest(AccountRows(s, accountId), limit)
  }

  /** The account `accountId` exists and belongs to `userId`. */
  predicate OwnedBy(s: Store, accountId: Id, userId: Id) {
    exists i :: 0 <= i < |s.accounts| && s.accounts[i].id == accountId && s.accounts[i].userId == userId
  }

  /** The rows of every account the user owns, in table order: the inner join
      on `accounts` with `WHERE user_id = …`, before ordering and limiting. */
  function UserRows(s: Store, userId: Id): (rows: seq<Transaction>)
    ensures forall t :: t in rows <==> t in s.transactions && OwnedBy(s, t.accountId, userId)
    ensures forall t :: multiset(rows)[t] == if OwnedBy(s, t.accountId, userId) then multiset(s.transactions)[t] else 0
  {
    var p := (t: Transaction) => OwnedBy(s, t.accountId, userId);
    var rows := Filter(s.transactions, p);
    assert forall t :: multiset(rows)[t] == if OwnedBy(s, t.accountId, userId) then multiset(s.transactions)[t] else 0 by {
      forall t ensures multiset(rows)[t] == if OwnedBy(s, t.accountId, userId) then multiset(s.transactions)[t] else 0 {
        FilterMultiplicity(s.transactions, p, t);
      }
    }
    rows
  }

  /** `getTransactionsByUserId`: the newest `limit` rows over all of the
      user's accounts. */
  function GetTransactionsByUserId(s: Store, userId: Id, limit: nat): (r: seq<Transaction>)
    ensures |r| == if limit < |UserRows(s, userId)| then limit else |UserRows(s, userId)|
    ensures multiset(r) <= multiset(UserRows(s, userId))
    ensures forall t :: t in r ==> t in s.transactions && OwnedBy(s, t.accountId, userId)
    ensures NewestFirst(r)
    ensures forall t :: t in s.transactions && OwnedBy(s, t.accountId, userId) && t !in r ==>
      |r| == limit && forall u :: u in r ==> u.date >= t.date
  {
    Newest(UserRows(s, userId), limit)
  }

  /** With room for every row of the account, the query returns each of them
      exactly as often as the table holds it: only the order is its own. */
  lemma AccountQueryWithRoomIsAllRows(s: Store, accountId: Id, limit: nat)
    requires |AccountRows(s, accountId)| <= limit
    ensures multiset(GetTransactionsByAccountId(s, accountId, limit)) == multiset(AccountRows(s, accountId))
  {
    var r := GetTransactionsByAccountId(s, accountId, limit);
    SubMultisetOfSameSize(multiset(r), multiset(AccountRows(s, accountId)));
  }

  /** The same for the user query. */
  lemma UserQueryWithRoomIsAllRows(s: Store, userId: Id, limit: nat)
    requires |UserRows(s, userId)| <= limit
    ensures multiset(GetTransactionsByUserId(s, userId, limit)) == multiset(UserRows(s, userId))
  {
    var r := GetTransactionsByUserId(s, userId, limit);
    SubMultisetOfSameSize(multiset(r), multiset(UserRows(s, userId)));
  }

  /** The rows a bulk insert produces: each gets a fresh id, distinct from the
      table's ids and from the other new rows, and `createdAt = now`. */
  function Materialize(taken: seq<Id>, ins: seq<InsertTransaction>, now: Time): (rows: seq<Transaction>)
    decreases ins
    ensures |rows| == |ins|
    ensures forall i :: 0 <= i < |ins| ==> rows[i] == TransactionFromInsert(rows[i].id, ins[i], now)
    ensures forall i :: 0 <= i < |rows| ==> rows[i].id !in taken
    ensures Distinct(TransactionIds(rows))
  {
    if ins == [] then []
    else
      var id := FreshId(taken);
      var rest := Materialize(taken + [id], ins[1..], now);
      var row := TransactionFromInsert(id, ins[0], now);
      assert forall i :: 0 <= i < |rest| ==> rest[i].id !in taken && rest[i].id != id;
      ConsIdsDistinct(row, rest);
      [row] + rest
  }

  lemma ConsIdsDistinct(row: Transaction, rest: seq<Transaction>)
    requires Distinct(TransactionIds(rest))
    requires forall i :: 0 <= i < |rest| ==> rest[i].id != row.id
    ensures Distinct(TransactionIds([row] + rest))
  {
    assert TransactionIds([row] + rest) == [row.id] + TransactionIds(rest);
    DistinctCons(row.id, TransactionIds(rest));
  }

  predicate AmountsFit(ins: seq<InsertTransaction>) {
    forall i :: 0 <= i < |ins| ==> FitsDecimal(ins[i].amount)
  }

  predicate AccountsExist(s: Store, ins: seq<InsertTransaction>) {
    forall i :: 0 <= i < |ins| ==> ins[i].accountId in AccountIds(s.accounts)
  }

  lemma AppendTransactionsKeepsValid(s: Store, ins: seq<InsertTransaction>, rows: seq<Transaction>, now: Time)
    requires AmountsFit(ins) && AccountsExist(s, ins)
    requires |rows| == |ins|
    requires forall i :: 0 <= i < |ins| ==> rows[i] == TransactionFromInsert(rows[i].id, ins[i], now)
    requires forall i :: 0 <= i < |rows| ==> rows[i].id !in TransactionIds(s.transactions)
    requires Distinct(TransactionIds(rows))
    ensures Valid(s) ==> Valid(s.(transactions := s.transactions + rows))
  {
    if Valid(s) {
      var ts := s.transactions + rows;
      var ids := TransactionIds(ts);
      forall i, j | 0 <= i < j < |ids| ensures ids[i] != ids[j] {
        if i >= |s.transactions| {
          assert ids[i] == TransactionIds(rows)[i - |s.transactions|];
          assert ids[j] == TransactionIds(rows)[j - |s.transactions|];
        } else if j >= |s.transactions| {
          assert ids[j] == rows[j - |s.transactions|].id;
          assert ids[i] == TransactionIds(s.transactions)[i];
        } else {
          assert ids[i] == TransactionIds(s.transactions)[i];
          assert ids[j] == TransactionIds(s.transactions)[j];
        }
      }
      forall k | 0 <= k < |ts| ensures ts[k].accountId in AccountIds(s.accounts) && FitsDecimal(ts[k].amount) {
        if k >= |s.transactions| {
          assert ts[k] == rows[k - |s.transactions|];
        }
      }
    }
  }

  /** `createTransactions`: one multi-row insert, all or nothing. Every row is
      appended in the given order; an empty batch, an out-of-range amount or
      an unknown account rejects the whole statement. */
  function CreateTransactions(s: Store, ins: seq<InsertTransaction>, now: Time)
    : (r: Result<Inserted<seq<Transaction>>, DbError>)
    ensures ins == [] ==> r == Failure(NoValuesToInsert)
    ensures r.Success? <==> ins != [] && AmountsFit(ins) && AccountsExist(s, ins)
    ensures r.Success? ==>
      var rows := r.value.row;
      && r.value.store == s.(transactions := s.transactions + rows)
      && |rows| == |ins|
      && (forall i :: 0 <= i < |ins| ==> rows[i] == TransactionFromInsert(rows[i].id, ins[i], now))
      && (forall i :: 0 <= i < |rows| ==> rows[i].id !in TransactionIds(s.transactions))
    ensures r.Success? && Valid(s) ==> Valid(r.value.store)
  {
    if ins == [] then Failure(NoValuesToInsert)
    else if !AmountsFit(ins) then Failure(NumericOverflow)
    else if !AccountsExist(s, ins) then Failure(ForeignKeyViolation)
    else
      var rows := Materialize(TransactionIds(s.transactions), ins, now);
      var s' := s.(transactions := s.transactions + rows);
      AppendTransactionsKeepsValid(s, ins, rows, now);
      Success(Inserted(s', rows))
  }

  /** `createTransaction`: inserts a single row. */
  function CreateTransaction(s: Store, ins: InsertTransaction, now: Time): (r: Result<Inserted<Transaction>, DbError>)
    ensures r.Success? <==> FitsDecimal(ins.amount) && ins.accountId in AccountIds(s.accounts)
    ensures r.Success? ==>
      && r.value.store == s.(transactions := s.transactions + [r.value.row])
      && r.value.row == TransactionFromInsert(r.value.row.id, ins, now)
      && r.value.row.id !in TransactionIds(s.transactions)
    ensures r.Success? && Valid(s) ==> Valid(r.value.store)
  {
    if !FitsDecimal(ins.amount) then Failure(NumericOverflow)
    else if ins.accountId !in AccountIds(s.accounts) then Failure(ForeignKeyViolation)
    else
      var t := TransactionFromInsert(FreshId(TransactionIds(s.transactions)), ins, now);
      var s' := s.(transactions := s.transactions + [t]);
      assert TransactionIds(s'.transactions) == TransactionIds(s.transactions) + [t.id];
      Success(Inserted(s', t))
  }

  // ----- The provider access token -----

  /** Sets column `tellerAccessToken` of user `userId`, if there is one. */
  function WithTellerToken(users: seq<User>, userId: Id, value: Option<string>): (r: seq<User>)
    ensures |r| == |users|
    ensures forall i :: 0 <= i < |users| ==>
      r[i] == if users[i].id == userId then users[i].(tellerAccessToken := value) else users[i]
  {
    seq(|users|, i requires 0 <= i < |users| =>
      if users[i].id == userId then users[i].(tellerAccessToken := value) else users[i])
  }

  lemma WithTellerTokenKeepsKeys(s: Store, userId: Id, value: Option<string>)
    ensures var s' := s.(users := WithTellerToken(s.users, userId, value));
      UserIds(s'.users) == UserIds(s.users) && Emails(s'.users) == Emails(s.users)
      && (Valid(s) ==> Valid(s'))
  {
    var s' := s.(users := WithTellerToken(s.users, userId, value));
    assert UserIds(s'.users) == UserIds(s.users);
    assert Emails(s'.users) == Emails(s.users);
  }

  /** `setUserTellerToken`: stores the sealed token on the user's row; an
      unknown user changes nothing, and a weak secret in production throws. */
  function SetUserTellerToken(s: Store, env: Env, c: Cipher, iv: Bytes, userId: Id, accessToken: string)
    : (r: Result<Store, string>)
    requires |iv| == IvLength
    ensures r.Failure? <==> EncryptionSecret(env).Failure?
    ensures r.Success? ==>
      var sealed := Encrypt(env, c, iv, accessToken).value;
      r.value == s.(users := WithTellerToken(s.users, userId, Some(sealed)))
    ensures r.Success? && Valid(s) ==> Valid(r.value)
  {
    var sealed :- Encrypt(env, c, iv, accessToken);
    WithTellerTokenKeepsKeys(s, userId, Some(sealed));
    Success(s.(users := WithTellerToken(s.users, userId, Some(sealed))))
  }

  /** `getUserTellerToken`: the decrypted token; nothing when the user or the
      column is missing or empty, or when decryption fails. */
  function GetUserTellerToken(s: Store, env: Env, c: Cipher, userId: Id): (r: Option<string>)
    ensures GetUser(s, userId).None? ==> r.None?
    ensures GetUser(s, userId).Some? ==>
      var stored := GetUser(s, userId).value.tellerAccessToken;
      r == if stored.None? || stored.value == "" then None else Decrypt(env, c, stored.value)
  {
    match GetUser(s, userId)
    case None => None
    case Some(u) =>
      if u.tellerAccessToken.None? || u.tellerAccessToken.value == "" then None
      else Decrypt(env, c, u.tellerAccessToken.value)
  }

  /** `removeUserTellerToken`: clears the column. */
  function RemoveUserTellerToken(s: Store, userId: Id): (r: Store)
    ensures r == s.(users := WithTellerToken(s.users, userId, None))
    ensures Valid(s) ==> Valid(r)
  {
    WithTellerTokenKeepsKeys(s, userId, None);
    s.(users := WithTellerToken(s.users, userId, None))
  }

  /** Reading the token back after storing it gives the token, for a user
      that exists. */
  lemma GetAfterSetTellerToken(s: Store, env: Env, c: Cipher, iv: Bytes, userId: Id, accessToken: string)
    requires |iv| == IvLength && Correct(c)
    requires userId in UserIds(s.users)
    ensures var r := SetUserTellerToken(s, env, c, iv, userId, accessToken);
      r.Success? ==> GetUserTellerToken(r.value, env, c, userId) == Some(accessToken)
  {
    var r := SetUserTellerToken(s, env, c, iv, userId, accessToken);
    if r.Success? {
      var sealed := Encrypt(env, c, iv, accessToken).value;
      DecryptEncrypt(env, c, iv, accessToken);
      var users := r.value.users;
      var k :| 0 <= k < |s.users| && UserIds(s.users)[k] == userId;
      assert UserIds(users)[k] == userId;
      var u := GetUser(r.value, userId).value;
      var i :| 0 <= i < |users| && users[i] == u;
      assert u.tellerAccessToken == Some(sealed);
    }
  }

  /** After removal there is no token to read. */
  lemma GetAfterRemoveTellerToken(s: Store, env: Env, c: Cipher, userId: Id)
    ensures GetUserTellerToken(RemoveUserTellerToken(s, userId), env, c, userId).None?
  {
    var r := RemoveUserTellerToken(s, userId);
    match GetUser(r, userId)
    case None =>
    case Some(u) =>
      var k :| 0 <= k < |r.users| && r.users[k] == u && u.id == userId;
  }
}

=== FILE: teller.dfy ===
/** `TellerService` of server/teller.ts: reconciling the provider's accounts
    and transactions into the store. The provider is an oracle: the account
    list, or each account's transaction list, is either a list or a failure
    message. One pass uses one instant `now`. */
module Teller {
  import opened Wrappers
  import opened Seqs
  import opened Text
  import opened Categorizer
  import opened Schema
  import opened Storage

  /** The fields of a provider account the sync reads (`TellerAccount`);
      `ledger` is the ledger balance in cents. */
  datatype RemoteAccount = RemoteAccount(
    id: string,
    name: string,
    kind: string,
    ledger: Cents,
    currency: string,
    status: string)

  /** The fields of a provider transaction the sync reads (`TellerTransaction`);
      `amount` is in cents and `date` is already parsed. */
  datatype RemoteTransaction = RemoteTransaction(
    id: string,
    amount: Cents,
    date: Time,
    description: string,
    status: string,
    kind: string)

  /** The error a sync pass rethrows. */
  datatype SyncError = ProviderFailed(message: string) | DatabaseFailed(error: DbError)

  /** The store after a pass, and the error that stopped it, if any. Work done
      before the error stays in the store. */
  datatype SyncOutcome = SyncOutcome(store: Store, error: Option<SyncError>)

  // ----- syncUserAccounts -----

  /** The user already has an account with this provider id. */
  predicate Linked(s: Store, userId: Id, externalId: string) {
    exists i :: 0 <= i < |s.accounts| && s.accounts[i].userId == userId && s.accounts[i].externalId == externalId
  }

  /** The first of the user's accounts with this provider id
      (`existingAccounts.find(...)`). */
  function LinkedAccount(s: Store, userId: Id, externalId: string): (r: Option<Account>)
    ensures r.Some? ==> r.value in s.accounts && r.value.userId == userId && r.value.externalId == externalId
    ensures r.None? <==> !Linked(s, userId, externalId)
  {
    var mine := GetAccountsByUserId(s, userId);
    var r := Find(mine, (a: Account) => a.externalId == externalId);
    assert Linked(s, userId, externalId) ==> r.Some? by {
      if Linked(s, userId, externalId) {
        var i :| 0 <= i < |s.accounts| && s.accounts[i].userId == userId && s.accounts[i].externalId == externalId;
        assert s.accounts[i] in mine;
        var j :| 0 <= j < |mine| && mine[j] == s.accounts[i];
      }
    }
    assert r.Some? ==> Linked(s, userId, externalId) by {
      if r.Some? {
        assert r.value in s.accounts;
        var i :| 0 <= i < |s.accounts| && s.accounts[i] == r.value;
      }
    }
    r
  }

  /** The insert for an account seen for the first time (lines 137-146). */
  function NewAccountData(userId: Id, remote: RemoteAccount, now: Time): InsertAccount {
    InsertAccount(userId, remote.id, remote.name, Lower(remote.kind), remote.ledger,
                  Some(remote.currency), Some(remote.status == "open"), Some(now))
  }

  /** The update for an account seen before: balance, active flag and sync time. */
  function RefreshPatch(remote: RemoteAccount, now: Time): AccountPatch {
    AccountPatch(None, None, None, Some(remote.ledger), None, Some(remote.status == "open"), Some(now))
  }

  /** Lines 154-158: the linked row gets exactly the three refreshed
      columns and no row is added. */
  function RefreshAccount(s: Store, id: Id, remote: RemoteAccount, now: Time): (r: Result<Store, DbError>)
    requires id in AccountIds(s.accounts)
    ensures r.Failure? <==> !FitsDecimal(remote.ledger)
    ensures r.Success? ==>
      && r.value.users == s.users && r.value.transactions == s.transactions && r.value.sessions == s.sessions
      && |r.value.accounts| == |s.accounts|
      && forall i :: 0 <= i < |s.accounts| ==>
           r.value.accounts[i] ==
             if s.accounts[i].id == id
             then s.accounts[i].(balance := remote.ledger, isActive := remote.status == "open", lastSyncAt := Some(now))
             else s.accounts[i]
    ensures r.Success? && Valid(s) ==> Valid(r.value)
  {
    var u :- UpdateAccount(s, id, RefreshPatch(remote, now));
    Success(u.store)
  }

  /** Line 161: exactly one row is appended, carrying the remote account's
      fields, the lowercased type and `isActive = (status == "open")`. */
  function AddAccount(s: Store, userId: Id, remote: RemoteAccount, now: Time): (r: Result<Store, DbError>)
    ensures r.Failure? <==> !FitsDecimal(remote.ledger) || userId !in UserIds(s.users)
    ensures r.Success? ==>
      && r.value.users == s.users && r.value.transactions == s.transactions && r.value.sessions == s.sessions
      && |r.value.accounts| == |s.accounts| + 1
      && r.value.accounts[..|s.accounts|] == s.accounts
      && var a := r.value.accounts[|s.accounts|];
      && a.id !in AccountIds(s.accounts)
      && a.userId == userId && a.externalId == remote.id && a.name == remote.name
      && a.kind == Lower(remote.kind) && a.balance == remote.ledger && a.currency == remote.currency
      && a.isActive == (remote.status == "open") && a.lastSyncAt == Some(now) && a.createdAt == now
    ensures r.Success? && Valid(s) ==> Valid(r.value)
  {
    var c :- CreateAccount(s, NewAccountData(userId, remote, now), now);
    assert c.store.accounts[|s.accounts|] == c.row;
    assert c.store.accounts[..|s.accounts|] == s.accounts;
    Success(c.store)
  }

  /** One remote account (lines 137-162): refresh the linked row, or create one. */
  function SyncAccount(s: Store, userId: Id, remote: RemoteAccount, now: Time): (r: Result<Store, DbError>)
    ensures r.Failure? <==> !FitsDecimal(remote.ledger) || (!Linked(s, userId, remote.id) && userId !in UserIds(s.users))
    ensures Linked(s, userId, remote.id) ==>
      var existing := LinkedAccount(s, userId, remote.id).value;
      existing.id in AccountIds(s.accounts) && r == RefreshAccount(s, existing.id, remote, now)
    ensures !Linked(s, userId, remote.id) ==> r == AddAccount(s, userId, remote, now)
    ensures r.Success? && Valid(s) ==> Valid(r.value)
  {
    match LinkedAccount(s, userId, remote.id)
    case Some(existing) =>
      assert existing.id in AccountIds(s.accounts) by {
        var i :| 0 <= i < |s.accounts| && s.accounts[i] == existing;
        assert AccountIds(s.accounts)[i] == existing.id;
      }
      RefreshAccount(s, existing.id, remote, now)
    case None =>
      AddAccount(s, userId, remote, now)
  }

  /** After a step the remote account is linked. */
  lemma SyncAccountLinks(s: Store, userId: Id, remote: RemoteAccount, now: Time)
    ensures SyncAccount(s, userId, remote, now).Success? ==> Linked(SyncAccount(s, userId, remote, now).value, userId, remote.id)
  {
    var r := SyncAccount(s, userId, remote, now);
    if r.Success? {
      if Linked(s, userId, remote.id) {
        var existing := LinkedAccount(s, userId, remote.id).value;
        var i :| 0 <= i < |s.accounts| && s.accounts[i] == existing;
        assert r.value.accounts[i].userId == userId && r.value.accounts[i].externalId == remote.id;
      } else {
        assert r.value.accounts[|s.accounts|].externalId == remote.id;
      }
    }
  }

  /** Accounts linked before a step stay linked: no step removes a row or
      changes a row's owner or provider id. */
  lemma SyncAccountKeepsLinks(s: Store, userId: Id, remote: RemoteAccount, now: Time, externalId: string)
    requires SyncAccount(s, userId, remote, now).Success?
    ensures Linked(s, userId, externalId) ==> Linked(SyncAccount(s, userId, remote, now).value, userId, externalId)
  {
    var r := SyncAccount(s, userId, remote, now);
    if Linked(s, userId, externalId) {
      var i :| 0 <= i < |s.accounts| && s.accounts[i].userId == userId && s.accounts[i].externalId == externalId;
      if Linked(s, userId, remote.id) {
        var existing := LinkedAccount(s, userId, remote.id).value;
        RowSurvivesRefresh(s, existing.id, remote, now, i);
      } else {
        RowSurvivesAdd(s, userId, remote, now, i);
      }
    }
  }

  /** A refresh keeps every row's owner and provider id. */
  lemma RowSurvivesRefresh(s: Store, id: Id, remote: RemoteAccount, now: Time, i: nat)
    requires id in AccountIds(s.accounts) && RefreshAccount(s, id, remote, now).Success? && i < |s.accounts|
    ensures var a := RefreshAccount(s, id, remote, now).value.accounts;
      i < |a| && a[i].userId == s.accounts[i].userId && a[i].externalId == s.accounts[i].externalId
  {
  }

  /** An insert keeps every earlier row in place. */
  lemma RowSurvivesAdd(s: Store, userId: Id, remote: RemoteAccount, now: Time, i: nat)
    requires AddAccount(s, userId, remote, now).Success? && i < |s.accounts|
    ensures var a := AddAccount(s, userId, remote, now).value.accounts;
      i < |a| && a[i] == s.accounts[i]
  {
    var a := AddAccount(s, userId, remote, now).value.accounts;
    assert a[i] == a[..|s.accounts|][i];
  }

  /** The same account row: id, owner, provider id and creation time agree. */
  predicate SameAccountRow(a: Account, b: Account) {
    a.id == b.id && a.userId == b.userId && a.externalId == b.externalId && a.createdAt == b.createdAt
  }

  /** Every account row of `s` is still at its index in `s'`: none was
      removed or replaced, though its refreshed columns may differ. */
  predicate KeepsAccountRows(s: Store, s': Store) {
    |s'.accounts| >= |s.accounts| && forall i :: 0 <= i < |s.accounts| ==> SameAccountRow(s.accounts[i], s'.accounts[i])
  }

  lemma KeepsAccountRowsTransitive(s1: Store, s2: Store, s3: Store)
    requires KeepsAccountRows(s1, s2) && KeepsAccountRows(s2, s3)
    ensures KeepsAccountRows(s1, s3)
  {
    forall i | 0 <= i < |s1.accounts| ensures SameAccountRow(s1.accounts[i], s3.accounts[i]) {
      assert SameAccountRow(s2.accounts[i], s3.accounts[i]);
    }
  }

  /** A step, refresh or insert, keeps every existing account row. */
  lemma SyncAccountKeepsRows(s: Store, userId: Id, remote: RemoteAccount, now: Time)
    requires SyncAccount(s, userId, remote, now).Success?
    ensures KeepsAccountRows(s, SyncAccount(s, userId, remote, now).value)
  {
    if Linked(s, userId, remote.id) {
      RefreshKeepsRows(s, LinkedAccount(s, userId, remote.id).value.id, remote, now);
    } else {
      AddKeepsRows(s, userId, remote, now);
    }
  }

  lemma RefreshKeepsRows(s: Store, id: Id, remote: RemoteAccount, now: Time)
    requires id in AccountIds(s.accounts) && RefreshAccount(s, id, remote, now).Success?
    ensures KeepsAccountRows(s, RefreshAccount(s, id, remote, now).value)
  {
    var s' := RefreshAccount(s, id, remote, now).value;
    forall i | 0 <= i < |s.accounts| ensures SameAccountRow(s.accounts[i], s'.accounts[i]) {
      assert s'.accounts[i].id == s.accounts[i].id;
    }
  }

  lemma AddKeepsRows(s: Store, userId: Id, remote: RemoteAccount, now: Time)
    requires AddAccount(s, userId, remote, now).Success?
    ensures KeepsAccountRows(s, AddAccount(s, userId, remote, now).value)
  {
    var s' := AddAccount(s, userId, remote, now).value;
    forall i | 0 <= i < |s.accounts| ensures SameAccountRow(s.accounts[i], s'.accounts[i]) {
      RowSurvivesAdd(s, userId, remote, now, i);
    }
  }

  /** The loop of lines 136-163: each remote account in order, against the
      store as the previous ones left it; the first database error stops it. */
  function SyncAccountsFrom(s: Store, userId: Id, remote: seq<RemoteAccount>, now: Time): (o: SyncOutcome)
    ensures o.error.Some? ==> o.error.value.DatabaseFailed?
    ensures o.store.users == s.users && o.store.transactions == s.transactions && o.store.sessions == s.sessions
    ensures |o.store.accounts| >= |s.accounts|
    ensures KeepsAccountRows(s, o.store)
    ensures Valid(s) ==> Valid(o.store)
    decreases |remote|
  {
    if remote == [] then SyncOutcome(s, None)
    else
      match SyncAccount(s, userId, remote[0], now)
      case Failure(e) => SyncOutcome(s, Some(DatabaseFailed(e)))
      case Success(s') =>
        SyncAccountKeepsRows(s, userId, remote[0], now);
        var o := SyncAccountsFrom(s', userId, remote[1..], now);
        KeepsAccountRowsTransitive(s, s', o.store);
        o
  }

  /** `syncUserAccounts`: a failed provider call rethrows before anything is
      written. */
  function SyncUserAccounts(s: Store, userId: Id, fetched: Result<seq<RemoteAccount>, string>, now: Time)
    : (o: SyncOutcome)
    ensures fetched.Failure? ==> o == SyncOutcome(s, Some(ProviderFailed(fetched.error)))
    ensures o.store.users == s.users && o.store.transactions == s.transactions && o.store.sessions == s.sessions
    ensures KeepsAccountRows(s, o.store)
    ensures Valid(s) ==> Valid(o.store)
  {
    match fetched
    case Failure(message) => SyncOutcome(s, Some(ProviderFailed(message)))
    case Success(remote) => SyncAccountsFrom(s, userId, remote, now)
  }

  /** After a pass that completes, every remote account is linked. */
  lemma {:induction false} SyncAccountsFromLinksAll(s: Store, userId: Id, remote: seq<RemoteAccount>, now: Time)
    ensures var o := SyncAccountsFrom(s, userId, remote, now);
      o.error.None? ==> forall k :: 0 <= k < |remote| ==> Linked(o.store, userId, remote[k].id)
    decreases |remote|
  {
    var o := SyncAccountsFrom(s, userId, remote, now);
    if remote != [] && o.error.None? {
      var s' := SyncAccount(s, userId, remote[0], now).value;
      assert o == SyncAccountsFrom(s', userId, remote[1..], now);
      SyncAccountLinks(s, userId, remote[0], now);
      SyncAccountsFromLinksAll(s', userId, remote[1..], now);
      SyncAccountsFromKeepsLinks(s', userId, remote[1..], now, remote[0].id);
      LinkedHeadAndTail(o.store, userId, remote);
    }
  }

  lemma LinkedHeadAndTail(s: Store, userId: Id, remote: seq<RemoteAccount>)
    requires remote != [] && Linked(s, userId, remote[0].id)
    requires forall k :: 0 <= k < |remote[1..]| ==> Linked(s, userId, remote[1..][k].id)
    ensures forall k :: 0 <= k < |remote| ==> Linked(s, userId, remote[k].id)
  {
    forall k | 1 <= k < |remote| ensures Linked(s, userId, remote[k].id) {
      assert remote[k] == remote[1..][k - 1];
    }
  }

  /** A whole pass, like one step, unlinks nothing. */
  lemma {:induction false} SyncAccountsFromKeepsLinks(s: Store, userId: Id, remote: seq<RemoteAccount>, now: Time, externalId: string)
    ensures Linked(s, userId, externalId) ==> Linked(SyncAccountsFrom(s, userId, remote, now).store, userId, externalId)
    decreases |remote|
  {
    if remote != [] && SyncAccount(s, userId, remote[0], now).Success? {
      var s' := SyncAccount(s, userId, remote[0], now).value;
      SyncAccountKeepsLinks(s, userId, remote[0], now, externalId);
      SyncAccountsFromKeepsLinks(s', userId, remote[1..], now, externalId);
    }
  }

  /** When every remote account is already linked, a pass only updates: it
      adds no row, whether or not it completes. */
  lemma {:induction false} SyncLinkedCreatesNothing(s: Store, userId: Id, remote: seq<RemoteAccount>, now: Time)
    requires forall k :: 0 <= k < |remote| ==> Linked(s, userId, remote[k].id)
    ensures |SyncAccountsFrom(s, userId, remote, now).store.accounts| == |s.accounts|
    decreases |remote|
  {
    if remote != [] && SyncAccount(s, userId, remote[0], now).Success? {
      var s' := SyncAccount(s, userId, remote[0], now).value;
      forall k | 0 <= k < |remote[1..]| ensures Linked(s', userId, remote[1..][k].id) {
        SyncAccountKeepsLinks(s, userId, remote[0], now, remote[1..][k].id);
      }
      SyncLinkedCreatesNothing(s', userId, remote[1..], now);
    }
  }

  /** Syncing the same account list a second time creates no account. */
  lemma SyncUserAccountsTwiceCreatesNothing(s: Store, userId: Id, remote: seq<RemoteAccount>, now1: Time, now2: Time)
    ensures var first := SyncUserAccounts(s, userId, Success(remote), now1);
      first.error.None? ==>
        |SyncUserAccounts(first.store, userId, Success(remote), now2).store.accounts| == |first.store.accounts|
  {
    var first := SyncUserAccounts(s, userId, Success(remote), now1);
    if first.error.None? {
      SyncAccountsFromLinksAll(s, userId, remote, now1);
      SyncLinkedCreatesNothing(first.store, userId, remote, now2);
    }
  }

  /** No user has two accounts with the same provider id. */
  ghost predicate LinksUnique(s: Store, userId: Id) {
    forall i, j :: 0 <= i < j < |s.accounts| && s.accounts[i].userId == userId && s.accounts[j].userId == userId ==>
      s.accounts[i].externalId != s.accounts[j].externalId
  }

  lemma SyncAccountKeepsLinksUnique(s: Store, userId: Id, remote: RemoteAccount, now: Time)
    requires LinksUnique(s, userId)
    ensures var r := SyncAccount(s, userId, remote, now);
      r.Success? ==> LinksUnique(r.value, userId)
  {
    var r := SyncAccount(s, userId, remote, now);
    if r.Success? {
      var s' := r.value;
      if Linked(s, userId, remote.id) {
        var id := LinkedAccount(s, userId, remote.id).value.id;
        assert r == RefreshAccount(s, id, remote, now);
        forall i, j | 0 <= i < j < |s'.accounts| && s'.accounts[i].userId == userId && s'.accounts[j].userId == userId
          ensures s'.accounts[i].externalId != s'.accounts[j].externalId
        {
          RowSurvivesRefresh(s, id, remote, now, i);
          RowSurvivesRefresh(s, id, remote, now, j);
        }
      } else {
        assert r == AddAccount(s, userId, remote, now);
        forall i, j | 0 <= i < j < |s'.accounts| && s'.accounts[i].userId == userId && s'.accounts[j].userId == userId
          ensures s'.accounts[i].externalId != s'.accounts[j].externalId
        {
          RowSurvivesAdd(s, userId, remote, now, i);
          if j < |s.accounts| {
            RowSurvivesAdd(s, userId, remote, now, j);
          }
        }
      }
    }
  }

  /** Because each step looks the account up again, a provider id that
      repeats in the list updates the row the first occurrence created: a
      pass never gives a user two accounts with the same provider id. */
  lemma {:induction false} SyncAccountsFromKeepsLinksUnique(s: Store, userId: Id, remote: seq<RemoteAccount>, now: Time)
    requires LinksUnique(s, userId)
    ensures LinksUnique(SyncAccountsFrom(s, userId, remote, now).store, userId)
    decreases |remote|
  {
    if remote != [] && SyncAccount(s, userId, remote[0], now).Success? {
      SyncAccountKeepsLinksUnique(s, userId, remote[0], now);
      SyncAccountsFromKeepsLinksUnique(SyncAccount(s, userId, remote[0], now).value, userId, remote[1..], now);
    }
  }

  /** A list naming one unseen account twice creates exactly one row. */
  lemma RepeatedAccountCreatesOneRow(s: Store, userId: Id, remote: RemoteAccount, now: Time)
    requires !Linked(s, userId, remote.id)
    ensures var o := SyncAccountsFrom(s, userId, [remote, remote], now);
      o.error.None? ==> |o.store.accounts| == |s.accounts| + 1
  {
    var o := SyncAccountsFrom(s, userId, [remote, remote], now);
    var r1 := SyncAccount(s, userId, remote, now);
    if o.error.None? {
      assert r1.Success?;
      var s1 := r1.value;
      assert [remote, remote][1..] == [remote];
      assert o == SyncAccountsFrom(s1, userId, [remote], now);
      SyncAccountLinks(s, userId, remote, now);
      var r2 := SyncAccount(s1, userId, remote, now);
      assert r2.Success?;
      assert [remote][1..] == [];
      assert o == SyncAccountsFrom(r2.value, userId, [], now);
      assert |s1.accounts| == |s.accounts| + 1;
      assert |r2.value.accounts| == |s1.accounts|;
    }
  }

  // ----- syncAccountTransactions -----

  /** The insert for a provider transaction not seen before (lines 199-208):
      `debit` becomes an expense and every other type income, and the
      category comes from the description. */
  function TransactionData(accountId: Id, remote: RemoteTransaction): InsertTransaction {
    InsertTransaction(accountId, remote.id, remote.amount, remote.description,
                      Some(Categorize(remote.description)), remote.date,
                      if remote.kind == "debit" then "expense" else "income", Some(remote.status))
  }

  /** The provider ids of some stored rows (`existingExternalIds`). */
  function ExternalIds(ts: seq<Transaction>): (ids: set<string>)
    ensures forall i :: 0 <= i < |ts| ==> ts[i].externalId in ids
    ensures forall x :: x in ids ==> exists i :: 0 <= i < |ts| && ts[i].externalId == x
  {
    set i | 0 <= i < |ts| :: ts[i].externalId
  }

  /** The provider transactions whose id is not known, in the provider's
      order (the test on line 198). Transactions repeated within one response
      are not compared with each other. */
  function Unseen(known: set<string>, remote: seq<RemoteTransaction>): (kept: seq<RemoteTransaction>)
    ensures |kept| <= |remote|
    ensures forall i :: 0 <= i < |kept| ==> kept[i] in remote && kept[i].id !in known
    ensures forall k :: 0 <= k < |remote| && remote[k].id !in known ==> remote[k] in kept
    ensures kept == [] <==> forall k :: 0 <= k < |remote| ==> remote[k].id in known
    decreases |remote|
  {
    if remote == [] then []
    else
      var rest := Unseen(known, remote[1..]);
      assert forall k :: 1 <= k < |remote| ==> remote[k] == remote[1..][k - 1];
      if remote[0].id in known then rest else [remote[0]] + rest
  }

  /** `Unseen` is the filter it stands for: same elements, same order. */
  lemma {:induction false} UnseenIsFilter(known: set<string>, remote: seq<RemoteTransaction>)
    ensures Unseen(known, remote) == Filter(remote, (t: RemoteTransaction) => t.id !in known)
    decreases |remote|
  {
    if remote != [] {
      UnseenIsFilter(known, remote[1..]);
    }
  }

  /** Lines 195-211: one insert per unseen provider transaction, in order. */
  function NewTransactions(accountId: Id, known: set<string>, remote: seq<RemoteTransaction>)
    : (novel: seq<InsertTransaction>)
    ensures |novel| == |Unseen(known, remote)|
    ensures forall i :: 0 <= i < |novel| ==> novel[i] == TransactionData(accountId, Unseen(known, remote)[i])
  {
    var kept := Unseen(known, remote);
    seq(|kept|, i requires 0 <= i < |kept| => TransactionData(accountId, kept[i]))
  }

  /** What each insert holds: the account, a provider id not yet known, the
      category of its description, and `expense` exactly for a debit; every
      unseen provider transaction has its insert, and there are none exactly
      when every provider id is known. */
  lemma NewTransactionsMeaning(accountId: Id, known: set<string>, remote: seq<RemoteTransaction>)
    ensures var novel := NewTransactions(accountId, known, remote);
      && (forall i :: 0 <= i < |novel| ==>
            && novel[i].accountId == accountId && novel[i].externalId !in known
            && novel[i].category == Some(Categorize(novel[i].description))
            && exists k :: 0 <= k < |remote| && remote[k].id == novel[i].externalId
                 && novel[i].description == remote[k].description && novel[i].amount == remote[k].amount
                 && (novel[i].kind == "expense" <==> remote[k].kind == "debit"))
      && (forall k :: 0 <= k < |remote| && remote[k].id !in known ==> TransactionData(accountId, remote[k]) in novel)
      && (novel == [] <==> forall k :: 0 <= k < |remote| ==> remote[k].id in known)
  {
    var novel := NewTransactions(accountId, known, remote);
    forall i | 0 <= i < |novel|
      ensures exists k :: 0 <= k < |remote| && remote[k].id == novel[i].externalId
                 && novel[i].description == remote[k].description && novel[i].amount == remote[k].amount
                 && (novel[i].kind == "expense" <==> remote[k].kind == "debit")
    {
      InsertHasSource(accountId, known, remote, i);
    }
    forall k | 0 <= k < |remote| && remote[k].id !in known
      ensures TransactionData(accountId, remote[k]) in novel
    {
      UnseenHasInsert(accountId, known, remote, k);
    }
  }

  /** The `i`-th insert comes from a provider transaction with its id,
      description and amount. */
  lemma InsertHasSource(accountId: Id, known: set<string>, remote: seq<RemoteTransaction>, i: nat)
    requires i < |NewTransactions(accountId, known, remote)|
    ensures var t := NewTransactions(accountId, known, remote)[i];
      exists k :: 0 <= k < |remote| && remote[k].id == t.externalId
        && t.description == remote[k].description && t.amount == remote[k].amount
        && (t.kind == "expense" <==> remote[k].kind == "debit")
  {
    var kept := Unseen(known, remote);
    assert kept[i] in remote;
    var k :| 0 <= k < |remote| && remote[k] == kept[i];
  }

  /** An unseen provider transaction has its insert. */
  lemma UnseenHasInsert(accountId: Id, known: set<string>, remote: seq<RemoteTransaction>, k: nat)
    requires k < |remote| && remote[k].id !in known
    ensures TransactionData(accountId, remote[k]) in NewTransactions(accountId, known, remote)
  {
    var kept := Unseen(known, remote);
    var i :| 0 <= i < |kept| && kept[i] == remote[k];
    assert NewTransactions(accountId, known, remote)[i] == TransactionData(accountId, remote[k]);
  }

  /** A provider response repeating an unseen transaction yields two inserts. */
  lemma RepeatedTransactionIsInsertedTwice(accountId: Id, known: set<string>, remote: RemoteTransaction)
    requires remote.id !in known
    ensures NewTransactions(accountId, known, [remote, remote]) ==
      [TransactionData(accountId, remote), TransactionData(accountId, remote)]
  {
    assert [remote, remote][1..] == [remote];
    assert [remote][1..] == [];
    assert Unseen(known, [remote, remote]) == [remote, remote];
  }

  /** The provider ids the dedup compares against: those of the `window`
      newest rows of the account, or of all its rows when `window` is `None`. */
  function Known(s: Store, accountId: Id, window: Option<nat>): (ids: set<string>)
    ensures forall x :: x in ids ==>
      exists i :: 0 <= i < |s.transactions| && s.transactions[i].accountId == accountId && s.transactions[i].externalId == x
    ensures window.None? ==> forall i :: 0 <= i < |s.transactions| && s.transactions[i].accountId == accountId ==>
      s.transactions[i].externalId in ids
  {
    match window
    case Some(limit) =>
      ReturnedIdsStored(s, accountId, limit);
      ExternalIds(GetTransactionsByAccountId(s, accountId, limit))
    case None =>
      set i | 0 <= i < |s.transactions| && s.transactions[i].accountId == accountId :: s.transactions[i].externalId
  }

  /** The provider ids of the rows a window returns are ids of stored rows of the account. */
  lemma ReturnedIdsStored(s: Store, accountId: Id, limit: nat)
    ensures forall x :: x in ExternalIds(GetTransactionsByAccountId(s, accountId, limit)) ==>
      exists i :: 0 <= i < |s.transactions| && s.transactions[i].accountId == accountId && s.transactions[i].externalId == x
  {
    SelectedIdsStored(s, accountId, GetTransactionsByAccountId(s, accountId, limit));
  }

  /** The provider ids of any selection of the account's stored rows are ids
      of stored rows of the account. */
  lemma SelectedIdsStored(s: Store, accountId: Id, ts: seq<Transaction>)
    requires forall t :: t in ts ==> t in s.transactions && t.accountId == accountId
    ensures forall x :: x in ExternalIds(ts) ==>
      exists i :: 0 <= i < |s.transactions| && s.transactions[i].accountId == accountId && s.transactions[i].externalId == x
  {
    forall x | x in ExternalIds(ts)
      ensures exists i :: 0 <= i < |s.transactions| && s.transactions[i].accountId == accountId && s.transactions[i].externalId == x
    {
      var j :| 0 <= j < |ts| && ts[j].externalId == x;
      assert ts[j] in s.transactions;
      var i :| 0 <= i < |s.transactions| && s.transactions[i] == ts[j];
    }
  }

  /** One account (lines 183-217): fetch, drop known ids, and insert the rest
      in one statement; no statement at all when nothing is new. */
  function SyncAccountStep(s: Store, account: Account, fetched: Result<seq<RemoteTransaction>, string>,
                           window: Option<nat>, now: Time): (o: SyncOutcome)
    ensures fetched.Failure? ==> o == SyncOutcome(s, Some(ProviderFailed(fetched.error)))
    ensures o.error.Some? ==> o.store == s
    ensures o.error.None? ==>
      && fetched.Success? && |o.store.transactions| >= |s.transactions|
      && var novel := NewTransactions(account.id, Known(s, account.id, window), fetched.value);
      && var added := o.store.transactions[|s.transactions|..];
      && o.store == s.(transactions := s.transactions + added)
      && |added| == |novel|
      && (forall i :: 0 <= i < |novel| ==> added[i] == TransactionFromInsert(added[i].id, novel[i], now))
      && (forall i :: 0 <= i < |added| ==> added[i].id !in TransactionIds(s.transactions))
    ensures fetched.Success? && NewTransactions(account.id, Known(s, account.id, window), fetched.value) == [] ==>
      o == SyncOutcome(s, None)
    ensures Valid(s) ==> Valid(o.store)
  {
    match fetched
    case Failure(message) => SyncOutcome(s, Some(ProviderFailed(message)))
    case Success(remote) =>
      var novel := NewTransactions(account.id, Known(s, account.id, window), remote);
      if novel == [] then
        assert s.transactions[|s.transactions|..] == [];
        SyncOutcome(s, None)
      else
        match CreateTransactions(s, novel, now)
        case Failure(e) => SyncOutcome(s, Some(DatabaseFailed(e)))
        case Success(inserted) =>
          var rows := inserted.row;
          assert inserted.store.transactions[|s.transactions|..] == rows;
          SyncOutcome(inserted.store, None)
  }

  /** The loop of lines 182-218 over the chosen accounts; the first failure
      stops it and earlier inserts stay. */
  function SyncTransactionsFrom(s: Store, accounts: seq<Account>, fetch: string -> Result<seq<RemoteTransaction>, string>,
                                window: Option<nat>, now: Time): (o: SyncOutcome)
    ensures o.store.users == s.users && o.store.accounts == s.accounts && o.store.sessions == s.sessions
    ensures |o.store.transactions| >= |s.transactions| && o.store.transactions[..|s.transactions|] == s.transactions
    ensures Valid(s) ==> Valid(o.store)
    decreases |accounts|
  {
    if accounts == [] then SyncOutcome(s, None)
    else
      var step := SyncAccountStep(s, accounts[0], fetch(accounts[0].externalId), window, now);
      if step.error.Some? then step
      else
        var o := SyncTransactionsFrom(step.store, accounts[1..], fetch, window, now);
        assert o.store.transactions[..|s.transactions|] == s.transactions by {
          assert o.store.transactions[..|s.transactions|] == o.store.transactions[..|step.store.transactions|][..|s.transactions|];
        }
        o
  }

  /** JavaScript truthiness of the optional `accountId` argument. */
  predicate Names(accountId: Option<string>) {
    accountId.Some? && accountId.value != ""
  }

  /** The test of line 179. */
  function HasId(id: Id): (p: Account -> bool)
    ensures forall a :: p(a) <==> a.id == id
  {
    (a: Account) => a.id == id
  }

  /** Lines 177-180: the user's accounts, or only those whose id is `accountId`. */
  function AccountsToSync(s: Store, userId: Id, accountId: Option<string>): (r: seq<Account>)
    ensures forall a :: a in r <==>
      a in s.accounts && a.userId == userId && (Names(accountId) ==> a.id == accountId.value)
    ensures forall a :: multiset(r)[a] ==
                        if a.userId == userId && (Names(accountId) ==> a.id == accountId.value)
                        then multiset(s.accounts)[a] else 0
  {
    var mine := GetAccountsByUserId(s, userId);
    if Names(accountId) then
      var r := Filter(mine, HasId(accountId.value));
      forall a ensures multiset(r)[a] ==
                         if a.userId == userId && a.id == accountId.value then multiset(s.accounts)[a] else 0
      {
        FilterMultiplicity(mine, HasId(accountId.value), a);
      }
      assert forall a :: a in mine && a.id == accountId.value ==> a in r by {
        forall a | a in mine && a.id == accountId.value ensures a in r {
          var i :| 0 <= i < |mine| && mine[i] == a;
        }
      }
      assert forall a :: a in r ==> a in mine && a.id == accountId.value by {
        forall a | a in r ensures a in mine && a.id == accountId.value {
          var i :| 0 <= i < |r| && r[i] == a;
        }
      }
      r
    else mine
  }

  /** With account ids unique, a pass visits no account twice. */
  lemma AccountsToSyncVisitsEachOnce(s: Store, userId: Id, accountId: Option<string>)
    requires Valid(s)
    ensures forall a :: multiset(AccountsToSync(s, userId, accountId))[a] <= 1
  {
    forall a ensures multiset(s.accounts)[a] <= 1 {
      DistinctKeyOccursOnce(s.accounts, (x: Account) => x.id, a);
    }
  }

  /** `syncAccountTransactions` as written: dedup against the 50 newest rows
      (`getTransactionsByAccountId` with its default limit). */
  function SyncAccountTransactions(s: Store, userId: Id, accountId: Option<string>,
                                   fetch: string -> Result<seq<RemoteTransaction>, string>, now: Time): (o: SyncOutcome)
    ensures o.store.users == s.users && o.store.accounts == s.accounts && o.store.sessions == s.sessions
    ensures |o.store.transactions| >= |s.transactions| && o.store.transactions[..|s.transactions|] == s.transactions
    ensures Valid(s) ==> Valid(o.store)
  {
    SyncTransactionsFrom(s, AccountsToSync(s, userId, accountId), fetch, Some(DefaultLimit), now)
  }

  /** The same pass with the dedup its comment intends: against every stored
      row of the account. */
  function SyncAccountTransactionsDedupAll(s: Store, userId: Id, accountId: Option<string>,
                                           fetch: string -> Result<seq<RemoteTransaction>, string>, now: Time): (o: SyncOutcome)
    ensures o.store.users == s.users && o.store.accounts == s.accounts && o.store.sessions == s.sessions
    ensures |o.store.transactions| >= |s.transactions| && o.store.transactions[..|s.transactions|] == s.transactions
    ensures Valid(s) ==> Valid(o.store)
  {
    SyncTransactionsFrom(s, AccountsToSync(s, userId, accountId), fetch, None, now)
  }

  // ----- Properties of a transaction pass -----

  /** A truthy `accountId` that is not one of the user's accounts leaves
      nothing to sync: the pass ends at once, without an error. */
  lemma UnknownAccountSyncsNothing(s: Store, userId: Id, accountId: Option<string>,
                                   fetch: string -> Result<seq<RemoteTransaction>, string>, window: Option<nat>, now: Time)
    requires Names(accountId) && !OwnedBy(s, accountId.value, userId)
    ensures AccountsToSync(s, userId, accountId) == []
    ensures SyncTransactionsFrom(s, AccountsToSync(s, userId, accountId), fetch, window, now) == SyncOutcome(s, None)
  {
    var mine := GetAccountsByUserId(s, userId);
    forall i | 0 <= i < |mine| ensures !HasId(accountId.value)(mine[i]) {
      var j :| 0 <= j < |s.accounts| && s.accounts[j] == mine[i];
    }
    FilterNone(mine, HasId(accountId.value));
  }

  /** A pass over `a + b` is the pass over `a` followed, unless it failed,
      by the pass over `b` from where it left the store. */
  lemma {:induction false} SyncTransactionsFromAppend(s: Store, a: seq<Account>, b: seq<Account>,
                                                      fetch: string -> Result<seq<RemoteTransaction>, string>,
                                                      window: Option<nat>, now: Time)
    ensures SyncTransactionsFrom(s, a + b, fetch, window, now) ==
      var o := SyncTransactionsFrom(s, a, fetch, window, now);
      if o.error.Some? then o else SyncTransactionsFrom(o.store, b, fetch, window, now)
    decreases |a|
  {
    if a == [] {
      assert a + b == b;
    } else {
      assert (a + b)[0] == a[0];
      assert (a + b)[1..] == a[1..] + b;
      var step := SyncAccountStep(s, a[0], fetch(a[0].externalId), window, now);
      if step.error.None? {
        SyncTransactionsFromAppend(step.store, a[1..], b, fetch, window, now);
      }
    }
  }

  /** A provider failure on one account ends the pass with that failure,
      skips the accounts after it and keeps what the earlier ones inserted. */
  lemma ProviderFailureKeepsEarlierInserts(s: Store, a: seq<Account>, bad: Account, rest: seq<Account>,
                                           fetch: string -> Result<seq<RemoteTransaction>, string>,
                                           window: Option<nat>, now: Time)
    requires SyncTransactionsFrom(s, a, fetch, window, now).error.None?
    requires fetch(bad.externalId).Failure?
    ensures SyncTransactionsFrom(s, a + [bad] + rest, fetch, window, now) ==
      SyncOutcome(SyncTransactionsFrom(s, a, fetch, window, now).store, Some(ProviderFailed(fetch(bad.externalId).error)))
  {
    assert a + [bad] + rest == a + ([bad] + rest);
    SyncTransactionsFromAppend(s, a, [bad] + rest, fetch, window, now);
    FailingAccountStops(SyncTransactionsFrom(s, a, fetch, window, now).store, bad, rest, fetch, window, now);
  }

  /** A pass whose first account's provider call fails writes nothing. */
  lemma FailingAccountStops(s: Store, bad: Account, rest: seq<Account>,
                            fetch: string -> Result<seq<RemoteTransaction>, string>, window: Option<nat>, now: Time)
    requires fetch(bad.externalId).Failure?
    ensures SyncTransactionsFrom(s, [bad] + rest, fetch, window, now) ==
      SyncOutcome(s, Some(ProviderFailed(fetch(bad.externalId).error)))
  {
    assert ([bad] + rest)[0] == bad;
    var step := SyncAccountStep(s, bad, fetch(bad.externalId), window, now);
    assert step == SyncOutcome(s, Some(ProviderFailed(fetch(bad.externalId).error)));
  }

  /** The provider answers for `account` and every id it returns is stored
      under the account. */
  predicate Covered(s: Store, account: Account, fetch: string -> Result<seq<RemoteTransaction>, string>) {
    var fetched := fetch(account.externalId);
    fetched.Success? && forall k :: 0 <= k < |fetched.value| ==> fetched.value[k].id in Known(s, account.id, None)
  }

  /** Appending rows only adds provider ids to an account's full set. */
  lemma KnownGrows(s: Store, s': Store, accountId: Id)
    requires |s'.transactions| >= |s.transactions| && s'.transactions[..|s.transactions|] == s.transactions
    ensures Known(s, accountId, None) <= Known(s', accountId, None)
  {
    forall x | x in Known(s, accountId, None) ensures x in Known(s', accountId, None) {
      var i :| 0 <= i < |s.transactions| && s.transactions[i].accountId == accountId && s.transactions[i].externalId == x;
      assert s'.transactions[i] == s.transactions[..|s.transactions|][i];
    }
  }

  /** After a successful step with the full dedup, the account is covered. */
  lemma StepCovers(s: Store, account: Account, fetch: string -> Result<seq<RemoteTransaction>, string>, now: Time)
    requires SyncAccountStep(s, account, fetch(account.externalId), None, now).error.None?
    ensures Covered(SyncAccountStep(s, account, fetch(account.externalId), None, now).store, account, fetch)
  {
    var o := SyncAccountStep(s, account, fetch(account.externalId), None, now);
    var remote := fetch(account.externalId).value;
    var known := Known(s, account.id, None);
    KnownGrows(s, o.store, account.id);
    forall k | 0 <= k < |remote| ensures remote[k].id in Known(o.store, account.id, None) {
      if remote[k].id !in known {
        UnseenIsStored(s, o.store, account.id, known, remote, now, k);
      }
    }
  }

  /** Once a step has appended the inserts for `remote`, every provider id
      that was not known is stored under the account. */
  lemma UnseenIsStored(s: Store, s': Store, accountId: Id, known: set<string>, remote: seq<RemoteTransaction>,
                       now: Time, k: nat)
    requires |s'.transactions| >= |s.transactions|
    requires var novel := NewTransactions(accountId, known, remote);
      var added := s'.transactions[|s.transactions|..];
      |added| == |novel| && forall i :: 0 <= i < |novel| ==> added[i] == TransactionFromInsert(added[i].id, novel[i], now)
    requires k < |remote| && remote[k].id !in known
    ensures remote[k].id in Known(s', accountId, None)
  {
    var kept := Unseen(known, remote);
    var novel := NewTransactions(accountId, known, remote);
    var i :| 0 <= i < |kept| && kept[i] == remote[k];
    var added := s'.transactions[|s.transactions|..];
    assert added[i] == TransactionFromInsert(added[i].id, novel[i], now);
    assert s'.transactions[|s.transactions| + i] == added[i];
  }

  /** After a successful pass with the full dedup, every account it visited
      is covered. */
  lemma {:induction false} SyncTransactionsFromCovers(s: Store, accounts: seq<Account>,
                                                      fetch: string -> Result<seq<RemoteTransaction>, string>, now: Time)
    requires SyncTransactionsFrom(s, accounts, fetch, None, now).error.None?
    ensures forall j :: 0 <= j < |accounts| ==> Covered(SyncTransactionsFrom(s, accounts, fetch, None, now).store, accounts[j], fetch)
    decreases |accounts|
  {
    if accounts != [] {
      var step := SyncAccountStep(s, accounts[0], fetch(accounts[0].externalId), None, now);
      var o := SyncTransactionsFrom(step.store, accounts[1..], fetch, None, now);
      StepCovers(s, accounts[0], fetch, now);
      SyncTransactionsFromCovers(step.store, accounts[1..], fetch, now);
      KnownGrows(step.store, o.store, accounts[0].id);
      forall j | 0 <= j < |accounts| ensures Covered(o.store, accounts[j], fetch) {
        if j > 0 {
          assert accounts[j] == accounts[1..][j - 1];
        }
      }
    }
  }

  /** A pass with the full dedup over covered accounts inserts nothing. */
  lemma {:induction false} CoveredSyncIsNoOp(s: Store, accounts: seq<Account>,
                                             fetch: string -> Result<seq<RemoteTransaction>, string>, now: Time)
    requires forall j :: 0 <= j < |accounts| ==> Covered(s, accounts[j], fetch)
    ensures SyncTransactionsFrom(s, accounts, fetch, None, now) == SyncOutcome(s, None)
    decreases |accounts|
  {
    if accounts != [] {
      var remote := fetch(accounts[0].externalId).value;
      assert Covered(s, accounts[0], fetch);
      NewTransactionsMeaning(accounts[0].id, Known(s, accounts[0].id, None), remote);
      assert forall j :: 0 <= j < |accounts[1..]| ==> accounts[1..][j] == accounts[j + 1];
      CoveredSyncIsNoOp(s, accounts[1..], fetch, now);
    }
  }

  /** With the full dedup, syncing again against an unchanged provider adds
      nothing: the pass is idempotent. */
  lemma DedupAllResyncIsNoOp(s: Store, userId: Id, accountId: Option<string>,
                             fetch: string -> Result<seq<RemoteTransaction>, string>, now1: Time, now2: Time)
    requires SyncAccountTransactionsDedupAll(s, userId, accountId, fetch, now1).error.None?
    ensures var o := SyncAccountTransactionsDedupAll(s, userId, accountId, fetch, now1);
      SyncAccountTransactionsDedupAll(o.store, userId, accountId, fetch, now2) == SyncOutcome(o.store, None)
  {
    var o := SyncAccountTransactionsDedupAll(s, userId, accountId, fetch, now1);
    var accounts := AccountsToSync(s, userId, accountId);
    SyncTransactionsFromCovers(s, accounts, fetch, now1);
    assert AccountsToSync(o.store, userId, accountId) == accounts;
    CoveredSyncIsNoOp(o.store, accounts, fetch, now2);
  }
}

=== FILE: text.dfy ===
/** String helpers with the meaning JavaScript gives them, restricted to what
    the server and client code use: ASCII `toLowerCase`, `includes`,
    `startsWith`, `split(' ')` and decimal rendering of non-negative numbers. */
module Text {

  /** `String.prototype.toLowerCase` on one character, ASCII letters only. */
  function LowerChar(c: char): (r: char)
    ensures 'A' <= c <= 'Z' ==> 'a' <= r <= 'z' && r as int == c as int + 32
    ensures !('A' <= c <= 'Z') ==> r == c
  {
    if 'A' <= c <= 'Z' then (c as int + 32) as char else c
  }

  /** `String.prototype.toLowerCase` on ASCII. */
  function Lower(s: string): (r: string)
    ensures |r| == |s|
    ensures forall i :: 0 <= i < |s| ==> r[i] == LowerChar(s[i])
  {
    seq(|s|, i requires 0 <= i < |s| => LowerChar(s[i]))
  }

  predicate HasNoUpper(s: string) {
    forall i :: 0 <= i < |s| ==> !('A' <= s[i] <= 'Z')
  }

  /** Lower-casing leaves no upper-case letter behind and is idempotent. */
  lemma LowerIsIdempotent(s: string)
    ensures HasNoUpper(Lower(s))
    ensures Lower(Lower(s)) == Lower(s)
  {
  }

  /** `s.startsWith(p)`. */
  predicate StartsWith(s: string, p: string) {
    |p| <= |s| && s[..|p|] == p
  }

  /** `s.includes(k)`, computed by scanning start positions left to right. */
  predicate Contains(s: string, k: string)
    decreases |s|
  {
    StartsWith(s, k) || (s != [] && Contains(s[1..], k))
  }

  /** `k` occurs in `s` starting at index `i`. */
  predicate OccursAt(s: string, k: string, i: int) {
    0 <= i && i + |k| <= |s| && s[i..i + |k|] == k
  }

  /** The declarative reading of `includes`: `k` occurs at some index of `s`. */
  ghost predicate OccursIn(s: string, k: string) {
    exists i :: OccursAt(s, k, i)
  }

  lemma {:induction false} ContainsIffOccurs(s: string, k: string)
    ensures Contains(s, k) <==> OccursIn(s, k)
    decreases |s|
  {
    if StartsWith(s, k) {
      assert OccursAt(s, k, 0);
    } else if s == [] {
    } else {
      ContainsIffOccurs(s[1..], k);
      if OccursIn(s[1..], k) {
        var i :| OccursAt(s[1..], k, i);
        assert s[1..][i..i + |k|] == s[i + 1..i + 1 + |k|];
        assert OccursAt(s, k, i + 1);
      }
      if OccursIn(s, k) {
        var i :| OccursAt(s, k, i);
        if i > 0 {
          assert s[1..][i - 1..i - 1 + |k|] == s[i..i + |k|];
          assert OccursAt(s[1..], k, i - 1);
        }
      }
    }
  }

  /** An occurrence found at a known index witnesses `includes`. */
  lemma ContainsAtIndex(s: string, k: string, i: int)
    requires OccursAt(s, k, i)
    ensures Contains(s, k)
  {
    ContainsIffOccurs(s, k);
  }

  /** Every character of an occurring keyword is a character of `s`; so a
      keyword holding a character absent from `s` does not occur in it. */
  lemma ContainsKeepsChars(s: string, k: string, c: char)
    requires c in k
    ensures Contains(s, k) ==> c in s
  {
    ContainsIffOccurs(s, k);
    if Contains(s, k) {
      var i :| OccursAt(s, k, i);
      var j :| 0 <= j < |k| && k[j] == c;
      assert s[i..i + |k|][j] == c;
      assert s[i + j] == c;
    }
  }

  /** The fields of `s.split(' ')`: the maximal runs between single spaces,
      so `n` spaces always give `n + 1` fields, some possibly empty. */
  function SplitOnSpace(s: string): (fields: seq<string>)
    ensures |fields| >= 1
    ensures forall i :: 0 <= i < |fields| ==> ' ' !in fields[i]
    decreases |s|
  {
    if s == [] then [""]
    else
      var rest := SplitOnSpace(s[1..]);
      if s[0] == ' ' then [""] + rest
      else [[s[0]] + rest[0]] + rest[1..]
  }

  /** Joining the fields back with single spaces gives the original string. */
  function JoinWithSpace(fields: seq<string>): string
    requires |fields| >= 1
  {
    if |fields| == 1 then fields[0] else fields[0] + " " + JoinWithSpace(fields[1..])
  }

  lemma {:induction false} SplitJoinRoundTrip(s: string)
    ensures JoinWithSpace(SplitOnSpace(s)) == s
    decreases |s|
  {
    if s != [] {
      SplitJoinRoundTrip(s[1..]);
      var rest := SplitOnSpace(s[1..]);
      if s[0] == ' ' {
        assert SplitOnSpace(s) == [""] + rest;
        assert (([""] + rest)[1..]) == rest;
      } else {
        var fields := [[s[0]] + rest[0]] + rest[1..];
        assert SplitOnSpace(s) == fields;
        if |rest| == 1 {
          assert JoinWithSpace(fields) == [s[0]] + rest[0];
        } else {
          assert fields[1..] == rest[1..];
          assert JoinWithSpace(rest) == rest[0] + " " + JoinWithSpace(rest[1..]);
        }
      }
    }
  }

  /** Splitting `a + " " + b` when `a` has no space: the first field is `a`
      and the second field is the first field of `b`. */
  lemma {:induction false} SplitAfterWord(a: string, b: string)
    requires ' ' !in a
    ensures SplitOnSpace(a + " " + b) == [a] + SplitOnSpace(b)
    decreases |a|
  {
    if a == [] {
      assert a + " " + b == [' '] + b;
      assert ([' '] + b)[1..] == b;
    } else {
      var s := a + " " + b;
      assert s[0] == a[0];
      assert s[1..] == a[1..] + " " + b;
      SplitAfterWord(a[1..], b);
      assert [a[0]] + a[1..] == a;
    }
  }

  function DigitChar(d: nat): char
    requires d < 10
  {
    ('0' as int + d) as char
  }

  /** Decimal rendering of a non-negative number, as template literals do. */
  function NatToString(n: nat): (r: string)
    ensures |r| >= 1
    ensures forall i :: 0 <= i < |r| ==> '0' <= r[i] <= '9'
  {
    if n < 10 then [DigitChar(n)] else NatToString(n / 10) + [DigitChar(n % 10)]
  }

  /** Rendering of a possibly negative number. */
  function IntToString(n: int): (r: string)
    ensures |r| >= 1
  {
    if n < 0 then "-" + NatToString(-n) else NatToString(n)
  }

  // ----- `String.prototype.length` -----

  /** The UTF-16 code units of one character: two (a surrogate pair) above
      the Basic Multilingual Plane, one otherwise. */
  function Utf16Units(c: char): (n: nat)
    ensures n == 1 || n == 2
  {
    if c as int >= 0x1_0000 then 2 else 1
  }

  /** `s.length` in JavaScript: UTF-16 code units, not characters. */
  function Utf16Length(s: string): (n: nat)
    ensures |s| <= n <= 2 * |s|
    decreases |s|
  {
    if s == [] then 0 else Utf16Units(s[0]) + Utf16Length(s[1..])
  }

  /** Lengths add up over concatenation. */
  lemma {:induction false} Utf16LengthAppend(a: string, b: string)
    ensures Utf16Length(a + b) == Utf16Length(a) + Utf16Length(b)
    decreases |a|
  {
    if a == [] {
      assert a + b == b;
    } else {
      assert (a + b)[0] == a[0] && (a + b)[1..] == a[1..] + b;
      Utf16LengthAppend(a[1..], b);
    }
  }

  /** JavaScript and character counts agree exactly on text inside the Basic
      Multilingual Plane. */
  lemma {:induction false} Utf16LengthIsLengthIffBmp(s: string)
    ensures Utf16Length(s) == |s| <==> forall i :: 0 <= i < |s| ==> s[i] as int < 0x1_0000
    decreases |s|
  {
    if s != [] {
      Utf16LengthIsLengthIffBmp(s[1..]);
      assert forall i :: 1 <= i < |s| ==> s[i] == s[1..][i - 1];
    }
  }
}

=== FILE: token_crypto.dfy ===
/** The sealing of the stored provider credential in server/storage.ts:
    AES-256-GCM under a key derived with scrypt from a configured secret,
    stored as base64 of `iv || tag || ciphertext`. The cipher and the key
    derivation are parameters; what is modelled is the choice of secret, the
    framing and the error handling around them. */
module TokenCrypto {
  import opened Wrappers
  import opened Base64

  type Bytes = seq<byte>

  const IvLength: nat := 12
  const TagLength: nat := 16
  const FallbackSecret := "fallback-secret"
  const WeakSecretInProduction := "TELLER_TOKEN_KEY or strong SESSION_SECRET required in production"

  /** The environment variables the code reads. An unset variable is `None`. */
  datatype Env = Env(tellerTokenKey: Option<string>, sessionSecret: Option<string>, production: bool)

  /** The output of the authenticated cipher: ciphertext and 16-byte tag. */
  datatype Sealed = Sealed(ciphertext: Bytes, tag: Bytes)

  /** AES-256-GCM with scrypt key derivation (salt `teller-token`, 32-byte
      key). `open` is `None` where `decipher.final()` throws. */
  datatype Cipher = Cipher(
    derive: string -> Bytes,
    seal: (Bytes, Bytes, string) -> Sealed,
    open: (Bytes, Bytes, Bytes, Bytes) -> Option<string>)

  /** What the model needs of the cipher: a 16-byte tag, and opening with the
      same key, iv and tag gives the plaintext back. */
  ghost predicate Correct(c: Cipher) {
    forall key, iv, text :: |iv| == IvLength ==>
      var sealed := c.seal(key, iv, text);
      |sealed.tag| == TagLength && c.open(key, iv, sealed.tag, sealed.ciphertext) == Some(text)
  }

  /** JavaScript `a || b` on an optional string: an unset or empty `a` gives `b`. */
  function Or(a: Option<string>, b: Option<string>): (r: Option<string>)
    ensures r.Some? && r.value != "" <==> (a.Some? && a.value != "") || (b.Some? && b.value != "")
    ensures a.Some? && a.value != "" ==> r == a
  {
    if a.Some? && a.value != "" then a else b
  }

  /** The configured secret: `TELLER_TOKEN_KEY || SESSION_SECRET`. */
  function Configured(env: Env): Option<string> {
    Or(env.tellerTokenKey, env.sessionSecret)
  }

  /** A missing, empty or fallback secret is weak. */
  predicate Weak(secret: Option<string>) {
    secret.None? || secret.value == "" || secret.value == FallbackSecret
  }

  /** The secret encryption uses: a weak secret throws in production and is
      replaced by the fallback otherwise. */
  function EncryptionSecret(env: Env): (r: Result<string, string>)
    ensures r.Failure? <==> env.production && Weak(Configured(env))
    ensures r.Failure? ==> r.error == WeakSecretInProduction
    ensures r.Success? ==> r.value != ""
    ensures r.Success? && !Weak(Configured(env)) ==> Some(r.value) == Configured(env)
  {
    var secret := Configured(env);
    if Weak(secret) && env.production then Failure(WeakSecretInProduction)
    else Success(Or(secret, Some(FallbackSecret)).value)
  }

  /** The secret decryption uses: `TELLER_TOKEN_KEY || SESSION_SECRET ||
      'fallback-secret'`, with no production check. */
  function DecryptionSecret(env: Env): (r: string)
    ensures r != ""
  {
    Or(Configured(env), Some(FallbackSecret)).value
  }

  /** Whenever encryption finds a secret, decryption finds the same one. */
  lemma SecretsAgree(env: Env)
    ensures EncryptionSecret(env).Success? ==> EncryptionSecret(env).value == DecryptionSecret(env)
    ensures !env.production ==> EncryptionSecret(env).Success?
  {
  }

  /** The stored layout: iv, then tag, then ciphertext. */
  function Frame(iv: Bytes, sealed: Sealed): (r: Bytes)
    ensures |r| == |iv| + |sealed.tag| + |sealed.ciphertext|
  {
    iv + sealed.tag + sealed.ciphertext
  }

  /** `subarray(0, 12)`, `subarray(12, 28)`, `subarray(28)`: each slice is
      clamped to the buffer, so a short buffer gives short or empty pieces. */
  function Unframe(data: Bytes): (r: (Bytes, Bytes, Bytes))
    ensures r.0 + r.1 + r.2 == data
    ensures |r.0| <= IvLength && |r.1| <= TagLength
    ensures |data| >= IvLength + TagLength ==> |r.0| == IvLength && |r.1| == TagLength
  {
    var i := if |data| < IvLength then |data| else IvLength;
    var j := if |data| < IvLength + TagLength then |data| else IvLength + TagLength;
    assert data == data[..i] + data[i..j] + data[j..];
    (data[..i], data[i..j], data[j..])
  }

  /** Unframing undoes framing when the iv and the tag have their lengths. */
  lemma UnframeFrame(iv: Bytes, sealed: Sealed)
    requires |iv| == IvLength && |sealed.tag| == TagLength
    ensures Unframe(Frame(iv, sealed)) == (iv, sealed.tag, sealed.ciphertext)
  {
    var data := Frame(iv, sealed);
    assert data[..IvLength] == iv;
    assert data[IvLength..IvLength + TagLength] == sealed.tag;
    assert data[IvLength + TagLength..] == sealed.ciphertext;
  }

  /** `secureEncrypt`: seals `text` under a fresh iv (`randomBytes(12)`,
      passed in) and returns the base64 frame; the only failure is the
      production check. */
  function Encrypt(env: Env, c: Cipher, iv: Bytes, text: string): (r: Result<string, string>)
    requires |iv| == IvLength
    ensures r.Failure? <==> EncryptionSecret(env).Failure?
    ensures r.Success? ==> var data := Decode(r.value);
      data.Some? && |data.value| >= IvLength && data.value[..IvLength] == iv
  {
    var secret :- EncryptionSecret(env);
    var frame := Frame(iv, c.seal(c.derive(secret), iv, text));
    DecodeEncode(frame);
    Success(Encode(frame))
  }

  /** `secureDecrypt` with its caller's `catch`: `None` where the code
      throws (text that is not base64, a failed authentication). */
  function Decrypt(env: Env, c: Cipher, stored: string): (r: Option<string>)
    ensures Decode(stored).None? ==> r.None?
  {
    match Decode(stored)
    case None => None
    case Some(data) =>
      var (iv, tag, ciphertext) := Unframe(data);
      c.open(c.derive(DecryptionSecret(env)), iv, tag, ciphertext)
  }

  /** Decrypting what was encrypted gives back the plaintext. */
  lemma DecryptEncrypt(env: Env, c: Cipher, iv: Bytes, text: string)
    requires Correct(c) && |iv| == IvLength
    ensures Encrypt(env, c, iv, text).Success? ==> Decrypt(env, c, Encrypt(env, c, iv, text).value) == Some(text)
  {
    if Encrypt(env, c, iv, text).Success? {
      var key := c.derive(EncryptionSecret(env).value);
      var sealed := c.seal(key, iv, text);
      var frame := Frame(iv, sealed);
      DecodeEncode(frame);
      SecretsAgree(env);
      UnframeFrame(iv, sealed);
    }
  }
}

=== FILE: wrappers.dfy ===
/** Failure-compatible result types shared by every module of the model:
    `Option` stands for the source's `T | undefined` / `T | null`, and
    `Result` for a call that either returns or throws. */
module Wrappers {

  datatype Option<+T> = None | Some(value: T) {

    predicate IsFailure() {
      None?
    }

    function PropagateFailure<U>(): Option<U>
      requires None?
    {
      None
    }

    function Extract(): T
      requires Some?
    {
      value
    }

    function GetOr(default: T): T {
      match this
      case Some(v) => v
      case None => default
    }
  }

  datatype Result<+R, +E> = Success(value: R) | Failure(error: E) {

    predicate IsFailure() {
      Failure?
    }

    function PropagateFailure<U>(): Result<U, E>
      requires Failure?
    {
      Failure(error)
    }

    function Extract(): R
      requires Success?
    {
      value
    }
  }
}
